=== FILE: README.md ===
# varint_rvv decoders, modelled in Dafny

This project models the decoding core of varint_rvv. varint_rvv decodes a byte
stream of unsigned LEB128 varints (protobuf style, section 7.6 of DWARF 5)
into 32-bit integers. It does so with the RISC-V Vector Extension 1.0 (RVV).

A varint is 1 to 5 bytes. Each byte gives 7 payload bits, least significant
group first. A byte with bit 7 set (a *continuation byte*) is followed by
another byte of the same varint. A byte with bit 7 clear (a *terminator*)
ends the varint. The reference meaning is `Varint.Values`: the input is split
into its varints, and each varint's payload groups are summed modulo 2^32.
Every decoder is compared with this reference.

| module | file | models |
|---|---|---|
| `Rvv` | rvv.dfy | the RVV instructions the kernels use, lane by lane |
| `Varint` | varint.dfy | the byte format: `Value`, `Varints`, `Values`, `WellFormed` streams, windows; the `Encode` reference encoder |
| `Scalar` | scalar.dfy | `ReadVarint32FromArray` and `varint_decode_scalar` |
| `Vecshift` | vecshift.dfy | `varint_decode_vecshift` (and `_m2`) |
| `Vecshift16` | vecshift16.dfy | the 16-bit `vwmaccu` variant of vecshift |
| `Maskshift` | maskshift.dfy | the mask/shift kernels `varint_decode_m1` and `varint_decode_m2`, and their dispatcher |
| `Exported` | varintdecode.dfy | the older `varint_decode` of varintdecode.c |
| `MaskedVByte` | maskedvbyte.dfy | `create_mask`, `masked_vbyte_read_group` and `varint_decode_masked_vbyte` |

Modelling choices:

- **Registers and masks.** A vector register holding `vl` active lanes is a
  `seq<bv8>` or `seq<bv32>` of length `vl`. A mask is a `seq<bool>`. Values
  are `bv32`, so the C `uint32_t` wrap-around is native.
- **Undefined tail lanes are parameters.** Some lanes are left to the
  hardware by the tail-agnostic policy: the bit that `vsrl` shifts in past
  `vl` in a mask word, and the mask lanes 16..63 that `create_mask` reads out
  as part of a `uint64_t`. These are parameters (`Maskshift.Tail`, and the
  `tail` function in `MaskedVByte`). The lemmas hold for every choice of them.
- **Masked-off lanes.** The masked `vsll` and `vor` steps of the mask/shift
  kernels use the `_m` intrinsics. Their policy is mask-agnostic: a lane the
  mask turns off may keep its value or be overwritten with ones.
  `Maskshift.AgnosticKernel` takes that choice as a `MaskedOff` parameter.
  `Maskshift.Kernel` is the mask-undisturbed choice of the `_mu` intrinsics
  (`UndisturbedKernel`). The value lemmas of the m1/m2 and varintdecode.c
  slow paths are stated for `Kernel`. With the all-ones choice, the lane of a
  one-byte varint is lost (`MaskedOffLane`, and see Findings).
- **Tail lanes of `vcompress`.** `Rvv.Compress` fills the lanes past the
  selected count with 0. RVV leaves those lanes tail-agnostic. The value
  lemmas are proved for the zero fill.
- **`vrgather` range.** `Rvv.Gather` gives 0 for an index at or past the
  register length. `varint_decode_masked_vbyte` fixes VLMAX at 16, so the
  model takes 16-byte registers (VLEN = 128). On a longer register, indices
  16 up to VLMAX - 1 would read lanes past the loaded group.
- **Mask words.** A mask reinterpreted as `u64` words and shifted or and-ed
  with an element count of `vl / 8` is modelled with an explicit `words`
  count. Lanes in elements at or past that count keep their old value.
- **Batches.** One loop iteration is a function from the batch bytes to a
  `Batch(values, consumed)`. The loops are methods. The scalar, vecshift,
  16-bit vecshift and corrected mask/shift loops are proved equal to the
  reference on every well-formed stream. `Exported.ExportedDecode` is proved
  to be the window-by-window loop; it leaves its last bytes undecoded and so
  differs from the reference (see Findings). `MaskedVByte.MaskedVByteDecode`
  is proved equal to the reference only for inputs under 16 bytes and for
  all-terminator inputs.
- **Masked VByte tables.** The contents of `combined_lookup` and
  `vectorsrawbytes` are not modelled. `MaskedVByte.Tables` stands for them.
  Two predicates state what the driver needs of them:
  - `Covers`: every read stays inside the tables.
  - `Aligned`: every entry a stream can reach consumes 1 to 12 bytes and
    ends on a terminator.

Where a comment in the C source and the code disagree, the model follows the
code:

- The comment on `createCompressMask` says the shift is `>>`, but the code
  shifts left with `vsll`.
- The comment at varint_decode_vecshift.c:216 says `result12` is shifted by
  14. In the code it is `result34` that is multiplied by 16384 and added to
  `result12`.

## Model

| member | source | states |
|---|---|---|
| Scalar.ReadVarint32 | lib/src/varint_decode_scalar.c:4-53 | `ReadVarint32FromArray` as written, with its subtract-0x80 steps and 32-bit wrap-around. It consumes at most 5 bytes, and 0 when all five carry the continuation bit. What it returns is stated by `ReadLeading`, `ReadGivesUp` and `ReadEncode`. |
| Scalar.ReadLeading | lib/src/varint_decode_scalar.c:4-53 | The buffer may start with a varint of k ≤ 5 bytes. Then the read consumes exactly k bytes, and the subtract-0x80 steps return that varint's group sum. |
| Scalar.ReadGivesUp | lib/src/varint_decode_scalar.c:42-52 | The read consumes 0 bytes exactly when the first five bytes all carry the continuation bit. |
| Scalar.ReadsAtMostFive | lib/src/varint_decode_scalar.c:4-53 | The read depends only on the bytes it consumes, or on the first five when it gives up. Cutting the buffer right after them changes nothing. |
| Scalar.Read150 | lib/src/varint_decode_scalar.c:16-25 | [0x96, 0x01] reads as 150 and consumes 2 bytes. |
| Scalar.ReadMax | lib/src/varint_decode_scalar.c:42-52 | [0xFF, 0xFF, 0xFF, 0xFF, 0x0F] reads as 0xFFFFFFFF and consumes 5 bytes. |
| Scalar.ReadEncode | lib/src/varint_decode_scalar.c:4-53 | Reading the encoding of x, whatever follows it, gives x and consumes the encoding's length (round trip with the reference encoder). |
| Scalar.DecodeScalar | lib/src/varint_decode_scalar.c:55-66 | On a stream, the output is the value of every varint in order, and the count returned is the number of terminator bytes. |
| Scalar.DecodeEncoded | lib/src/varint_decode_scalar.c:55-66 | Decoding the concatenated encodings of a list of integers gives the list back. |
| Varint.Encode | example/example.c:33-49 | The encoding of x has 1, 2, 3, 4 or 5 bytes exactly when x lies in [0, 2^7), [2^7, 2^14), [2^14, 2^21), [2^21, 2^28) or [2^28, 2^32). These are the length classes the example generator draws from. |
| Varint.EncodeIsVarint | example/example.c:33-49 | The encoding of x is one complete varint, has no zero last group, and has value x. |
| Varint.EncodeAllRoundTrip | example/example.c:149-165 | The concatenated encodings of a list form a well-formed stream whose values are the list. This is the property the example checks. |
| Varint.VarintsAreTerminators | lib/src/varint_decode_vecshift.c:30-32 | The number of complete varints in a batch equals the number of terminator bytes, which is what `getNumberOfVarints` counts. |
| Varint.ByteTotal | lib/src/varint_decode_vecshift.c:69-117 | For k = 0..4, count the varints longer than k bytes. Together these counts add up to the bytes of the complete varints. |
| Varint.WindowOfStream | lib/src/varint_decode_vecshift.c:24-28 | A window cut from a stream has these properties: its complete varints come first; what follows them is again a stream; the values split at that point. When vl ≥ 5 or the window is the whole rest, it holds at least one complete varint. |
| Rvv.CompressRank | lib/src/varint_decode_vecshift.c:58-62 | After `vcompress`, the p-th lane of the source lands in the lane given by the number of selected lanes before p. |
| Vecshift.VecshiftBatch | lib/src/varint_decode_vecshift.c:26-136 | One turn of the `varint_decode_vecshift` loop: the all-terminator fast path, or the slide/compress/mask kernel. It stores one lane per terminator byte. `VecshiftBatchDecodes` proves those lanes are the reference values. |
| Vecshift.FirstBytes | lib/src/varint_decode_vecshift.c:53-55 | Lane i of the first-byte mask is set exactly when i = 0 or byte i-1 is a terminator. |
| Vecshift.CompressedLane | lib/src/varint_decode_vecshift.c:48-62 | Lane j of the k-times slid-down register, compressed by the first-byte mask, is byte k of the stream starting at varint j, or 0 past the end. |
| Vecshift.MaskLane | lib/src/varint_decode_vecshift.c:64-67 | Lane j of the (k+1)-th-byte mask is set exactly when complete varint j is longer than k bytes. |
| Vecshift.MaskPrefix | lib/src/varint_decode_vecshift.c:64-71 | Over the `number_of_varints` lanes, the (k+1)-th-byte mask is the list of "longer than k" flags of the complete varints. |
| Vecshift.LongerNested | lib/src/varint_decode_vecshift.c:89-126 | When no varint is longer than k bytes, none is longer than k+1. The early exits on a zero count therefore skip only lanes that add nothing. |
| Vecshift.KernelBytes | lib/src/varint_decode_vecshift.c:69-117 | The byte count summed from the mask counts is the byte length of the complete varints. |
| Vecshift.LaneIsScalarRead | lib/src/varint_decode_vecshift.c:76-129 | Each stored lane equals what `ReadVarint32FromArray` reads at the start of its varint. |
| Vecshift.KernelValues | lib/src/varint_decode_vecshift.c:76-129 | The first `number_of_varints` assembled lanes are the values of the batch's complete varints. |
| Vecshift.FastPathIsKernel | lib/src/varint_decode_vecshift.c:34-43 | On a batch of terminators only, the kernel would store and consume exactly what the fast path does. |
| Vecshift.VecshiftBatchDecodes | lib/src/varint_decode_vecshift.c:24-136 | One iteration stores the values of the complete varints and consumes their bytes. |
| Vecshift.VecshiftStep | lib/src/varint_decode_vecshift.c:24-136 | A turn of the loop on a stream consumes 1 to vl bytes and leaves a stream. Its stored values followed by the rest's values are the stream's values. |
| Vecshift.VecshiftRound | lib/src/varint_decode_vecshift.c:26-136 | The same step as a method: cursor advance, remaining stream, and the split of the values. |
| Vecshift.VecshiftDecode | lib/src/varint_decode_vecshift.c:18-139 | On a stream, the loop writes the value of every varint in order and returns how many it wrote. |
| Vecshift16.VecshiftU16Batch | lib/src/varint_decode_vecshift.c:157-250 | One turn of the `varint_decode_vecshift_u16` loop, with the `vwmaccu` pairs. It stores one lane per terminator byte. `U16AgreesWithVecshift` proves it equal to the 32-bit turn. |
| Vecshift16.PairBound | lib/src/varint_decode_vecshift.c:207-214 | A `vwmaccu` pair of two 7-bit payloads fits in 14 bits, so the 16-bit lanes never overflow. |
| Vecshift16.Lane16IsLaneSum | lib/src/varint_decode_vecshift.c:207-231 | On any five bytes, the 16-bit multiply-accumulate lane equals the 32-bit shift-and-add lane. |
| Vecshift16.AssembleAgrees | lib/src/varint_decode_vecshift.c:202-231 | The u16 variant's assembled register equals the 32-bit variant's, for any registers. |
| Vecshift16.ByteCountAgrees | lib/src/varint_decode_vecshift.c:233-240 | Summing count2..count5 together gives the byte count of the early-exit chain. |
| Vecshift16.U16AgreesWithVecshift | lib/src/varint_decode_vecshift.c:150-253 | One iteration of the u16 variant equals one iteration of the 32-bit variant. |
| Vecshift16.VecshiftU16BatchDecodes | lib/src/varint_decode_vecshift.c:150-253 | One iteration of the u16 variant stores the values of the complete varints and consumes their bytes. |
| Vecshift16.VecshiftU16Decode | lib/src/varint_decode_vecshift.c:150-253 | On a stream, the u16 loop writes the value of every varint in order. |
| Maskshift.SecondBytesMask | lib/src/varint_decode_maskshift.c:3-9 | Lane i is set exactly when byte i is a continuation byte and the next byte (the slid-in byte for the last lane) is a terminator. |
| Maskshift.NBytesMask | lib/src/varint_decode_maskshift.c:19-26 | With at least one mask word, lane i is set exactly when lane i+1 of the previous mask and lane i of the continuation mask are set. With no mask word, the previous mask comes back unchanged. |
| Maskshift.CompressMask | lib/src/varint_decode_maskshift.c:36-48 | With at least one mask word, lane i is set exactly when lane i-shifts of `upper` differs from lane i of the terminator mask, or lane i of `upper` is set. |
| Maskshift.NumberOfVarints | lib/src/varint_decode_maskshift.c:66-69 | `vcpop` returned as a `uint8_t`: below 256, and the number of set lanes for vl ≤ 255. |
| Maskshift.RedMaxIsLast | lib/src/varint_decode_maskshift.c:104-117 | The max-reduction over the merged lane indices finds the last lane whose mask lane is clear. |
| Maskshift.CompleteVarintSize | lib/src/varint_decode_maskshift.c:84-117 | `getCompleteVarintSize` and its `_m2` variant: the max-reduced lane index plus one, truncated to `uint8_t`, so below 256. `CompleteVarintSizeIsCompleteLen` proves it is the byte length of the complete varints. |
| Maskshift.CompleteVarintSizeIsCompleteLen | lib/src/varint_decode_maskshift.c:84-117 | On a batch holding a complete varint, `getCompleteVarintSize` is the byte length of the complete varints, for the signed (m2, up to 127 lanes) and the unsigned (m1) reduction. |
| Maskshift.GroupMaskInFirst | lib/src/varint_decode_maskshift.c:288-311 | Inside a varint of n bytes, the compress mask for the k-th byte group selects exactly one lane: the k-th byte from the end when n ≥ k, the terminator otherwise. |
| Maskshift.TerminatorLane | lib/src/varint_decode_maskshift.c:279-280 | Lane j of the compressed terminators is the terminator of varint j. |
| Maskshift.GroupLane | lib/src/varint_decode_maskshift.c:283-340 | Lane j of the compressed k-th byte group is the k-th byte from the end of varint j, or 0 when the varint is shorter. |
| Maskshift.Kernel | lib/src/varint_decode_maskshift.c:278-343 | The slow path over all vl lanes under the mask-undisturbed reading: one lane per byte, with the third to fifth groups applied only when their `vcpop` is nonzero. `KernelValues` proves its first lanes are the reference values. |
| Maskshift.AgnosticKernel | lib/src/varint_decode_maskshift.c:296-343 | The same slow path with the masked-off lanes of every step given by a `MaskedOff` parameter, one lane per byte. `UndisturbedKernel` and `MaskedOffLane` relate it to `Kernel`. |
| Maskshift.KernelLane | lib/src/varint_decode_maskshift.c:278-343 | Lane j of the kernel result is the shift-in chain over varint j's bytes, whatever the tail lanes hold. Skipped groups change no such lane. |
| Maskshift.AgnosticLanes | lib/src/varint_decode_maskshift.c:302-303 | A lane whose byte for the step is nonzero is shifted left by 7 and or-ed with that byte. Every other lane takes the value the masked-off choice gives it. |
| Maskshift.UndisturbedKernel | lib/src/varint_decode_maskshift.c:296-343 | If masked-off lanes keep their content, as the `_mu` intrinsics do, the slow path computes exactly `Kernel`. |
| Maskshift.MaskedOffLane | lib/src/varint_decode_maskshift.c:296-343 | A one-byte varint's lane is masked off at every step. With the all-ones choice it ends as 0xFFFFFFFF, while `Kernel` holds the varint's value, which is below 0x80. |
| Maskshift.MixedBatchWitness | lib/src/varint_decode_maskshift.c:302-303 | On the batch [0x05, 0x96, 0x01, 0, 0, 0, 0, 0], lane 0 is 0xFFFFFFFF under the all-ones choice and 5 under the undisturbed one. |
| Maskshift.KernelValues | lib/src/varint_decode_maskshift.c:278-345 | The first `number_of_varints` kernel lanes are the values of the complete varints. |
| Maskshift.MaskshiftBatch | lib/src/varint_decode_maskshift.c:248-352 | One turn of the m1 / m2 loop with a given number of mask words: the all-terminator fast path, or `Kernel` cut to `number_of_varints` lanes with `getCompleteVarintSize` bytes. It stores one value per terminator byte. |
| Maskshift.AsWrittenBatch | lib/src/varint_decode_maskshift.c:248-352 | The turn as written, with `vl / 8` mask words. `AsWrittenFromEight` and `ShortBatchWitness` say where it is right and where not. |
| Maskshift.CorrectedBatch | lib/src/varint_decode_maskshift.c:248-352 | The turn with `(vl + 7) / 8` mask words. `CorrectedBatchDecodes` proves it decodes every batch of 1 to 64 bytes. |
| Maskshift.MaskshiftBatchDecodes | lib/src/varint_decode_maskshift.c:248-352 | With at least one mask word, one iteration stores the values of the complete varints and consumes their bytes. |
| Maskshift.AsWrittenFromEight | lib/src/varint_decode_maskshift.c:248-352 | As written (vl / 8 mask words), one iteration is correct on every batch of 8 to 64 bytes. |
| Maskshift.ShortBatchWitness | lib/src/varint_decode_maskshift.c:19-26 | As written, the batch [0x96, 0x01] (value 150) stores 314936086. |
| Maskshift.CorrectedBatchDecodes | lib/src/varint_decode_maskshift.c:248-352 | With (vl + 7) / 8 mask words, every batch of 1 to 64 bytes decodes correctly. |
| Maskshift.MaskshiftStep | lib/src/varint_decode_maskshift.c:248-352 | A turn of the corrected loop on a stream consumes 1 to vl bytes and leaves a stream. Its values followed by the rest's values are the stream's values. |
| Maskshift.MaskshiftDecode | lib/src/varint_decode_maskshift.c:242-355 | On a stream, the corrected m1 / m2 loop writes the value of every varint in order and returns how many it wrote. |
| Maskshift.MaskshiftDispatch | lib/src/varint_decode_maskshift.c:357-368 | `varint_decode` picks the m2 loop below VLMAX 64 and the m1 loop otherwise. With the corrected m1 / m2 loops, either choice decodes every stream correctly. |
| Exported.ExportedBatch | lib/src/varintdecode.c:94-207 | One window of `varint_decode`: the whole window zero-extended when `getCompleteVarintSize` equals its length, otherwise one value per terminator byte from the clear-then-test kernel, advancing by `getCompleteVarintSize`. |
| Exported.ContinuationsInverted | lib/src/varintdecode.c:112 | `vmnot` of the `vmslt` mask is the terminator mask. |
| Exported.FastPathIff | lib/src/varintdecode.c:99-109 | The window is stored zero-extended whole exactly when its last byte is a terminator, not when every byte is one. |
| Exported.ExportedConsumes | lib/src/varintdecode.c:99-109 | On either path, a window holding a complete varint advances by the byte length of its complete varints. |
| Exported.ExportedAllTerminators | lib/src/varintdecode.c:99-109 | On a window of terminators only, the fast path stores the right values. |
| Exported.ExportedAgrees | lib/src/varintdecode.c:110-207 | On the slow path, on windows of 8 to 64 bytes with no 0x80 byte, the values stored are the values of the complete varints. |
| Exported.FastPathWitness | lib/src/varintdecode.c:99-109 | A window starting with [0xAC, 0x02] (value 300) and ending on a terminator stores 172 and 2. |
| Exported.SlowPathWitness | lib/src/varintdecode.c:131-140 | A window starting with [0x80, 0x01] (value 128) that takes the slow path stores 1 for it. |
| Exported.ExportedIsWindowDecoder | lib/src/varintdecode.c:94-207 | For VLMAX from 16 to 64, every window consumes 1 to VLMAX bytes. A window holding a complete varint stops just after a terminator. |
| Exported.WindowLoop | lib/src/varintdecode.c:92-209 | The loop writes, window after window, the values each window of VLMAX bytes stores, advancing by the bytes it consumed while more than VLMAX bytes remain. The count returned is the number of values written. |
| Exported.TerminatorStep | lib/src/varintdecode.c:94-207 | A window read at a varint boundary of a stream consumes 1 to VLMAX bytes and stops just after a terminator. |
| Exported.RunEndsAtBoundary | lib/src/varintdecode.c:92-209 | A run of windows started at a varint boundary leaves its undecoded bytes starting at a varint boundary. |
| Exported.LeavesStream | lib/src/varintdecode.c:92-209 | Whatever the window decoder, if its windows stop on terminators, the bytes the loop leaves undecoded of a stream are a stream. |
| Exported.ExportedLeavesStream | lib/src/varintdecode.c:92-209 | The bytes varint_decode leaves undecoded of a stream are a stream. |
| Exported.ExportedDecode | lib/src/varintdecode.c:86-211 | The output is the window-by-window run of the loop, and the count returned is its length. The function decodes only while more than VLMAX bytes remain. At most VLMAX bytes, or the whole input when it is no longer than VLMAX, are left undecoded. A non-empty input always leaves at least one byte undecoded, and the undecoded rest of a stream is a stream. |
| MaskedVByte.CreateMask | lib/src/varint_decode_maskedvbyte.c:4-13 | `create_mask`: the `vmslt` mask of the 16 bytes read out as one 64-bit element, with lanes 16..63 as tail lanes. Its bits are stated by `CreateMaskBit`, `FastPathIff` and `Low12`. |
| MaskedVByte.CreateMaskBit | lib/src/varint_decode_maskedvbyte.c:4-13 | Bit i of the mask word, for i < 16, is set exactly when byte i is a continuation byte. |
| MaskedVByte.FastPathIff | lib/src/varint_decode_maskedvbyte.c:31 | `!(mask & 0xFFFF)` holds exactly when all 16 bytes are terminators, whatever the tail lanes hold. |
| MaskedVByte.Low12 | lib/src/varint_decode_maskedvbyte.c:43 | `mask & 0xFFF` is the bit pattern of the continuation bytes among the first 12 bytes. |
| MaskedVByte.TableIndexLocal | lib/src/varint_decode_maskedvbyte.c:43-44 | The table entry depends only on the first 12 bytes of the group, and not on any tail lane. |
| MaskedVByte.FastPathDecodes | lib/src/varint_decode_maskedvbyte.c:30-37 | A group of 16 terminators yields its 16 one-byte values and consumes 16 bytes. |
| MaskedVByte.ReadGroup | lib/src/varint_decode_maskedvbyte.c:26-97 | The fast path when the low 16 mask bits are clear. Otherwise the group consumes its table entry's byte count, and reads 6, 4 or 2 integers for an index below 64, below 145, or above. |
| MaskedVByte.SixRegime | lib/src/varint_decode_maskedvbyte.c:50-63 | In the 6-int regime, the outputs are 16-bit slots 0, 2, 4, 6, 1, 3 of the shuffled group. |
| MaskedVByte.SixInts | lib/src/varint_decode_maskedvbyte.c:50-63 | The 6-int regime: six outputs from the repacked 16-bit lanes of the shuffled group. `SixRegime` and `SlotIsValue` say which slots and what they are worth. |
| MaskedVByte.SixIntsBound | lib/src/varint_decode_maskedvbyte.c:53-61 | Each 6-int output is below 2^14. |
| MaskedVByte.SlotIsValue | lib/src/varint_decode_maskedvbyte.c:54-57 | A packed 16-bit slot of bytes a, b is the value of the varint [a, b]. |
| MaskedVByte.FourRegime | lib/src/varint_decode_maskedvbyte.c:65-79 | In the 4-int regime, output n combines the payloads of shuffled bytes 4n, 4n+1 and 4n+2. |
| MaskedVByte.FourInts | lib/src/varint_decode_maskedvbyte.c:65-79 | The 4-int regime: four outputs, one per repacked 32-bit lane of the shuffled group. `FourRegime` and `QuadIsValue` say what they are worth. |
| MaskedVByte.FourIntsIgnoreFourth | lib/src/varint_decode_maskedvbyte.c:70-76 | The 4-int outputs do not depend on shuffled bytes 4n+3. |
| MaskedVByte.QuadIsValue | lib/src/varint_decode_maskedvbyte.c:70-76 | The combined payloads of bytes a, b, c are the value of the varint [a, b, c]. |
| MaskedVByte.GroupAdvances | lib/src/varint_decode_maskedvbyte.c:106-116 | Under `Aligned` tables, a group read at the head of a stream consumes 1 to 16 bytes and leaves a stream. |
| MaskedVByte.RoundAdvances | lib/src/varint_decode_maskedvbyte.c:108-113 | Under `Aligned` tables, a group read at a varint boundary of a stream consumes 1 to 16 bytes and stops just after a terminator. |
| MaskedVByte.ReaderReads | lib/src/varint_decode_maskedvbyte.c:108-113 | `create_mask` followed by `masked_vbyte_read_group`, with the tail lanes the cursor observes, reads every group at a boundary of a stream that way. On an all-terminator stream each group copies its 16 bytes zero-extended. |
| MaskedVByte.GroupsOut | lib/src/varint_decode_maskedvbyte.c:106-116 | The groups the loop reads from a varint boundary on, while 16 or more bytes remain: their integers in order and the bytes they consume. `GroupsEnd` and `GroupsStep` state where it stops and how it unfolds. |
| MaskedVByte.GroupLoop | lib/src/varint_decode_maskedvbyte.c:106-116 | The loop writes the values of the groups read one after the other from the start, while 16 or more bytes remain, and stops where they stop. |
| MaskedVByte.GroupsStep | lib/src/varint_decode_maskedvbyte.c:108-115 | A group read at a boundary consumes 1 to 16 bytes and lands on a boundary. The run from there is that group followed by the run from where it stops. |
| MaskedVByte.GroupsEnd | lib/src/varint_decode_maskedvbyte.c:106-116 | The groups stop at a varint boundary with fewer than 16 bytes left. They consume nothing exactly when fewer than 16 bytes are there to begin with. |
| MaskedVByte.GroupsSmall | lib/src/varint_decode_maskedvbyte.c:106-116 | When every group copies its bytes, the run extends the zero-extended prefix by the bytes it consumes. |
| MaskedVByte.GroupsLeaveStream | lib/src/varint_decode_maskedvbyte.c:106-120 | What the groups leave of a stream is a stream, so the scalar decoder gets whole varints. |
| MaskedVByte.GroupsProgress | lib/src/varint_decode_maskedvbyte.c:106-116 | After the group loop, fewer than 16 bytes are left, the cursor sits at a boundary, and on an all-terminator input the output is the zero-extended prefix. |
| MaskedVByte.DecodeGroups | lib/src/varint_decode_maskedvbyte.c:106-116 | The group loop's output and cursor are the groups read from the start by `masked_vbyte_read_group` with `create_mask`. It stops with fewer than 16 bytes left, at a varint boundary, with a stream left over. |
| MaskedVByte.DecodeRemainder | lib/src/varint_decode_maskedvbyte.c:117-120 | The scalar tail decodes the leftover stream. |
| MaskedVByte.MaskedVByteDecode | lib/src/varint_decode_maskedvbyte.c:99-123 | The count returned is the number of values written. The output is the values of the groups read from the start, followed by the reference values of the bytes they leave. Inputs under 16 bytes and all-terminator inputs decode to their reference values. |

## Left out

- Batches of more than 64 bytes (VLEN above 512 for m1): a mask word is modelled as at most 64 lanes. `MaskshiftDecode` requires VLMAX ≤ 64, and `MaskshiftDispatch` covers VLMAX(e8m1) from 8 to 32, or 64.
- The register-group variants `varint_decode_vecshift_m2` (varint_decode_vecshift.c:261-378) and `varint_decode_m2` (varint_decode_maskshift.c:125-234, with the `_m2` helpers at 11-17, 28-34, 53-61, 74-77): these are the same loops over twice as many lanes. They are modelled by the same functions, with a larger VLMAX and, for m2, the signed index reduction.
- The 2-int regime of `masked_vbyte_read_group` (varint_decode_maskedvbyte.c:81-96): its multiply-and-regather recombination is the parameter `pair`, so no value property is stated for it.
- The contents of `combined_lookup` and `vectorsrawbytes`: their definitions are not part of this model, so the tables are opaque. `Covers` and `Aligned` state what is assumed of them.
- MaskedVByte.MaskedVByteDecode: states `out == Values(input)` only for inputs under 16 bytes and for all-terminator inputs. In general the values depend on the opaque table contents.
- `varint_decode_masked_vbyte_opt` (varint_decode_maskedvbyte.c:125-168) and `create_mask_m2`: a variant of the same driver, not modelled.
- varintdecode_plain.c: a second copy of `masked_vbyte_read_group` (without the `__builtin_expect` hint), not modelled separately.
- Maskshift.KernelLane: states the lane under the mask-undisturbed reading of the `_m` intrinsics. Under the mask-agnostic reading a masked-off lane is not determined (see `MaskedOffLane`).
- Maskshift.KernelValues: assumes the mask-undisturbed reading of the `_m` intrinsics, as `KernelLane` does.
- Maskshift.MaskshiftBatchDecodes: assumes the mask-undisturbed reading of the `_m` intrinsics.
- Maskshift.AsWrittenFromEight: assumes the mask-undisturbed reading of the `_m` intrinsics.
- Maskshift.CorrectedBatchDecodes: assumes the mask-undisturbed reading of the `_m` intrinsics.
- Maskshift.MaskshiftStep: assumes the mask-undisturbed reading of the `_m` intrinsics.
- Maskshift.MaskshiftDecode: assumes the mask-undisturbed reading of the `_m` intrinsics. It also models the corrected loop, with (vl + 7) / 8 mask words; as written, a final batch under 8 bytes can decode wrongly (see Findings).
- Maskshift.MaskshiftDispatch: dispatches to the corrected m1 / m2 loops of `MaskshiftDecode`, with (vl + 7) / 8 mask words, under the mask-undisturbed reading of the `_m` intrinsics.
- Exported.ExportedAgrees: assumes the mask-undisturbed reading of the `_m` intrinsics at varintdecode.c:139-195.
- Exported.ExportedDecode: assumes the mask-undisturbed reading of the `_m` intrinsics at varintdecode.c:139-195, through `ExportedBatch` and `Kernel`.
- Exported.SlowPathWitness: the stored 1 assumes the mask-undisturbed reading of the `_m` intrinsics at varintdecode.c:139-140; under the mask-agnostic reading the lane holds whatever the hardware writes.
- Exported.ExportedAgrees: holds only for windows without a 0x80 byte. With one, the clear-then-test order loses a shift (see Findings).
- Malformed input: the scalar loop neither advances past five continuation bytes nor stops at the end of a truncated varint. The C code has no error path, so the stream decoders require a `WellFormed` input instead of modelling an error result.
- Address arithmetic on the input and output buffers, their aliasing, memory loads and stores, `__builtin_expect`, and the benchmark, plotting, utils and example programs (apart from the length classes and the round-trip check of example.c).

## Findings

| source | as written | input that shows it | evidently intended | confidence | as-written member | corrected member |
|---|---|---|---|---|---|---|
| lib/src/varint_decode_maskshift.c:19-26 | `createNBytesMask` and `createCompressMask` (36-48) run their `u64` shifts with an element count of `vl / 8`. This is 0 when vl < 8, so a final batch under 8 bytes reuses the second-byte mask for the third to fifth bytes. | the final batch [0x96, 0x01] stores 314936086 instead of 150 | the element count `(vl + 7) / 8` | not executed; assumes the vl = 0 destination is left undisturbed | Maskshift.ShortBatchWitness | Maskshift.CorrectedBatchDecodes |
| lib/src/varintdecode.c:99-109 | the fast path is taken when the complete-varint size equals VLMAX, i.e. when the last byte is a terminator | a window [0xAC, 0x02, 0, …, 0] of 16 bytes stores 172, 2 instead of 300 | the fast path only when every byte is a terminator, as in `varint_decode_m1` | not executed | Exported.FastPathWitness | Maskshift.MaskshiftBatchDecodes |
| lib/src/varint_decode_maskshift.c:302-303 | the masked shift-in steps (and 315-316, 327-328, 339-340, and 181-219 in the m2 loop) use the mask-agnostic `_m` intrinsics, so the lane of a varint with no byte for that step may be overwritten | the batch [0x05, 0x96, 0x01, 0, 0, 0, 0, 0] may store 0xFFFFFFFF instead of 5 | the mask-undisturbed `_mu` intrinsics, which keep such a lane | not executed; depends on the value the hardware gives mask-agnostic lanes | Maskshift.MixedBatchWitness | Maskshift.KernelValues |
| lib/src/varintdecode.c:139-140 | the same masked `_m` steps (and 157-159, 175-177, 193-195) in the older slow path | a slow-path window whose first varint is one byte may store 0xFFFFFFFF for it | the mask-undisturbed `_mu` intrinsics | not executed; depends on the value the hardware gives mask-agnostic lanes | Maskshift.MaskedOffLane | Exported.ExportedAgrees |
| lib/src/varintdecode.c:131-140 | the second byte is cleared of bit 7 before the zero test that decides whether its lane shifts | a window starting [0x80, 0x01] stores 1 instead of 128 | the test before the clear, as in varint_decode_maskshift.c:293-296 | not executed | Exported.SlowPathWitness | Maskshift.MaskshiftBatchDecodes |

=== FILE: maskedvbyte.dfy ===
/**
 * The Masked-VByte decoder: a 16-byte group is classified by the
 * continuation bits of its bytes (the mask word), and all but the fast path
 * look up a table entry by the low 12 mask bits. The entry gives the bytes
 * the group consumes and a row of shuffle indices; the row's number selects
 * the regime (6, 4 or 2 integers), and the shuffled bytes are repacked by
 * masking and shifting. The two tables are not part of this model: they are
 * parameters, constrained only by the bounds the reads need (Covers) and, for
 * the driver, by an alignment assumption on their entries (Aligned).
 */
module MaskedVByte {
  import opened Rvv
  import opened Varint
  import Scalar

  /*
   * ---------------------------------------------------------------------
   * The mask word
   * ---------------------------------------------------------------------
   */

  function Pow2(n: nat): (r: nat)
    ensures r >= 1
  {
    if n == 0 then 1 else 2 * Pow2(n - 1)
  }

  /** Bit i of x, counting from the least significant bit. */
  predicate Bit(x: nat, i: nat) {
    if i == 0 then x % 2 == 1 else Bit(x / 2, i - 1)
  }

  /** A mask register read as a number: lane i is bit i. */
  function MaskBits(m: seq<bool>): (r: nat)
    decreases |m|
  {
    if |m| == 0 then 0 else (if m[0] then 1 else 0) + 2 * MaskBits(m[1..])
  }

  /** Bit i of a mask's number is lane i. */
  lemma {:induction false} MaskBitsBit(m: seq<bool>, i: nat)
    requires i < |m|
    ensures Bit(MaskBits(m), i) <==> m[i]
    decreases i
  {
    if i > 0 {
      MaskBitsBit(m[1..], i - 1);
    }
  }

  /** A mask of n lanes is a number below 2^n. */
  lemma {:induction false} MaskBitsBound(m: seq<bool>)
    ensures MaskBits(m) < Pow2(|m|)
    decreases |m|
  {
    if |m| > 0 {
      MaskBitsBound(m[1..]);
    }
  }

  /** A mask's number is 0 exactly when no lane is set. */
  lemma {:induction false} MaskBitsZero(m: seq<bool>)
    ensures MaskBits(m) == 0 <==> forall i :: 0 <= i < |m| ==> !m[i]
    decreases |m|
  {
    if |m| > 0 {
      MaskBitsZero(m[1..]);
      assert forall i :: 1 <= i < |m| ==> m[i] == m[1..][i - 1];
    }
  }

  lemma Pow2Values()
    ensures Pow2(12) == 0x1000 && Pow2(16) == 0x10000
  {
    assert Pow2(12) == 0x1000;
  }

  lemma Pow2Sixty4()
    ensures Pow2(64) == 0x1_0000_0000_0000_0000
  {
    Pow2Values();
    assert Pow2(20) == 0x10_0000;
    assert Pow2(24) == 0x100_0000;
    assert Pow2(28) == 0x1000_0000;
    assert Pow2(32) == 0x1_0000_0000;
    assert Pow2(36) == 0x10_0000_0000;
    assert Pow2(40) == 0x100_0000_0000;
    assert Pow2(44) == 0x1000_0000_0000;
    assert Pow2(48) == 0x1_0000_0000_0000;
    assert Pow2(52) == 0x10_0000_0000_0000;
    assert Pow2(56) == 0x100_0000_0000_0000;
    assert Pow2(60) == 0x1000_0000_0000_0000;
  }

  /** Lanes appended after the first |a| add a multiple of 2^|a|. */
  lemma {:induction false} MaskBitsSplit(a: seq<bool>, b: seq<bool>)
    ensures MaskBits(a + b) == MaskBits(a) + Pow2(|a|) * MaskBits(b)
    decreases |a|
  {
    if |a| == 0 {
      assert a + b == b;
    } else {
      assert (a + b)[1..] == a[1..] + b;
      MaskBitsSplit(a[1..], b);
      var x, y := MaskBits(a[1..]), MaskBits(b);
      var p := Pow2(|a| - 1);
      var c := if a[0] then 1 else 0;
      assert MaskBits(a + b) == c + 2 * MaskBits(a[1..] + b);
      assert MaskBits(a) == c + 2 * x;
      assert Pow2(|a|) == 2 * p;
      MulTwice(p, y);
    }
  }

  /** The one nonlinear step of MaskBitsSplit, kept apart from its context. */
  lemma MulTwice(p: nat, y: nat)
    ensures (2 * p) * y == 2 * (p * y)
  {
  }

  /** Euclidean remainders are unique. */
  lemma ModUnique(a: int, d: int, q: int, r: int)
    requires d > 0 && 0 <= r < d && a == d * q + r
    ensures a % d == r
  {
    var k := q - a / d;
    assert d * k == a % d - r by {
      assert d * k == d * q - d * (a / d);
    }
  }

  /** The number of the first n lanes is the whole mask's number modulo 2^n. */
  lemma LowLanes(m: seq<bool>, n: nat)
    requires n <= |m|
    ensures MaskBits(m) % Pow2(n) == MaskBits(m[..n])
  {
    assert m == m[..n] + m[n..];
    MaskBitsSplit(m[..n], m[n..]);
    MaskBitsBound(m[..n]);
    ModUnique(MaskBits(m), Pow2(n), MaskBits(m[n..]), MaskBits(m[..n]));
  }

  /** The 48 mask lanes past the 16 bytes of the group read at offset pos: tail lanes, left to the hardware. */
  function TailLanes(tail: (nat, nat) -> bool, pos: nat): (r: seq<bool>)
    ensures |r| == 48
  {
    seq(48, j requires 0 <= j < 48 => tail(pos, j))
  }

  /**
   * create_mask: vmslt.vx against 0 over the 16 bytes of a group, the mask
   * register reinterpreted as 64-bit elements and element 0 read out. Lanes
   * 16..63 lie past vl and are tail lanes: `tail` gives them.
   */
  function CreateMask(group: seq<bv8>, tail: seq<bool>): (mask: nat)
    requires |group| == 16 && |tail| == 48
  {
    MaskBits(SignedLtZero(group) + tail)
  }

  /** Bit i of the mask word, for i < 16, is set exactly when byte i is a continuation byte. */
  lemma CreateMaskBit(group: seq<bv8>, tail: seq<bool>, i: nat)
    requires |group| == 16 && i < 16 && |tail| == 48
    ensures Bit(CreateMask(group, tail), i) <==> group[i] >= 0x80
  {
    MaskBitsBit(SignedLtZero(group) + tail, i);
  }

  /** The mask word fits the uint64_t it is returned in. */
  lemma CreateMaskBound(group: seq<bv8>, tail: seq<bool>)
    requires |group| == 16 && |tail| == 48
    ensures CreateMask(group, tail) < 0x1_0000_0000_0000_0000
  {
    MaskBitsBound(SignedLtZero(group) + tail);
    Pow2Sixty4();
  }

  /** `mask & 0xFFFF` is the number of the 16 byte lanes. */
  lemma Low16(group: seq<bv8>, tail: seq<bool>)
    requires |group| == 16 && |tail| == 48
    ensures CreateMask(group, tail) % 0x10000 == MaskBits(SignedLtZero(group))
  {
    var m := SignedLtZero(group) + tail;
    LowLanes(m, 16);
    Pow2Values();
    assert m[..16] == SignedLtZero(group);
  }

  /** `mask & 0xFFF` is the number of the first 12 byte lanes. */
  lemma Low12(group: seq<bv8>, tail: seq<bool>)
    requires |group| == 16 && |tail| == 48
    ensures CreateMask(group, tail) % 0x1000 == MaskBits(SignedLtZero(group[..12]))
  {
    var m := SignedLtZero(group) + tail;
    LowLanes(m, 12);
    Pow2Values();
    assert m[..12] == SignedLtZero(group[..12]);
  }

  /** The fast-path test `!(mask & 0xFFFF)` holds exactly when all 16 bytes are terminators. */
  lemma FastPathIff(group: seq<bv8>, tail: seq<bool>)
    requires |group| == 16 && |tail| == 48
    ensures CreateMask(group, tail) % 0x10000 == 0 <==> forall i :: 0 <= i < 16 ==> IsTerminator(group[i])
  {
    Low16(group, tail);
    MaskBitsZero(SignedLtZero(group));
  }

  /** The table index depends on the first 12 bytes only, and on none of the tail lanes. */
  lemma TableIndexLocal(g1: seq<bv8>, t1: seq<bool>, g2: seq<bv8>, t2: seq<bool>)
    requires |g1| == 16 && |g2| == 16 && g1[..12] == g2[..12] && |t1| == 48 && |t2| == 48
    ensures CreateMask(g1, t1) % 0x1000 == CreateMask(g2, t2) % 0x1000
  {
    Low12(g1, t1);
    Low12(g2, t2);
  }

  /*
   * ---------------------------------------------------------------------
   * Bit repacking of the shuffled bytes
   * ---------------------------------------------------------------------
   */

  /** Two bytes reinterpreted as one little-endian 16-bit lane (held in 32 bits). */
  function U16(lo: bv8, hi: bv8): (r: bv32)
    ensures r < 0x10000
  {
    Widen(lo) | (Widen(hi) << 8)
  }

  /** The 6-int step on one 16-bit lane: `((x & 0x7F00) >> 1) | (x & 0x007F)`. */
  function Pack16(x: bv32): bv32 {
    ((x & 0x7F00) >> 1) | (x & 0x007F)
  }

  /** Two 16-bit lanes reinterpreted as one little-endian 32-bit lane. */
  function Join16(lo: bv32, hi: bv32): bv32 {
    lo | (hi << 16)
  }

  /** `x & 0x0000FFFF` on a 32-bit lane. */
  function LowHalf(x: bv32): bv32 {
    x & 0xFFFF
  }

  /** `x >> 16` on a 32-bit lane. */
  function HighHalf(x: bv32): bv32 {
    x >> 16
  }

  /** Four bytes reinterpreted as one little-endian 32-bit lane. */
  function U32(a: bv8, b: bv8, c: bv8, d: bv8): bv32 {
    Widen(a) | (Widen(b) << 8) | (Widen(c) << 16) | (Widen(d) << 24)
  }

  /** The 4-int step on one 32-bit lane. */
  function Repack4(x: bv32): bv32 {
    ((x & 0x7F) | ((x & 0x7F00) >> 1)) | ((x & 0x7F0000) >> 2)
  }

  /** A 6-int slot: the payloads of two bytes side by side. */
  function Slot(a: bv8, b: bv8): bv32 {
    Payload(a) | (Payload(b) << 7)
  }

  /** A 4-int lane: the payloads of three bytes side by side. */
  function Quad(a: bv8, b: bv8, c: bv8): bv32 {
    Payload(a) | (Payload(b) << 7) | (Payload(c) << 14)
  }

  lemma PackedSlot(a: bv8, b: bv8)
    ensures Pack16(U16(a, b)) == Slot(a, b)
  {
  }

  /** A slot holds 14 bits. */
  lemma SlotBound(a: bv8, b: bv8)
    ensures Slot(a, b) < 0x4000
  {
  }

  lemma JoinLow(lo: bv32, hi: bv32)
    requires lo < 0x10000
    ensures LowHalf(Join16(lo, hi)) == lo
  {
  }

  lemma JoinHigh(lo: bv32, hi: bv32)
    requires lo < 0x10000 && hi < 0x10000
    ensures HighHalf(Join16(lo, hi)) == hi
  {
  }

  lemma RepackedQuad(a: bv8, b: bv8, c: bv8, d: bv8)
    ensures Repack4(U32(a, b, c, d)) == Quad(a, b, c)
  {
  }

  lemma OrIsSum(x: bv32, y: bv32)
    requires x < 0x80
    ensures x | (y << 7) == x + (y << 7)
  {
  }

  /** A slot holding the two bytes of a varint gives that varint's value. */
  lemma SlotIsValue(a: bv8, b: bv8)
    ensures Slot(a, b) == Value([a, b])
  {
    ValueOf2(a, b);
    OrIsSum(Payload(a), Payload(b));
  }

  /** A slot whose second lane was zero-filled gives the value of a one-byte varint. */
  lemma SlotOfOne(a: bv8)
    ensures Slot(a, 0) == Value([a])
  {
    ValueOf1(a);
    assert Payload(0) == 0;
  }

  lemma QuadSum(a: bv32, b: bv32, c: bv32)
    requires a < 0x80 && b < 0x80
    ensures a | (b << 7) | (c << 14) == a + (b << 7) + (c << 14)
  {
  }

  /** A 4-int lane holding the three bytes of a varint gives that varint's value. */
  lemma QuadIsValue(a: bv8, b: bv8, c: bv8)
    ensures Quad(a, b, c) == Value([a, b, c])
  {
    ValueOf3(a, b, c);
    QuadSum(Payload(a), Payload(b), Payload(c));
  }

  /** A 4-int lane whose third lane was zero-filled gives the value of a two-byte varint. */
  lemma QuadOfTwo(a: bv8, b: bv8)
    ensures Quad(a, b, 0) == Value([a, b])
  {
    SlotIsValue(a, b);
    assert Payload(0) == 0;
  }

  /** 16-bit lane i of the shuffled bytes after the 6-int repacking. */
  function PackedLane(s: seq<bv8>, i: nat): bv32
    requires 2 * i + 1 < |s|
  {
    Pack16(U16(s[2 * i], s[2 * i + 1]))
  }

  /** 32-bit lane m of the repacked 16-bit lanes: lanes 2m and 2m+1 side by side. */
  function PackedWord(s: seq<bv8>, m: nat): bv32
    requires 4 * m + 3 < |s|
  {
    Join16(PackedLane(s, 2 * m), PackedLane(s, 2 * m + 1))
  }

  /** Output n of the 6-int regime: the low half of word n for n < 4, else the high half of word n - 4. */
  function SixOut(s: seq<bv8>, n: nat): bv32
    requires |s| == 16 && n < 6
  {
    if n < 4 then LowHalf(PackedWord(s, n)) else HighHalf(PackedWord(s, n - 4))
  }

  /**
   * The 6-int regime (lines 53-61): 16-bit lanes repacked, then the 32-bit
   * view split into its low halves (stored as out[0..3]) and the high halves
   * of its first two lanes (stored as out[4..5]).
   */
  function SixInts(s: seq<bv8>): (r: seq<bv32>)
    requires |s| == 16
    ensures |r| == 6
  {
    seq(6, n requires 0 <= n < 6 => SixOut(s, n))
  }

  /** A repacked 16-bit lane is the slot of its two bytes. */
  lemma PackedLaneSlot(s: seq<bv8>, i: nat)
    requires 2 * i + 1 < |s|
    ensures PackedLane(s, i) == Slot(s[2 * i], s[2 * i + 1]) && PackedLane(s, i) < 0x4000
  {
    PackedSlot(s[2 * i], s[2 * i + 1]);
    SlotBound(s[2 * i], s[2 * i + 1]);
  }

  lemma SixLow(s: seq<bv8>, m: nat)
    requires |s| == 16 && m < 4
    ensures SixInts(s)[m] == Slot(s[4 * m], s[4 * m + 1])
  {
    var i := 2 * m;
    assert 2 * i == 4 * m;
    var lo, hi := PackedLane(s, i), PackedLane(s, i + 1);
    assert SixInts(s)[m] == SixOut(s, m) == LowHalf(PackedWord(s, m));
    assert PackedWord(s, m) == Join16(lo, hi);
    PackedLaneSlot(s, i);
    JoinLow(lo, hi);
  }

  lemma SixHigh(s: seq<bv8>, m: nat)
    requires |s| == 16 && m < 2
    ensures SixInts(s)[4 + m] == Slot(s[4 * m + 2], s[4 * m + 3])
  {
    var i := 2 * m + 1;
    assert 2 * i == 4 * m + 2;
    var lo, hi := PackedLane(s, 2 * m), PackedLane(s, i);
    assert SixInts(s)[4 + m] == SixOut(s, 4 + m) == HighHalf(PackedWord(s, m));
    assert PackedWord(s, m) == Join16(lo, hi);
    PackedLaneSlot(s, 2 * m);
    PackedLaneSlot(s, i);
    JoinHigh(lo, hi);
  }

  /** The first four 6-int outputs are slots 0, 2, 4, 6 (the low halves of the 32-bit view). */
  lemma SixFront(s: seq<bv8>)
    requires |s| == 16
    ensures SixInts(s)[..4] == [Slot(s[0], s[1]), Slot(s[4], s[5]), Slot(s[8], s[9]), Slot(s[12], s[13])]
  {
    SixLow(s, 0);
    SixLow(s, 1);
    SixLow(s, 2);
    SixLow(s, 3);
  }

  /** The 6-int outputs are slots 0, 2, 4, 6 and then 1, 3. */
  lemma SixIntsSlots(s: seq<bv8>)
    requires |s| == 16
    ensures SixInts(s) == [Slot(s[0], s[1]), Slot(s[4], s[5]), Slot(s[8], s[9]), Slot(s[12], s[13]),
                           Slot(s[2], s[3]), Slot(s[6], s[7])]
  {
    var r := SixInts(s);
    SixFront(s);
    SixHigh(s, 0);
    SixHigh(s, 1);
    assert r == r[..4] + [r[4], r[5]];
  }

  /** Every 6-int output holds 14 bits. */
  lemma SixIntsBound(s: seq<bv8>, n: nat)
    requires |s| == 16 && n < 6
    ensures SixInts(s)[n] < 0x4000
  {
    if n < 4 {
      SixLow(s, n);
      SlotBound(s[4 * n], s[4 * n + 1]);
    } else {
      SixHigh(s, n - 4);
      SlotBound(s[4 * (n - 4) + 2], s[4 * (n - 4) + 3]);
    }
  }

  /** The 4-int regime (lines 68-77): each 32-bit lane of the shuffled bytes repacked. */
  function FourInts(s: seq<bv8>): (r: seq<bv32>)
    requires |s| == 16
    ensures |r| == 4
  {
    seq(4, n requires 0 <= n < 4 => Repack4(U32(s[4 * n], s[4 * n + 1], s[4 * n + 2], s[4 * n + 3])))
  }

  /** Output n of the 4-int regime is the payloads of shuffled bytes 4n, 4n+1, 4n+2. */
  lemma FourIntsQuads(s: seq<bv8>)
    requires |s| == 16
    ensures forall n :: 0 <= n < 4 ==> FourInts(s)[n] == Quad(s[4 * n], s[4 * n + 1], s[4 * n + 2])
  {
    forall n | 0 <= n < 4
      ensures FourInts(s)[n] == Quad(s[4 * n], s[4 * n + 1], s[4 * n + 2])
    {
      RepackedQuad(s[4 * n], s[4 * n + 1], s[4 * n + 2], s[4 * n + 3]);
    }
  }

  /** Shuffled bytes 3, 7, 11 and 15 never reach the 4-int outputs. */
  lemma FourIntsIgnoreFourth(s: seq<bv8>, s': seq<bv8>)
    requires |s| == 16 && |s'| == 16
    requires forall i :: 0 <= i < 16 && i % 4 != 3 ==> s[i] == s'[i]
    ensures FourInts(s) == FourInts(s')
  {
    FourIntsQuads(s);
    FourIntsQuads(s');
    forall n | 0 <= n < 4
      ensures FourInts(s)[n] == FourInts(s')[n]
    {
      assert s[4 * n] == s'[4 * n] && s[4 * n + 1] == s'[4 * n + 1] && s[4 * n + 2] == s'[4 * n + 2];
    }
  }

  /*
   * ---------------------------------------------------------------------
   * The tables and the group reader
   * ---------------------------------------------------------------------
   */

  /** One combined_lookup entry: a row of vectorsrawbytes and the bytes the group consumes. */
  datatype Entry = Entry(index: nat, consumed: nat)

  datatype Tables = Tables(combined: seq<Entry>, raw: seq<bv8>)

  /**
   * The reads read_group makes stay inside the tables: one entry per 12-bit
   * pattern, each index a uint8_t, each row of 16 shuffle bytes inside
   * vectorsrawbytes.
   */
  predicate Covers(tab: Tables) {
    |tab.combined| == 0x1000
    && forall p :: 0 <= p < |tab.combined| ==>
         tab.combined[p].index < 0x100 && tab.combined[p].index * 16 + 16 <= |tab.raw|
  }

  /** Bits 0..4 of a pattern are all set: five continuation bytes in a row. */
  predicate LeadRun5(p: nat) {
    Bit(p, 0) && Bit(p, 1) && Bit(p, 2) && Bit(p, 3) && Bit(p, 4)
  }

  /**
   * What the driver needs of the table contents: for every pattern that a
   * stream of 32-bit varints can start with, the group consumes between 1
   * and 12 bytes and its last consumed byte is a terminator, so that the
   * next group starts on a varint.
   */
  predicate Aligned(tab: Tables) {
    forall p :: 0 <= p < |tab.combined| && !LeadRun5(p) ==>
      1 <= tab.combined[p].consumed <= 12 && !Bit(p, tab.combined[p].consumed - 1)
  }

  /** The integers a group produces (ints_read of them) and the bytes it consumes. */
  datatype Group = Group(values: seq<bv32>, consumed: nat)

  /**
   * masked_vbyte_read_group on a group of 16 bytes and its mask word. The
   * 2-int regime is not modelled: `pair` stands for its multiply-based
   * recombination of the shuffled payload bytes.
   */
  function ReadGroup(group: seq<bv8>, mask: nat, tab: Tables, pair: seq<bv8> -> (bv32, bv32)): (g: Group)
    requires |group| == 16 && Covers(tab)
    ensures mask % 0x10000 == 0 ==> g == Group(Zext(group), 16)
    ensures mask % 0x10000 != 0 ==> g.consumed == tab.combined[mask % 0x1000].consumed
    ensures mask % 0x10000 != 0 ==>
      |g.values| == (if tab.combined[mask % 0x1000].index < 64 then 6
                     else if tab.combined[mask % 0x1000].index < 145 then 4 else 2)
  {
    if mask % 0x10000 == 0 then Group(Zext(group), 16)
    else
      var e := tab.combined[mask % 0x1000];
      var vectors := tab.raw[e.index * 16 .. e.index * 16 + 16];
      if e.index < 64 then Group(SixInts(Gather(group, vectors)), e.consumed)
      else if e.index < 145 then Group(FourInts(Gather(group, vectors)), e.consumed)
      else
        var p := pair(Gather(AndX(group, 0x7F), vectors));
        Group([p.0, p.1], e.consumed)
  }

  /** The shuffle row the entry for `mask` selects. */
  function Row(tab: Tables, mask: nat): (r: seq<bv8>)
    requires Covers(tab)
    ensures |r| == 16
  {
    var e := tab.combined[mask % 0x1000];
    tab.raw[e.index * 16 .. e.index * 16 + 16]
  }

  /** In the 6-int regime, the outputs are slots 0, 2, 4, 6, 1, 3 of the shuffled group. */
  lemma SixRegime(group: seq<bv8>, mask: nat, tab: Tables, pair: seq<bv8> -> (bv32, bv32))
    requires |group| == 16 && Covers(tab)
    requires mask % 0x10000 != 0 && tab.combined[mask % 0x1000].index < 64
    ensures var s := Gather(group, Row(tab, mask));
      ReadGroup(group, mask, tab, pair).values
      == [Slot(s[0], s[1]), Slot(s[4], s[5]), Slot(s[8], s[9]), Slot(s[12], s[13]), Slot(s[2], s[3]), Slot(s[6], s[7])]
  {
    SixIntsSlots(Gather(group, Row(tab, mask)));
  }

  /** In the 4-int regime, output n is the payloads of shuffled bytes 4n, 4n+1, 4n+2. */
  lemma FourRegime(group: seq<bv8>, mask: nat, tab: Tables, pair: seq<bv8> -> (bv32, bv32), n: nat)
    requires |group| == 16 && Covers(tab) && n < 4
    requires mask % 0x10000 != 0 && 64 <= tab.combined[mask % 0x1000].index < 145
    ensures var s := Gather(group, Row(tab, mask));
      ReadGroup(group, mask, tab, pair).values[n] == Quad(s[4 * n], s[4 * n + 1], s[4 * n + 2])
  {
    FourIntsQuads(Gather(group, Row(tab, mask)));
  }

  /** Two masks that agree on their low 12 bits, neither on the fast path, read alike. */
  lemma RegimeByEntry(g1: seq<bv8>, m1: nat, g2: seq<bv8>, m2: nat, tab: Tables, pair: seq<bv8> -> (bv32, bv32))
    requires |g1| == 16 && |g2| == 16 && Covers(tab)
    requires m1 % 0x10000 != 0 && m2 % 0x10000 != 0 && m1 % 0x1000 == m2 % 0x1000
    ensures ReadGroup(g1, m1, tab, pair).consumed == ReadGroup(g2, m2, tab, pair).consumed
    ensures |ReadGroup(g1, m1, tab, pair).values| == |ReadGroup(g2, m2, tab, pair).values|
  {
  }

  /** On a group of 16 terminators the reader decodes all 16 one-byte varints. */
  lemma FastPathDecodes(group: seq<bv8>, tail: seq<bool>, tab: Tables, pair: seq<bv8> -> (bv32, bv32))
    requires |group| == 16 && Covers(tab) && |tail| == 48
    requires forall i :: 0 <= i < 16 ==> IsTerminator(group[i])
    ensures WellFormed(group)
    ensures ReadGroup(group, CreateMask(group, tail), tab, pair) == Group(Values(group), 16)
  {
    FastPathIff(group, tail);
    AllTerminators(group);
  }

  /*
   * ---------------------------------------------------------------------
   * The driver
   * ---------------------------------------------------------------------
   */

  /** A non-empty stream starts with a varint of one to five bytes. */
  lemma LeadingVarint(s: seq<bv8>)
    requires WellFormed(s) && |s| > 0
    ensures 1 <= FirstLen(s) <= 5
  {
    assert Varints(s)[0] == s[..FirstLen(s)];
  }

  /** A group with a terminator among its first five bytes has a clear bit among mask bits 0..4. */
  lemma NoLeadRun(group: seq<bv8>, tail: seq<bool>, c: nat)
    requires |group| == 16 && |tail| == 48 && 1 <= c <= 5 && IsTerminator(group[c - 1])
    ensures !LeadRun5(CreateMask(group, tail) % 0x1000)
  {
    Low12(group, tail);
    MaskBitsBit(SignedLtZero(group[..12]), c - 1);
  }

  /** A table entry the driver can meet ends on a terminator byte of the group. */
  lemma EntryEnds(group: seq<bv8>, tail: seq<bool>, tab: Tables)
    requires |group| == 16 && Covers(tab) && Aligned(tab) && |tail| == 48
    requires !LeadRun5(CreateMask(group, tail) % 0x1000)
    ensures var c := tab.combined[CreateMask(group, tail) % 0x1000].consumed;
      1 <= c <= 12 && IsTerminator(group[c - 1])
  {
    var p := CreateMask(group, tail) % 0x1000;
    var c := tab.combined[p].consumed;
    assert 1 <= c <= 12 && !Bit(p, c - 1);
    Low12(group, tail);
    MaskBitsBit(SignedLtZero(group[..12]), c - 1);
  }

  /**
   * The bytes a group consumes end on a terminator, when one of its first five
   * bytes is a terminator (as at the head of a stream).
   */
  lemma GroupEnds(group: seq<bv8>, tail: seq<bool>, tab: Tables, pair: seq<bv8> -> (bv32, bv32), lead: nat)
    requires |group| == 16 && Covers(tab) && Aligned(tab) && |tail| == 48
    requires 1 <= lead <= 5 && IsTerminator(group[lead - 1])
    ensures var c := ReadGroup(group, CreateMask(group, tail), tab, pair).consumed;
      1 <= c <= 16 && IsTerminator(group[c - 1])
  {
    var mask := CreateMask(group, tail);
    FastPathIff(group, tail);
    if mask % 0x10000 == 0 {
      assert IsTerminator(group[15]);
    } else {
      NoLeadRun(group, tail, lead);
      EntryEnds(group, tail, tab);
    }
  }

  /**
   * A group read at the head of a stream consumes between 1 and 16 bytes and
   * leaves a stream behind.
   */
  lemma GroupAdvances(rest: seq<bv8>, tail: seq<bool>, tab: Tables, pair: seq<bv8> -> (bv32, bv32))
    requires WellFormed(rest) && |rest| >= 16 && Covers(tab) && Aligned(tab) && |tail| == 48
    ensures var g := ReadGroup(rest[..16], CreateMask(rest[..16], tail), tab, pair);
      1 <= g.consumed <= 16 && WellFormed(rest[g.consumed..])
  {
    var group := rest[..16];
    LeadingVarint(rest);
    var lead := FirstLen(rest);
    assert group[lead - 1] == rest[lead - 1];
    GroupEnds(group, tail, tab, pair, lead);
    var c := ReadGroup(group, CreateMask(group, tail), tab, pair).consumed;
    assert group[c - 1] == rest[c - 1];
    RestAfterTerminator(rest, c);
  }

  /** Every byte is a terminator: a stream of varints below 128. */
  predicate AllSmall(s: seq<bv8>) {
    forall i :: 0 <= i < |s| ==> IsTerminator(s[i])
  }

  /** While every byte is a terminator, each group is a fast-path group. */
  lemma SmallStep(input: seq<bv8>, pos: nat, tail: seq<bool>, tab: Tables, pair: seq<bv8> -> (bv32, bv32))
    requires AllSmall(input) && pos + 16 <= |input| && Covers(tab) && |tail| == 48
    ensures var g := ReadGroup(input[pos..][..16], CreateMask(input[pos..][..16], tail), tab, pair);
      g.consumed == 16 && Zext(input[..pos]) + g.values == Zext(input[..pos + 16])
  {
    var group := input[pos..][..16];
    assert forall i :: 0 <= i < 16 ==> group[i] == input[pos + i];
    FastPathIff(group, tail);
    assert input[..pos + 16] == input[..pos] + group;
  }

  /** On a stream, a round read at a varint boundary consumes 1 to 16 bytes and ends on a terminator. */
  lemma RoundAdvances(input: seq<bv8>, pos: nat, lanes: seq<bool>, tab: Tables, pair: seq<bv8> -> (bv32, bv32))
    requires Stream(input) && pos + 16 <= |input| && (pos == 0 || IsTerminator(input[pos - 1]))
    requires Covers(tab) && Aligned(tab) && |lanes| == 48
    ensures var c := ReadGroup(input[pos..][..16], CreateMask(input[pos..][..16], lanes), tab, pair).consumed;
      1 <= c <= 16 && IsTerminator(input[pos + c - 1])
  {
    var lead := LeadAt(input, pos);
    RoundEnds(input, pos, lanes, tab, pair, lead);
  }

  /** A round whose first five bytes hold a terminator ends on a terminator. */
  lemma RoundEnds(input: seq<bv8>, pos: nat, lanes: seq<bool>, tab: Tables, pair: seq<bv8> -> (bv32, bv32), lead: nat)
    requires pos + 16 <= |input| && 1 <= lead <= 5 && IsTerminator(input[pos + lead - 1])
    requires Covers(tab) && Aligned(tab) && |lanes| == 48
    ensures var c := ReadGroup(input[pos..][..16], CreateMask(input[pos..][..16], lanes), tab, pair).consumed;
      1 <= c <= 16 && IsTerminator(input[pos + c - 1])
  {
    var group := input[pos..][..16];
    assert group[lead - 1] == input[pos + lead - 1];
    GroupEnds(group, lanes, tab, pair, lead);
    var c := ReadGroup(group, CreateMask(group, lanes), tab, pair).consumed;
    assert group[c - 1] == input[pos + c - 1];
  }

  /**
   * The driver's state once the group loop stops: `pos` bytes consumed, up
   * to a varint boundary, and on an all-terminator input the zero-extended
   * prefix written.
   */
  predicate Progress(input: seq<bv8>, pos: nat, out: seq<bv32>) {
    && pos <= |input|
    && (pos == 0 || IsTerminator(input[pos - 1]))
    && (pos > 0 ==> |input| >= 16)
    && (pos == 0 ==> out == [])
    && (AllSmall(input) ==> out == Zext(input[..pos]))
  }

  /**
   * varint_decode_masked_vbyte: whole groups while 16 or more bytes remain,
   * then the scalar decoder on the rest. `tail(pos, j)` gives the tail mask
   * lanes of the group read at byte offset pos.
   */
  method MaskedVByteDecode(input: seq<bv8>, tab: Tables, pair: seq<bv8> -> (bv32, bv32), tail: (nat, nat) -> bool)
    returns (out: seq<bv32>, count: nat)
    requires WellFormed(input) && Covers(tab) && Aligned(tab)
    ensures count == |out|
    ensures (ReaderReads(input, tab, pair, tail); GroupsLeaveStream(input, GroupReader(tab, pair, tail));
             var groups := GroupsOut(input, GroupReader(tab, pair, tail), 0);
             out == groups.values + Values(input[groups.consumed..]))
    ensures |input| < 16 ==> out == Values(input)
    ensures AllSmall(input) ==> out == Values(input)
  {
    var pos;
    out, pos := DecodeGroups(input, tab, pair, tail);
    var tailOut := DecodeRemainder(input[pos..]);
    DriverFinish(input, pos, out, tailOut);
    out := out + tailOut;
    count := |out|;
  }

  /** The driver's loop, with read_group on the tables and tail lanes given: it reads GroupsOut. */
  method DecodeGroups(input: seq<bv8>, tab: Tables, pair: seq<bv8> -> (bv32, bv32), tail: (nat, nat) -> bool)
    returns (out: seq<bv32>, pos: nat)
    requires WellFormed(input) && Covers(tab) && Aligned(tab)
    ensures (ReaderReads(input, tab, pair, tail); Group(out, pos) == GroupsOut(input, GroupReader(tab, pair, tail), 0))
    ensures Progress(input, pos, out) && |input| < pos + 16 && WellFormed(input[pos..])
  {
    ReaderReads(input, tab, pair, tail);
    out, pos := GroupLoop(input, GroupReader(tab, pair, tail));
    GroupsProgress(input, GroupReader(tab, pair, tail), out, pos);
    StreamAt(input, pos);
  }

  /**
   * The reads of the driver loop, one per group: read_group on the 16 bytes
   * at offset `p`, with the mask create_mask builds from them and the tail
   * lanes of that offset.
   */
  function GroupReader(tab: Tables, pair: seq<bv8> -> (bv32, bv32), tail: (nat, nat) -> bool): (read: (seq<bv8>, nat) --> Group)
    requires Covers(tab)
  {
    (group: seq<bv8>, p: nat) requires |group| == 16 => ReadGroup(group, CreateMask(group, TailLanes(tail, p)), tab, pair)
  }

  /**
   * What the driver loop needs of its reads on `input`: at every varint
   * boundary with 16 bytes left, ReadsAt.
   */
  ghost predicate Reads(input: seq<bv8>, read: (seq<bv8>, nat) --> Group) {
    forall p: nat {:trigger ReadsAt(input, read, p)} :: p + 16 <= |input| && AtBoundary(input, p) ==> ReadsAt(input, read, p)
  }

  /** The read at offset `p` consumes 1 to 16 bytes and stops just after a terminator. */
  ghost predicate ReadsAt(input: seq<bv8>, read: (seq<bv8>, nat) --> Group, p: nat)
    requires p + 16 <= |input|
  {
    && read.requires(input[p..][..16], p)
    && 1 <= read(input[p..][..16], p).consumed <= 16
    && IsTerminator(input[p + read(input[p..][..16], p).consumed - 1])
  }

  /**
   * Every read at a boundary with 16 bytes left is the fast path: it
   * consumes 16 bytes and extends the zero-extended prefix. read_group reads
   * so on an all-terminator input.
   */
  ghost predicate ReadsSmall(input: seq<bv8>, read: (seq<bv8>, nat) --> Group)
    requires Reads(input, read)
  {
    forall p: nat {:trigger ReadsAt(input, read, p)} :: p + 16 <= |input| && AtBoundary(input, p) && ReadsAt(input, read, p) ==>
      read(input[p..][..16], p).consumed == 16
      && Zext(input[..p]) + read(input[p..][..16], p).values == Zext(input[..p + 16])
  }

  /** On a stream, under Aligned tables, read_group reads as the driver loop needs. */
  lemma ReaderReads(input: seq<bv8>, tab: Tables, pair: seq<bv8> -> (bv32, bv32), tail: (nat, nat) -> bool)
    requires WellFormed(input) && Covers(tab) && Aligned(tab)
    ensures Reads(input, GroupReader(tab, pair, tail))
    ensures AllSmall(input) ==> ReadsSmall(input, GroupReader(tab, pair, tail))
  {
    StreamIsWellFormed(input);
    var read := GroupReader(tab, pair, tail);
    forall p: nat | p + 16 <= |input| && AtBoundary(input, p)
      ensures ReadsAt(input, read, p)
    {
      RoundAdvances(input, p, TailLanes(tail, p), tab, pair);
      ReaderReadsAt(input, tab, pair, tail, p);
    }
    if AllSmall(input) {
      forall p: nat | p + 16 <= |input| && AtBoundary(input, p) && ReadsAt(input, read, p)
        ensures read(input[p..][..16], p).consumed == 16
        ensures Zext(input[..p]) + read(input[p..][..16], p).values == Zext(input[..p + 16])
      {
        SmallStep(input, p, TailLanes(tail, p), tab, pair);
      }
    }
  }

  /** ReadsAt is RoundAdvances read through GroupReader. */
  lemma ReaderReadsAt(input: seq<bv8>, tab: Tables, pair: seq<bv8> -> (bv32, bv32), tail: (nat, nat) -> bool, p: nat)
    requires Covers(tab) && p + 16 <= |input|
    requires var c := ReadGroup(input[p..][..16], CreateMask(input[p..][..16], TailLanes(tail, p)), tab, pair).consumed;
      1 <= c <= 16 && IsTerminator(input[p + c - 1])
    ensures ReadsAt(input, GroupReader(tab, pair, tail), p)
  {
  }

  /**
   * The groups the driver loop reads from byte `pos` on, as one group: the
   * integers of every read in order, and the bytes they consume. The loop
   * stops with fewer than 16 bytes left, at a varint boundary.
   */
  ghost function GroupsOut(input: seq<bv8>, read: (seq<bv8>, nat) --> Group, pos: nat): (r: Group)
    requires Reads(input, read) && pos <= |input| && AtBoundary(input, pos)
    decreases |input| - pos
  {
    if |input| < pos + 16 then Group([], 0)
    else
      assert ReadsAt(input, read, pos);
      var g := read(input[pos..][..16], pos);
      var rest := GroupsOut(input, read, pos + g.consumed);
      Group(g.values + rest.values, g.consumed + rest.consumed)
  }

  /**
   * The groups stop with fewer than 16 bytes left, at a varint boundary; they
   * consume nothing, and read nothing, exactly when fewer than 16 bytes are
   * there to begin with.
   */
  lemma {:induction false} GroupsEnd(input: seq<bv8>, read: (seq<bv8>, nat) --> Group, pos: nat)
    requires Reads(input, read) && pos <= |input| && AtBoundary(input, pos)
    ensures var r := GroupsOut(input, read, pos);
      && pos + r.consumed <= |input| < pos + r.consumed + 16
      && AtBoundary(input, pos + r.consumed)
      && (r.consumed == 0 <==> |input| < pos + 16)
      && (r.consumed == 0 ==> r.values == [])
    decreases |input| - pos
  {
    if pos + 16 <= |input| {
      GroupsStep(input, read, pos);
      GroupsEnd(input, read, pos + read(input[pos..][..16], pos).consumed);
    }
  }

  /** The loop of varint_decode_masked_vbyte over whole groups, with its reads as a parameter. */
  method GroupLoop(input: seq<bv8>, read: (seq<bv8>, nat) --> Group) returns (out: seq<bv32>, pos: nat)
    requires Reads(input, read)
    ensures Group(out, pos) == GroupsOut(input, read, 0)
  {
    out := [];
    pos := 0;
    while pos + 16 <= |input|
      invariant pos <= |input| && AtBoundary(input, pos)
      invariant GroupsOut(input, read, 0)
                == Group(out + GroupsOut(input, read, pos).values, pos + GroupsOut(input, read, pos).consumed)
      decreases |input| - pos
    {
      var g := read(input[pos..][..16], pos);
      GroupsStep(input, read, pos);
      SeqAssoc(out, g.values, GroupsOut(input, read, pos + g.consumed).values);
      out := out + g.values;
      pos := pos + g.consumed;
    }
  }

  /** GroupsOut with 16 bytes left: the read at `pos`, then the groups from where it stopped. */
  lemma GroupsStep(input: seq<bv8>, read: (seq<bv8>, nat) --> Group, pos: nat)
    requires Reads(input, read) && pos + 16 <= |input| && AtBoundary(input, pos)
    ensures ReadsAt(input, read, pos)
    ensures var g := read(input[pos..][..16], pos);
            1 <= g.consumed <= 16 && AtBoundary(input, pos + g.consumed)
    ensures var g := read(input[pos..][..16], pos);
            var rest := GroupsOut(input, read, pos + g.consumed);
            GroupsOut(input, read, pos) == Group(g.values + rest.values, g.consumed + rest.consumed)
  {
  }

  /** When every read is the fast path, the groups read from a boundary extend the zero-extended prefix. */
  lemma {:induction false} GroupsSmall(input: seq<bv8>, read: (seq<bv8>, nat) --> Group, pos: nat)
    requires Reads(input, read) && ReadsSmall(input, read) && pos <= |input| && AtBoundary(input, pos)
    ensures (GroupsEnd(input, read, pos); var r := GroupsOut(input, read, pos);
      Zext(input[..pos]) + r.values == Zext(input[..pos + r.consumed]))
    decreases |input| - pos
  {
    var r := GroupsOut(input, read, pos);
    GroupsEnd(input, read, pos);
    if pos + 16 <= |input| {
      GroupsStep(input, read, pos);
      var g := read(input[pos..][..16], pos);
      var next := pos + 16;
      var rest := GroupsOut(input, read, next);
      var end := next + rest.consumed;
      assert r.values == g.values + rest.values && pos + r.consumed == end;
      GroupsSmall(input, read, next);
      assert Zext(input[..next]) + rest.values == Zext(input[..end]);
      SeqAssoc(Zext(input[..pos]), g.values, rest.values);
    } else {
      assert r.values == [];
    }
  }

  /** The groups read from the start of a stream leave a stream. */
  lemma GroupsLeaveStream(input: seq<bv8>, read: (seq<bv8>, nat) --> Group)
    requires WellFormed(input) && Reads(input, read)
    ensures GroupsOut(input, read, 0).consumed <= |input|
    ensures WellFormed(input[GroupsOut(input, read, 0).consumed..])
  {
    var c := GroupsStop(input, read);
    StreamAt(input, c);
  }

  /** Where the groups read from the start stop: a varint boundary. */
  lemma GroupsStop(input: seq<bv8>, read: (seq<bv8>, nat) --> Group) returns (c: nat)
    requires Reads(input, read)
    ensures c == GroupsOut(input, read, 0).consumed
    ensures c <= |input| && (c == 0 || IsTerminator(input[c - 1]))
  {
    c := GroupsOut(input, read, 0).consumed;
    GroupsEnd(input, read, 0);
  }

  /** The groups read from the start leave the driver in the state Progress describes. */
  lemma GroupsProgress(input: seq<bv8>, read: (seq<bv8>, nat) --> Group, out: seq<bv32>, pos: nat)
    requires Reads(input, read) && (AllSmall(input) ==> ReadsSmall(input, read)) && Group(out, pos) == GroupsOut(input, read, 0)
    ensures Progress(input, pos, out) && |input| < pos + 16
  {
    GroupsEnd(input, read, 0);
    if AllSmall(input) {
      SmallGroups(input, read);
    }
  }

  /** Groups of one-byte varints from the start copy the bytes they consume. */
  lemma SmallGroups(input: seq<bv8>, read: (seq<bv8>, nat) --> Group)
    requires Reads(input, read) && ReadsSmall(input, read)
    ensures GroupsOut(input, read, 0).consumed <= |input|
    ensures GroupsOut(input, read, 0).values == Zext(input[..GroupsOut(input, read, 0).consumed])
  {
    GroupsEnd(input, read, 0);
    GroupsSmall(input, read, 0);
    assert input[..0] == [];
    assert Zext(input[..0]) == [];
  }

  /** What the driver returns once the scalar decoder has taken the last bytes. */
  lemma DriverFinish(input: seq<bv8>, pos: nat, before: seq<bv32>, tailOut: seq<bv32>)
    requires WellFormed(input) && Progress(input, pos, before)
    requires WellFormed(input[pos..]) && tailOut == Values(input[pos..])
    ensures |input| < 16 ==> before + tailOut == Values(input)
    ensures AllSmall(input) ==> before + tailOut == Values(input)
  {
    if AllSmall(input) {
      SmallFinish(input, pos, before);
    }
    if |input| < 16 {
      assert input[pos..] == input;
    }
  }

  /** The `if (length > 0)` call of the scalar decoder on the bytes no group took. */
  method DecodeRemainder(rest: seq<bv8>) returns (out: seq<bv32>)
    requires WellFormed(rest)
    ensures out == Values(rest)
  {
    out := [];
    if |rest| > 0 {
      var n;
      out, n := Scalar.DecodeScalar(rest);
    } else {
      assert Varints(rest) == [];
    }
  }

  /** The fast-path prefix and the scalar tail together decode an all-terminator stream. */
  lemma SmallFinish(input: seq<bv8>, k: nat, before: seq<bv32>)
    requires AllSmall(input)
    requires k <= |input| && before == Zext(input[..k])
    ensures Framed(input[k..]) && Framed(input)
    ensures before + Values(input[k..]) == Values(input)
  {
    var rest := input[k..];
    assert forall i :: 0 <= i < |rest| ==> IsTerminator(rest[i]) by {
      assert forall i :: 0 <= i < |rest| ==> rest[i] == input[k + i];
    }
    AllTerminators(rest);
    AllTerminators(input);
    ZextSplit(input, k);
  }

  lemma ZextSplit(v: seq<bv8>, k: nat)
    requires k <= |v|
    ensures Zext(v[..k]) + Zext(v[k..]) == Zext(v)
  {
    assert v == v[..k] + v[k..];
    ZextConcat(v[..k], v[k..]);
  }

  lemma ZextConcat(a: seq<bv8>, b: seq<bv8>)
    ensures Zext(a + b) == Zext(a) + Zext(b)
  {
    assert forall i :: 0 <= i < |a| + |b| ==> Zext(a + b)[i] == (Zext(a) + Zext(b))[i];
  }
}

=== FILE: maskshift.dfy ===
/**
 * The mask/shift kernels of varint_decode_maskshift.c. Each value is rebuilt
 * from its terminator byte downward: the terminators are compressed into one
 * lane per varint, and then, for k = 2 .. 5, the k-th byte from the end of
 * every varint long enough is compressed into the same lane and shifted in
 * under the previous ones. Masks are reinterpreted as vectors of 64-bit
 * elements for the shifts that derive them from one another.
 */
module Maskshift {
  import opened Rvv
  import opened Varint
  import opened Vecshift
  import Scalar

  /**
   * The tail lanes the kernel can observe. `next` is the byte vslidedown
   * brings into lane vl-1 (lane vl of the data register, or 0 when vl is
   * VLMAX); `fill3` .. `fill5` are the mask lanes vl that the three vsrl
   * shifts bring into lane vl-1. All four are tail-agnostic contents.
   */
  datatype Tail = Tail(next: bv8, fill3: bool, fill4: bool, fill5: bool)

  /** The tail mask lane shifted in when deriving the mask of k-th bytes from the end. */
  function FillOf(t: Tail, k: nat): bool {
    if k == 3 then t.fill3 else if k == 4 then t.fill4 else t.fill5
  }

  /**
   * createSecondBytesMask: lane i is set when byte i carries a continuation
   * bit and the byte after it does not, i.e. lane i is the last continuation
   * byte of a varint.
   */
  function SecondBytesMask(data: seq<bv8>, next: bv8): (m: seq<bool>)
    ensures |m| == |data|
    ensures forall i :: 0 <= i < |data| ==>
      (m[i] <==> !IsTerminator(data[i]) && IsTerminator(if i + 1 < |data| then data[i + 1] else next))
  {
    var s := Slide1Down(data, next);
    var a := SignedLtZero(data);
    var b := SignedGeZero(s);
    var r := MaskAnd(a, b);
    assert forall i :: 0 <= i < |data| ==>
      && r[i] == (a[i] && b[i]) && (b[i] <==> s[i] < 0x80) && (a[i] <==> data[i] >= 0x80)
      && s[i] == (if i + 1 < |data| then data[i + 1] else next);
    r
  }

  /**
   * createNBytesMask: vsrl by 1 and vand on `words` 64-bit elements. With at
   * least one element and at most 64 lanes, lane i is set when lane i+1 of
   * `prev` is set and lane i of `orig` is; with no element, `prev` comes back
   * unchanged.
   */
  function NBytesMask(prev: seq<bool>, orig: seq<bool>, words: nat, fill: bool): (m: seq<bool>)
    requires |prev| == |orig|
    ensures |m| == |prev|
    ensures 1 <= words && |prev| <= 64 ==> forall i :: 0 <= i < |prev| ==>
      (m[i] <==> orig[i] && (if i + 1 < |prev| then prev[i + 1] else fill && |prev| < 64))
    ensures words == 0 && |prev| <= 64 ==> m == prev
  {
    var s := ShiftDownWords(prev, words, fill);
    var r := AndWords(s, orig, words);
    if words >= 1 && |prev| <= 64 then
      ShiftDownWordsPlain(prev, words, fill);
      AndWordsPlain(s, orig, words);
      var d := ShiftDown(prev, if |prev| == 64 then false else fill);
      assert forall i :: 0 <= i < |prev| ==> r[i] == (d[i] && orig[i]);
      r
    else if words == 0 && |prev| <= 64 then
      WordOpsWithoutWords(prev, orig, 0, fill);
      r
    else r
  }

  /**
   * createCompressMask: (upper << shifts) XOR inverted, OR upper. The shift
   * is towards higher lanes (vsll), although the comment above the C
   * function writes ">>". With at least one element and at most 64 lanes,
   * lane i is set when lane i-shifts of `upper` differs from lane i of
   * `inverted`, or lane i of `upper` is set.
   */
  function CompressMask(upper: seq<bool>, inverted: seq<bool>, shifts: nat, words: nat): (m: seq<bool>)
    requires |upper| == |inverted|
    ensures |m| == |upper|
    ensures 1 <= words && |upper| <= 64 ==> forall i :: 0 <= i < |upper| ==>
      (m[i] <==> ((i >= shifts && upper[i - shifts]) != inverted[i]) || upper[i])
  {
    var s := ShiftUpWords(upper, shifts, words);
    var x := MaskXor(s, inverted);
    var r := MaskOr(x, upper);
    if words >= 1 && |upper| <= 64 then
      ShiftUpWordsPlain(upper, shifts, words);
      var p := ShiftUp(upper, shifts);
      assert s == p;
      assert forall i :: 0 <= i < |upper| ==> x[i] == (p[i] != inverted[i]);
      assert forall i :: 0 <= i < |upper| ==> r[i] == (x[i] || upper[i]);
      r
    else r
  }

  /** getNumberOfVarints: vcpop.m returned as a uint8_t. */
  function NumberOfVarints(m: seq<bool>): (r: nat)
    ensures r < 256
    ensures |m| <= 255 ==> r == Count(m)
  {
    Count(m) % 256
  }

  /** vid.v as uint8 lanes, read as signed bytes by the m2 variant's vredmax. */
  function LaneIndex(i: nat, signedIndex: bool): (r: int)
    ensures i < 128 ==> r == i
    ensures !signedIndex && i < 256 ==> r == i
  {
    if signedIndex then (if i % 256 < 128 then i % 256 else i % 256 - 256) else i % 256
  }

  /** vredmax over the merged lanes (the index of a terminator lane, 0 on a continuation lane), started from 0. */
  function RedMax(mask: seq<bool>, signedIndex: bool): (r: int)
    ensures r >= 0
  {
    if |mask| == 0 then 0
    else
      var last := |mask| - 1;
      var x := if mask[last] then 0 else LaneIndex(last, signedIndex);
      var m := RedMax(mask[..last], signedIndex);
      if x > m then x else m
  }

  /**
   * getCompleteVarintSize (unsigned reduction) and getCompleteVarintSize_m2
   * (signed reduction): the largest lane index whose `mask` lane is clear,
   * plus one, as a uint8_t.
   */
  function CompleteVarintSize(mask: seq<bool>, signedIndex: bool): (r: nat)
    ensures r < 256
  {
    (RedMax(mask, signedIndex) + 1) % 256
  }

  lemma {:induction false} RedMaxBound(mask: seq<bool>, signedIndex: bool)
    requires |mask| <= (if signedIndex then 128 else 256)
    ensures RedMax(mask, signedIndex) == 0 || RedMax(mask, signedIndex) < |mask|
    decreases |mask|
  {
    if |mask| > 0 {
      RedMaxBound(mask[..|mask| - 1], signedIndex);
    }
  }

  /** The reduction finds the last lane whose mask lane is clear. */
  lemma {:induction false} RedMaxIsLast(mask: seq<bool>, signedIndex: bool, p: nat)
    requires |mask| <= (if signedIndex then 128 else 256)
    requires p < |mask| && !mask[p] && forall i :: p < i < |mask| ==> mask[i]
    ensures RedMax(mask, signedIndex) == p
    decreases |mask|
  {
    var last := |mask| - 1;
    if p == last {
      RedMaxBound(mask[..last], signedIndex);
    } else {
      RedMaxIsLast(mask[..last], signedIndex, p);
    }
  }

  /**
   * On a batch whose complete varints fill at least one lane, the reduction
   * over the continuation mask yields the byte length of the complete
   * varints (up to 127 lanes for the signed reduction, 255 for the unsigned).
   */
  lemma CompleteVarintSizeIsCompleteLen(data: seq<bv8>, signedIndex: bool)
    requires |data| <= (if signedIndex then 127 else 255) && CompleteLen(data) > 0
    ensures CompleteVarintSize(MaskNot(SignedGeZero(data)), signedIndex) == CompleteLen(data)
  {
    LastTerminator(data);
    SizeAtLast(MaskNot(SignedGeZero(data)), signedIndex, CompleteLen(data));
  }

  /** The reduction gives one past the last clear lane of the continuation mask. */
  lemma SizeAtLast(mask: seq<bool>, signedIndex: bool, c: nat)
    requires |mask| <= (if signedIndex then 127 else 255) && 0 < c <= |mask|
    requires !mask[c - 1] && forall i :: c - 1 < i < |mask| ==> mask[i]
    ensures CompleteVarintSize(mask, signedIndex) == c
  {
    RedMaxIsLast(mask, signedIndex, c - 1);
    SizeFromMax(mask, signedIndex, c);
  }

  /** The last complete varint ends the run of terminators: only continuation bytes follow it. */
  lemma LastTerminator(data: seq<bv8>)
    requires CompleteLen(data) > 0
    ensures !MaskNot(SignedGeZero(data))[CompleteLen(data) - 1]
    ensures forall i :: CompleteLen(data) - 1 < i < |data| ==> MaskNot(SignedGeZero(data))[i]
  {
    CompleteLenSpec(data);
  }

  lemma SizeFromMax(mask: seq<bool>, signedIndex: bool, c: nat)
    requires |mask| <= 255 && 0 < c <= |mask|
    requires RedMax(mask, signedIndex) == c - 1
    ensures CompleteVarintSize(mask, signedIndex) == c
  {
  }

  /** The mask of the k-th bytes from the end (k = 2 .. 5), as the kernel derives it on `words` elements. */
  function ByteMask(data: seq<bv8>, t: Tail, words: nat, k: nat): (m: seq<bool>)
    requires 2 <= k <= 5
    ensures |m| == |data|
    decreases k
  {
    if k == 2 then SecondBytesMask(data, t.next)
    else NBytesMask(ByteMask(data, t, words, k - 1), MaskNot(SignedGeZero(data)), words, FillOf(t, k))
  }

  /** The compress mask for the k-th bytes from the end: createCompressMask(M_k, inverted, k - 1). */
  function GroupMask(data: seq<bv8>, t: Tail, words: nat, k: nat): (m: seq<bool>)
    requires 2 <= k <= 5
    ensures |m| == |data|
  {
    CompressMask(ByteMask(data, t, words, k), SignedGeZero(data), k - 1, words)
  }

  /** The k-th bytes from the end, zeroed elsewhere (vmerge), compressed under the group mask. */
  function GroupBytes(data: seq<bv8>, t: Tail, words: nat, k: nat): (r: seq<bv8>)
    requires 2 <= k <= 5
    ensures |r| == |data|
  {
    Compress(KeepSelected(data, ByteMask(data, t, words, k)), GroupMask(data, t, words, k))
  }

  /*
   * The same masks with plain lane shifts, as the word operations act when
   * the batch fits in one 64-bit element. The structural lemmas are stated
   * on these, for every tail.
   */

  function PlainMask(data: seq<bv8>, t: Tail, k: nat): (m: seq<bool>)
    requires 2 <= k <= 5
    ensures |m| == |data|
    decreases k
  {
    if k == 2 then SecondBytesMask(data, t.next)
    else MaskAnd(ShiftDown(PlainMask(data, t, k - 1), FillOf(t, k)), MaskNot(SignedGeZero(data)))
  }

  function PlainGroupMask(data: seq<bv8>, t: Tail, k: nat): (m: seq<bool>)
    requires 2 <= k <= 5
    ensures |m| == |data|
  {
    var mk := PlainMask(data, t, k);
    MaskOr(MaskXor(ShiftUp(mk, k - 1), SignedGeZero(data)), mk)
  }

  /** GroupBytes with the plain masks. */
  function PlainGroupBytes(data: seq<bv8>, t: Tail, k: nat): (r: seq<bv8>)
    requires 2 <= k <= 5
    ensures |r| == |data|
  {
    Compress(KeepSelected(data, PlainMask(data, t, k)), PlainGroupMask(data, t, k))
  }

  /** At 64 lanes the element's top bit has no lane above it inside the element: the shifted-in lanes are clear. */
  function PlainTail(t: Tail, vl: nat): Tail {
    if vl == 64 then Tail(t.next, false, false, false) else t
  }

  lemma NBytesMaskPlain(prev: seq<bool>, orig: seq<bool>, words: nat, fill: bool)
    requires |prev| == |orig| <= 64 && 1 <= words
    ensures NBytesMask(prev, orig, words, fill) == MaskAnd(ShiftDown(prev, fill && |prev| < 64), orig)
  {
    var a, b := NBytesMask(prev, orig, words, fill), MaskAnd(ShiftDown(prev, fill && |prev| < 64), orig);
    assert forall i :: 0 <= i < |prev| ==> a[i] == b[i];
  }

  lemma CompressMaskPlain(upper: seq<bool>, inverted: seq<bool>, shifts: nat, words: nat)
    requires |upper| == |inverted| <= 64 && 1 <= words
    ensures CompressMask(upper, inverted, shifts, words) == MaskOr(MaskXor(ShiftUp(upper, shifts), inverted), upper)
  {
    var a, b := CompressMask(upper, inverted, shifts, words), MaskOr(MaskXor(ShiftUp(upper, shifts), inverted), upper);
    assert forall i :: 0 <= i < |upper| ==> a[i] == b[i];
  }

  /** With at least one element and at most 64 lanes, the word-level byte masks are the plain ones. */
  lemma {:induction false} ByteMasksArePlain(data: seq<bv8>, t: Tail, words: nat, k: nat)
    requires 2 <= k <= 5 && 1 <= words && |data| <= 64
    ensures ByteMask(data, t, words, k) == PlainMask(data, PlainTail(t, |data|), k)
    decreases k
  {
    var pt := PlainTail(t, |data|);
    if k > 2 {
      var prev := ByteMask(data, t, words, k - 1);
      var orig := MaskNot(SignedGeZero(data));
      ByteMasksArePlain(data, t, words, k - 1);
      assert prev == PlainMask(data, pt, k - 1);
      assert FillOf(pt, k) == (FillOf(t, k) && |data| < 64);
      NBytesMaskPlain(prev, orig, words, FillOf(t, k));
      assert ByteMask(data, t, words, k) == NBytesMask(prev, orig, words, FillOf(t, k));
      assert PlainMask(data, pt, k) == MaskAnd(ShiftDown(prev, FillOf(pt, k)), orig);
    }
  }

  /** With at least one element and at most 64 lanes, the word-level masks are the plain ones. */
  lemma WordMasksArePlain(data: seq<bv8>, t: Tail, words: nat, k: nat)
    requires 2 <= k <= 5 && 1 <= words && |data| <= 64
    ensures ByteMask(data, t, words, k) == PlainMask(data, PlainTail(t, |data|), k)
    ensures GroupMask(data, t, words, k) == PlainGroupMask(data, PlainTail(t, |data|), k)
  {
    ByteMasksArePlain(data, t, words, k);
    CompressMaskPlain(ByteMask(data, t, words, k), SignedGeZero(data), k - 1, words);
  }

  /** Inside the first varint of a batch, M_k marks exactly the k-th byte from its end. */
  lemma {:induction false} MaskInFirst(data: seq<bv8>, t: Tail, k: nat)
    requires 2 <= k <= 5 && FirstLen(data) > 0
    ensures forall p :: 0 <= p < FirstLen(data) ==> (PlainMask(data, t, k)[p] <==> p + k == FirstLen(data))
    decreases k
  {
    FirstLenSpec(data);
    if k > 2 {
      MaskInFirst(data, t, k - 1);
    }
  }

  lemma SecondBytesDrop(data: seq<bv8>, next: bv8, n: nat)
    requires n <= |data|
    ensures SecondBytesMask(data, next)[n..] == SecondBytesMask(data[n..], next)
  {
    var a, b := SecondBytesMask(data, next)[n..], SecondBytesMask(data[n..], next);
    assert forall i :: 0 <= i < |b| ==> a[i] == b[i];
  }

  lemma NextMaskDrop(prev: seq<bool>, data: seq<bv8>, fill: bool, n: nat)
    requires |prev| == |data| && n <= |data|
    ensures MaskAnd(ShiftDown(prev, fill), MaskNot(SignedGeZero(data)))[n..]
            == MaskAnd(ShiftDown(prev[n..], fill), MaskNot(SignedGeZero(data[n..])))
  {
    var a := MaskAnd(ShiftDown(prev, fill), MaskNot(SignedGeZero(data)))[n..];
    var b := MaskAnd(ShiftDown(prev[n..], fill), MaskNot(SignedGeZero(data[n..])));
    assert forall i :: 0 <= i < |b| ==> a[i] == b[i];
  }

  /** Past the first varint, M_k of a batch is M_k of the rest. */
  lemma {:induction false} MaskDrop(data: seq<bv8>, t: Tail, k: nat)
    requires 2 <= k <= 5 && FirstLen(data) > 0
    ensures PlainMask(data, t, k)[FirstLen(data)..] == PlainMask(data[FirstLen(data)..], t, k)
    decreases k
  {
    var n := FirstLen(data);
    if k == 2 {
      SecondBytesDrop(data, t.next, n);
    } else {
      MaskDrop(data, t, k - 1);
      NextMaskDrop(PlainMask(data, t, k - 1), data, FillOf(t, k), n);
    }
  }

  /**
   * Inside the first varint, the group mask selects one lane: the k-th byte
   * from the end when the varint has k bytes or more, its terminator
   * otherwise.
   */
  lemma GroupMaskInFirst(data: seq<bv8>, t: Tail, k: nat)
    requires 2 <= k <= 5 && FirstLen(data) > 0
    ensures var n := FirstLen(data);
            forall p :: 0 <= p < n ==>
              (PlainGroupMask(data, t, k)[p] <==> p == (if n >= k then n - k else n - 1))
  {
    var n := FirstLen(data);
    FirstLenSpec(data);
    MaskInFirst(data, t, k);
    forall p | 0 <= p < n
      ensures PlainGroupMask(data, t, k)[p] <==> p == (if n >= k then n - k else n - 1)
    {
      GroupMaskLane(data, t, k, p);
    }
  }

  /** One lane of GroupMaskInFirst, from the lanes of M_k and of the terminators. */
  lemma GroupMaskLane(data: seq<bv8>, t: Tail, k: nat, p: nat)
    requires 2 <= k <= 5 && 0 <= p < FirstLen(data)
    requires forall i :: 0 <= i < FirstLen(data) - 1 ==> !IsTerminator(data[i])
    requires forall i :: 0 <= i < FirstLen(data) ==> (PlainMask(data, t, k)[i] <==> i + k == FirstLen(data))
    ensures var n := FirstLen(data);
            PlainGroupMask(data, t, k)[p] <==> p == (if n >= k then n - k else n - 1)
  {
    var n := FirstLen(data);
    var mk := PlainMask(data, t, k);
    var up := ShiftUp(mk, k - 1);
    var term := SignedGeZero(data);
    assert PlainGroupMask(data, t, k)[p] == ((up[p] != term[p]) || mk[p]);
    assert up[p] == (p >= k - 1 && mk[p - (k - 1)]);
    assert up[p] <==> p == n - 1 && n >= k;
    assert term[p] <==> p == n - 1;
    assert mk[p] <==> p + k == n;
  }

  /** Past the first varint, the group mask of a batch is the group mask of the rest. */
  lemma GroupMaskDrop(data: seq<bv8>, t: Tail, k: nat)
    requires 2 <= k <= 5 && FirstLen(data) > 0
    ensures PlainGroupMask(data, t, k)[FirstLen(data)..] == PlainGroupMask(data[FirstLen(data)..], t, k)
  {
    var n := FirstLen(data);
    var rest := data[n..];
    MaskInFirst(data, t, k);
    MaskDrop(data, t, k);
    var mk, mk' := PlainMask(data, t, k), PlainMask(rest, t, k);
    assert forall j :: 0 <= j < |mk'| ==> mk[n + j] == mk[n..][j];
    GroupMaskDropAll(data, mk, mk', n, k);
  }

  /** GroupMaskDrop, for any M_k with no lane k-1 below the end of the first varint. */
  lemma GroupMaskDropAll(data: seq<bv8>, mk: seq<bool>, mk': seq<bool>, n: nat, k: nat)
    requires 2 <= k <= 5 && 0 < n <= |data| == |mk| && |mk'| == |data| - n
    requires forall p :: 0 <= p < n ==> (mk[p] <==> p + k == n)
    requires forall j :: 0 <= j < |mk'| ==> mk[n + j] == mk'[j]
    ensures MaskOr(MaskXor(ShiftUp(mk, k - 1), SignedGeZero(data)), mk)[n..]
            == MaskOr(MaskXor(ShiftUp(mk', k - 1), SignedGeZero(data[n..])), mk')
  {
    var a := MaskOr(MaskXor(ShiftUp(mk, k - 1), SignedGeZero(data)), mk);
    var b := MaskOr(MaskXor(ShiftUp(mk', k - 1), SignedGeZero(data[n..])), mk');
    forall i | 0 <= i < |b|
      ensures a[n..][i] == b[i]
    {
      GroupMaskDropLane(data, mk, mk', n, k, i);
    }
  }

  /** One lane of GroupMaskDrop, for any M_k with no lane k-1 below the end of the first varint. */
  lemma GroupMaskDropLane(data: seq<bv8>, mk: seq<bool>, mk': seq<bool>, n: nat, k: nat, i: nat)
    requires 2 <= k <= 5 && 0 < n && n + i < |data| == |mk| && |mk'| == |data| - n
    requires forall p :: 0 <= p < n ==> (mk[p] <==> p + k == n)
    requires forall j :: 0 <= j < |mk'| ==> mk[n + j] == mk'[j]
    ensures MaskOr(MaskXor(ShiftUp(mk, k - 1), SignedGeZero(data)), mk)[n + i]
            == MaskOr(MaskXor(ShiftUp(mk', k - 1), SignedGeZero(data[n..])), mk')[i]
  {
    var up, up' := ShiftUp(mk, k - 1), ShiftUp(mk', k - 1);
    assert data[n..][i] == data[n + i];
    if i >= k - 1 {
      assert mk[n + i - (k - 1)] == mk'[i - (k - 1)];
    } else if n + i >= k - 1 {
      assert !mk[n + i - (k - 1)];
    }
  }

  /**
   * The byte group k (k = 1 .. 5) is meant to bring to the lane of the varint
   * that starts `t`: its k-th byte from the end, or 0 when it has fewer than
   * k bytes.
   */
  function Sel(t: seq<bv8>, k: nat): bv8
    requires 0 < FirstLen(t) && 1 <= k
  {
    if FirstLen(t) >= k then t[FirstLen(t) - k] else 0
  }

  lemma {:induction false} SplitTails(w: seq<bv8>, j: nat)
    requires 0 < j < |Varints(w)|
    ensures 0 < FirstLen(w) && j - 1 < |Varints(w[FirstLen(w)..])|
    ensures j < |Tails(w)| && j - 1 < |Tails(w[FirstLen(w)..])|
    ensures Tails(w)[j] == Tails(w[FirstLen(w)..])[j - 1]
  {
    TailAt(w, j);
  }

  /**
   * Peeling the first varint off the compressed terminators: lane 0 is the
   * first varint's terminator, and the following lanes are the compressed
   * terminators of the rest of the batch.
   */
  lemma {:induction false} TerminatorPeel(w: seq<bv8>)
    requires FirstLen(w) > 0
    ensures var n := FirstLen(w);
            var c := Compress(w, SignedGeZero(w));
            var c' := Compress(w[n..], SignedGeZero(w[n..]));
            && c[0] == Sel(w, 1)
            && forall j :: 0 <= j < |w| - n ==> c[j + 1] == c'[j]
  {
    var n := FirstLen(w);
    FirstLenSpec(w);
    var inv := SignedGeZero(w);
    assert inv[n - 1];
    assert forall i :: 0 <= i < n && i != n - 1 ==> !inv[i];
    CompressPeel(w, inv, n, n - 1);
    var c, c' := Compress(w, inv), Compress(w[n..], inv[n..]);
    assert inv[n..] == SignedGeZero(w[n..]);
    assert forall j :: 0 <= j < |w| - n ==> c[j + 1] == c'[j];
  }

  lemma {:induction false} TerminatorLaneFirst(w: seq<bv8>)
    requires 0 < |Varints(w)|
    ensures 0 < |Tails(w)| && 0 < FirstLen(Tails(w)[0]) && 0 < |w|
    ensures Compress(w, SignedGeZero(w))[0] == Sel(Tails(w)[0], 1)
  {
    TailAt(w, 0);
    TerminatorPeel(w);
  }

  lemma {:induction false} TerminatorLaneNext(w: seq<bv8>, j: nat)
    requires 0 < j < |Varints(w)|
    requires var rest := w[FirstLen(w)..];
             && j - 1 < |Tails(rest)| && 0 < FirstLen(Tails(rest)[j - 1]) && j - 1 < |rest|
             && Compress(rest, SignedGeZero(rest))[j - 1] == Sel(Tails(rest)[j - 1], 1)
    ensures j < |Tails(w)| && 0 < FirstLen(Tails(w)[j]) && j < |w|
    ensures Compress(w, SignedGeZero(w))[j] == Sel(Tails(w)[j], 1)
  {
    SplitTails(w, j);
    TerminatorPeel(w);
  }

  /** Lane j of the compressed terminators (compressed_zero_msb) is the terminator of complete varint j. */
  lemma {:induction false} TerminatorLane(w: seq<bv8>, j: nat)
    requires j < |Varints(w)|
    ensures j < |Tails(w)| && 0 < FirstLen(Tails(w)[j]) && j < |w|
    ensures Compress(w, SignedGeZero(w))[j] == Sel(Tails(w)[j], 1)
    decreases j
  {
    if j == 0 {
      TerminatorLaneFirst(w);
    } else {
      SplitTails(w, j);
      TerminatorLane(w[FirstLen(w)..], j - 1);
      TerminatorLaneNext(w, j);
    }
  }

  /**
   * Peeling the first varint off the k-th group: lane 0 is the byte the group
   * is meant to bring to the first varint, and the following lanes are the
   * group of the rest of the batch.
   */
  lemma {:induction false} GroupPeel(w: seq<bv8>, t: Tail, k: nat)
    requires 2 <= k <= 5 && FirstLen(w) > 0
    ensures var n := FirstLen(w);
            var g := PlainGroupBytes(w, t, k);
            var g' := PlainGroupBytes(w[n..], t, k);
            && g[0] == Sel(w, k)
            && forall j :: 0 <= j < |w| - n ==> g[j + 1] == g'[j]
  {
    var n := FirstLen(w);
    var m, cm := PlainMask(w, t, k), PlainGroupMask(w, t, k);
    var v := KeepSelected(w, m);
    var p := if n >= k then n - k else n - 1;
    GroupMaskInFirst(w, t, k);
    CompressPeel(v, cm, n, p);
    SelectedInFirst(w, t, k);
    MaskDrop(w, t, k);
    GroupMaskDrop(w, t, k);
    KeepSelectedDrop(w, m, n);
  }

  /** The byte the k-th group keeps in the first varint's group lane is the one meant for it. */
  lemma {:induction false} SelectedInFirst(w: seq<bv8>, t: Tail, k: nat)
    requires 2 <= k <= 5 && FirstLen(w) > 0
    ensures var n := FirstLen(w);
            KeepSelected(w, PlainMask(w, t, k))[if n >= k then n - k else n - 1] == Sel(w, k)
  {
    MaskInFirst(w, t, k);
    KeepFirst(w, PlainMask(w, t, k), k);
  }

  /** SelectedInFirst, for any mask that marks the k-th byte from the end of the first varint. */
  lemma KeepFirst(w: seq<bv8>, mk: seq<bool>, k: nat)
    requires 2 <= k && FirstLen(w) > 0 && |mk| == |w|
    requires forall p :: 0 <= p < FirstLen(w) ==> (mk[p] <==> p + k == FirstLen(w))
    ensures var n := FirstLen(w);
            KeepSelected(w, mk)[if n >= k then n - k else n - 1] == Sel(w, k)
  {
    var n := FirstLen(w);
    var p := if n >= k then n - k else n - 1;
    assert mk[p] <==> n >= k;
  }

  lemma {:induction false} GroupLaneFirst(w: seq<bv8>, t: Tail, k: nat)
    requires 2 <= k <= 5 && 0 < |Varints(w)|
    ensures 0 < |Tails(w)| && 0 < FirstLen(Tails(w)[0]) && 0 < |w|
    ensures PlainGroupBytes(w, t, k)[0] == Sel(Tails(w)[0], k)
  {
    TailAt(w, 0);
    GroupPeel(w, t, k);
  }

  lemma {:induction false} GroupLaneNext(w: seq<bv8>, t: Tail, k: nat, j: nat)
    requires 2 <= k <= 5 && 0 < j < |Varints(w)|
    requires var rest := w[FirstLen(w)..];
             && j - 1 < |Tails(rest)| && 0 < FirstLen(Tails(rest)[j - 1]) && j - 1 < |rest|
             && PlainGroupBytes(rest, t, k)[j - 1]
                == Sel(Tails(rest)[j - 1], k)
    ensures j < |Tails(w)| && 0 < FirstLen(Tails(w)[j]) && j < |w|
    ensures PlainGroupBytes(w, t, k)[j] == Sel(Tails(w)[j], k)
  {
    SplitTails(w, j);
    GroupPeel(w, t, k);
  }

  /**
   * Lane j of the k-th group (the k-th bytes from the end compressed under
   * the group mask) is the k-th byte from the end of complete varint j, or 0
   * when that varint is shorter.
   */
  lemma {:induction false} GroupLane(w: seq<bv8>, t: Tail, k: nat, j: nat)
    requires 2 <= k <= 5 && j < |Varints(w)|
    ensures j < |Tails(w)| && 0 < FirstLen(Tails(w)[j]) && j < |w|
    ensures PlainGroupBytes(w, t, k)[j] == Sel(Tails(w)[j], k)
    decreases j
  {
    if j == 0 {
      GroupLaneFirst(w, t, k);
    } else {
      SplitTails(w, j);
      GroupLane(w[FirstLen(w)..], t, k, j - 1);
      GroupLaneNext(w, t, k, j);
    }
  }

  lemma MaskCountDrop(w: seq<bv8>, t: Tail, k: nat)
    requires 2 <= k <= 5 && FirstLen(w) > 0
    ensures Count(PlainMask(w[FirstLen(w)..], t, k)) <= Count(PlainMask(w, t, k))
  {
    var n := FirstLen(w);
    MaskDrop(w, t, k);
    var m := PlainMask(w, t, k);
    assert m == m[..n] + m[n..];
    CountConcat(m[..n], m[n..]);
  }

  /** The mask of k-th bytes from the end of a suffix at a varint start counts no more lanes than the batch's. */
  lemma {:induction false} TailMaskCount(w: seq<bv8>, t: Tail, k: nat, j: nat)
    requires 2 <= k <= 5 && j < |Tails(w)|
    ensures Count(PlainMask(Tails(w)[j], t, k)) <= Count(PlainMask(w, t, k))
    decreases j
  {
    if j > 0 {
      assert FirstLen(w) > 0;
      var rest := w[FirstLen(w)..];
      assert Tails(w)[j] == Tails(rest)[j - 1];
      var a, b := Count(PlainMask(Tails(rest)[j - 1], t, k)), Count(PlainMask(rest, t, k));
      TailMaskCount(rest, t, k, j - 1);
      MaskCountDrop(w, t, k);
    } else {
      assert Tails(w)[0] == w;
    }
  }

  /** A varint of at least k bytes at the start of a batch puts a lane into M_k. */
  lemma {:induction false} LongFirstCounts(d: seq<bv8>, t: Tail, k: nat)
    requires 2 <= k <= 5 && FirstLen(d) > 0
    ensures FirstLen(d) >= k ==> Count(PlainMask(d, t, k)) > 0
  {
    if FirstLen(d) >= k {
      MaskInFirst(d, t, k);
      CountPositive(PlainMask(d, t, k), FirstLen(d) - k);
    }
  }

  /** When the mask of k-th bytes from the end counts no lane, no complete varint has k bytes. */
  lemma {:induction false} SkipIsHarmless(w: seq<bv8>, t: Tail, k: nat, j: nat)
    requires 2 <= k <= 5 && j < |Varints(w)| && Count(PlainMask(w, t, k)) == 0
    ensures j < |Tails(w)| && FirstLen(Tails(w)[j]) < k
  {
    TailAt(w, j);
    TailMaskCount(w, t, k, j);
    LongFirstCounts(Tails(w)[j], t, k);
  }

  /**
   * One lane of the masked vsll by 7 and vor, read as mask-undisturbed (the
   * `_mu` intrinsics): when the compressed byte counts as present, the lane
   * is shifted up by 7 bits and takes the byte's low 7 bits; otherwise it
   * keeps its value. With `clearFirst` the presence test looks at the low 7
   * bits only. AgnosticKernel below gives the mask-agnostic reading of the
   * `_m` intrinsics the code calls.
   */
  function ShiftIn(r: bv32, c: bv8, clearFirst: bool): bv32 {
    if (if clearFirst then c & 0x7F else c) != 0 then (r << 7) | Payload(c) else r
  }

  /** The lane-wise ShiftIn over a register (vmsne.vx, vand.vx, vzext.vf4, masked vsll.vx and vor.vv). */
  function ShiftInLanes(r: seq<bv32>, c: seq<bv8>, clearFirst: bool): (res: seq<bv32>)
    requires |r| == |c|
    ensures |res| == |r|
    ensures forall i :: 0 <= i < |r| ==> res[i] == ShiftIn(r[i], c[i], clearFirst)
  {
    seq(|r|, i requires 0 <= i < |r| => ShiftIn(r[i], c[i], clearFirst))
  }

  /**
   * The slow path over all vl lanes: the terminators compressed and widened,
   * then the second to fifth bytes from the end shifted in under them. The
   * third, fourth and fifth groups are only applied when their byte mask
   * counts a lane, as the nested vcpop tests do. `clearFirst` gives the order
   * of the exported varint_decode, which tests for zero after clearing bit 7.
   * Masked-off lanes keep their content: the mask-undisturbed reading of the
   * masked steps, which AgnosticKernel generalises.
   */
  function Kernel(data: seq<bv8>, t: Tail, words: nat, clearFirst: bool): (r: seq<bv32>)
    ensures |r| == |data|
  {
    var r2 := ShiftInLanes(Zext(Compress(data, SignedGeZero(data))), GroupBytes(data, t, words, 2), clearFirst);
    if Count(ByteMask(data, t, words, 3)) == 0 then r2
    else
      var r3 := ShiftInLanes(r2, GroupBytes(data, t, words, 3), clearFirst);
      if Count(ByteMask(data, t, words, 4)) == 0 then r3
      else
        var r4 := ShiftInLanes(r3, GroupBytes(data, t, words, 4), clearFirst);
        if Count(ByteMask(data, t, words, 5)) == 0 then r4
        else ShiftInLanes(r4, GroupBytes(data, t, words, 5), clearFirst)
  }

  /** A lane's value built from its terminator and the four bytes the groups bring. */
  function Chain(s1: bv8, s2: bv8, s3: bv8, s4: bv8, s5: bv8, clearFirst: bool): bv32 {
    ShiftIn(ShiftIn(ShiftIn(ShiftIn(Widen(s1), s2, clearFirst), s3, clearFirst), s4, clearFirst), s5, clearFirst)
  }

  lemma SkipZero(r: bv32, clearFirst: bool)
    ensures ShiftIn(r, 0, clearFirst) == r
  {
  }

  /**
   * For a batch of at most 64 lanes and at least one element, lane j of the
   * slow path is the chain over the bytes the groups are meant to bring to
   * complete varint j: skipping a group whose mask counts no lane changes no
   * such lane, and the tail lanes do not matter.
   */
  lemma {:induction false} KernelLane(w: seq<bv8>, t: Tail, words: nat, clearFirst: bool, j: nat)
    requires 1 <= words && |w| <= 64 && j < |Varints(w)|
    ensures j < |Tails(w)| && 0 < FirstLen(Tails(w)[j]) && j < |w|
    ensures var tj := Tails(w)[j];
            Kernel(w, t, words, clearFirst)[j]
            == Chain(Sel(tj, 1), Sel(tj, 2), Sel(tj, 3), Sel(tj, 4), Sel(tj, 5), clearFirst)
  {
    TerminatorLane(w, j);
    var tj := Tails(w)[j];
    KernelLaneStaged(w, t, words, clearFirst, j);
    GroupBytesLane(w, t, words, 2, j);
    GroupBytesLane(w, t, words, 3, j);
    GroupBytesLane(w, t, words, 4, j);
    GroupBytesLane(w, t, words, 5, j);
    SkippedGroup(w, t, words, 3, j);
    SkippedGroup(w, t, words, 4, j);
    SkippedGroup(w, t, words, 5, j);
    StagedIsChain(Sel(tj, 1), Sel(tj, 2), Sel(tj, 3), Sel(tj, 4), Sel(tj, 5),
                  Count(ByteMask(w, t, words, 3)) == 0, Count(ByteMask(w, t, words, 4)) == 0,
                  Count(ByteMask(w, t, words, 5)) == 0, clearFirst);
  }

  /** One lane of the slow path, with the three skip decisions as inputs. */
  function Staged(s1: bv8, s2: bv8, s3: bv8, s4: bv8, s5: bv8, skip3: bool, skip4: bool, skip5: bool, clearFirst: bool): bv32 {
    var x2 := ShiftIn(Widen(s1), s2, clearFirst);
    if skip3 then x2
    else
      var x3 := ShiftIn(x2, s3, clearFirst);
      if skip4 then x3
      else
        var x4 := ShiftIn(x3, s4, clearFirst);
        if skip5 then x4 else ShiftIn(x4, s5, clearFirst)
  }

  lemma {:induction false} KernelLaneStaged(w: seq<bv8>, t: Tail, words: nat, clearFirst: bool, j: nat)
    requires j < |w|
    ensures Kernel(w, t, words, clearFirst)[j]
            == Staged(Compress(w, SignedGeZero(w))[j], GroupBytes(w, t, words, 2)[j], GroupBytes(w, t, words, 3)[j],
                      GroupBytes(w, t, words, 4)[j], GroupBytes(w, t, words, 5)[j],
                      Count(ByteMask(w, t, words, 3)) == 0, Count(ByteMask(w, t, words, 4)) == 0,
                      Count(ByteMask(w, t, words, 5)) == 0, clearFirst)
  {
  }

  /** Skipping a stage whose bytes are all zero for this lane gives the full chain. */
  lemma StagedIsChain(s1: bv8, s2: bv8, s3: bv8, s4: bv8, s5: bv8, skip3: bool, skip4: bool, skip5: bool, clearFirst: bool)
    requires skip3 ==> s3 == 0 && s4 == 0 && s5 == 0
    requires skip4 ==> s4 == 0 && s5 == 0
    requires skip5 ==> s5 == 0
    ensures Staged(s1, s2, s3, s4, s5, skip3, skip4, skip5, clearFirst) == Chain(s1, s2, s3, s4, s5, clearFirst)
  {
    var x2 := ShiftIn(Widen(s1), s2, clearFirst);
    var x3 := ShiftIn(x2, s3, clearFirst);
    var x4 := ShiftIn(x3, s4, clearFirst);
    SkipZero(x2, clearFirst);
    SkipZero(x3, clearFirst);
    SkipZero(x4, clearFirst);
  }

  /** Lane j of the k-th group, as the kernel computes it, brings the k-th byte from the end of complete varint j. */
  lemma {:induction false} GroupBytesLane(w: seq<bv8>, t: Tail, words: nat, k: nat, j: nat)
    requires 2 <= k <= 5 && 1 <= words && |w| <= 64 && j < |Varints(w)|
    ensures j < |Tails(w)| && 0 < FirstLen(Tails(w)[j]) && j < |w|
    ensures GroupBytes(w, t, words, k)[j] == Sel(Tails(w)[j], k)
  {
    WordMasksArePlain(w, t, words, k);
    GroupLane(w, PlainTail(t, |w|), k, j);
  }

  /** A group the kernel skips has no byte to bring to any complete varint. */
  lemma {:induction false} SkippedGroup(w: seq<bv8>, t: Tail, words: nat, k: nat, j: nat)
    requires 2 <= k <= 5 && 1 <= words && |w| <= 64 && j < |Varints(w)|
    ensures j < |Tails(w)| && 0 < FirstLen(Tails(w)[j])
    ensures Count(ByteMask(w, t, words, k)) == 0 ==> FirstLen(Tails(w)[j]) < k
  {
    TailAt(w, j);
    WordMasksArePlain(w, t, words, k);
    if Count(ByteMask(w, t, words, k)) == 0 {
      SkipIsHarmless(w, PlainTail(t, |w|), k, j);
    }
  }

  /** The last min(k, n) bytes of the varint of n bytes that starts `t`. */
  function LastBytes(t: seq<bv8>, k: nat): (r: seq<bv8>)
    requires 0 < FirstLen(t) <= 5
    ensures |r| <= 5
  {
    var n := FirstLen(t);
    if k >= n then t[..n] else t[n - k..n]
  }

  /** Below a value shifted up by 7 bits, a 7-bit payload can be or-ed or added alike. */
  lemma OrIsAdd(x: bv32, p: bv32)
    requires p < 0x80
    ensures (x << 7) | p == p + (x << 7)
  {
  }

  /** Shifting a continuation byte in under the value of the bytes after it gives the value with that byte in front. */
  lemma {:induction false} ShiftInValue(v: seq<bv8>)
    requires 2 <= |v| <= 5 && !IsTerminator(v[0])
    ensures ShiftIn(Value(v[1..]), v[0], false) == Value(v)
  {
    OrIsAdd(Value(v[1..]), Payload(v[0]));
  }

  lemma {:induction false} ChainFirst(t: seq<bv8>)
    requires 0 < FirstLen(t) <= 5
    ensures Widen(Sel(t, 1)) == Value(LastBytes(t, 1))
  {
    var n := FirstLen(t);
    assert LastBytes(t, 1) == [t[n - 1]];
    ValueOf1(t[n - 1]);
    Scalar.PayloadOfTerminator(t[n - 1]);
  }

  lemma {:induction false} ChainStep(t: seq<bv8>, k: nat)
    requires 0 < FirstLen(t) <= 5 && 2 <= k <= 5
    ensures ShiftIn(Value(LastBytes(t, k - 1)), Sel(t, k), false) == Value(LastBytes(t, k))
  {
    var n := FirstLen(t);
    if k > n {
      SkipZero(Value(LastBytes(t, k - 1)), false);
    } else {
      FirstLenSpec(t);
      var v := LastBytes(t, k);
      assert v[1..] == LastBytes(t, k - 1);
      assert v[0] == Sel(t, k);
      ShiftInValue(v);
    }
  }

  /**
   * The chain over the bytes the groups bring to a varint of one to five
   * bytes is its value: shifting in from the terminator down to the first
   * byte evaluates the group sum in Horner form.
   */
  lemma {:induction false} ChainValue(t: seq<bv8>)
    requires 0 < FirstLen(t) <= 5
    ensures Chain(Sel(t, 1), Sel(t, 2), Sel(t, 3), Sel(t, 4), Sel(t, 5), false) == Value(t[..FirstLen(t)])
  {
    ChainHead(t);
    ChainStep(t, 4);
    ChainStep(t, 5);
    LastBytesAll(t);
  }

  /** The first two shifts of the chain give the value of the last three bytes. */
  lemma ChainHead(t: seq<bv8>)
    requires 0 < FirstLen(t) <= 5
    ensures ShiftIn(ShiftIn(Widen(Sel(t, 1)), Sel(t, 2), false), Sel(t, 3), false) == Value(LastBytes(t, 3))
  {
    ChainFirst(t);
    ChainStep(t, 2);
    ChainStep(t, 3);
  }

  lemma LastBytesAll(t: seq<bv8>)
    requires 0 < FirstLen(t) <= 5
    ensures LastBytes(t, 5) == t[..FirstLen(t)]
  {
  }

  /** Lane j of the slow path, kept to the complete varints, is the value of complete varint j. */
  lemma {:induction false} KernelValue(w: seq<bv8>, t: Tail, words: nat, j: nat)
    requires 1 <= words && |w| <= 64 && Framed(w) && j < |Varints(w)|
    ensures j < |w| && Kernel(w, t, words, false)[j] == Values(w)[j]
  {
    KernelLane(w, t, words, false, j);
    TailAt(w, j);
    assert Varints(w)[j] in Varints(w);
    ChainValue(Tails(w)[j]);
  }

  lemma {:induction false} KernelValues(w: seq<bv8>, t: Tail, words: nat)
    requires 1 <= words && |w| <= 64 && Framed(w)
    ensures Count(SignedGeZero(w)) <= |w|
    ensures Kernel(w, t, words, false)[..Count(SignedGeZero(w))] == Values(w)
  {
    VarintsAreTerminators(w);
    var nv := Count(SignedGeZero(w));
    var k, v := Kernel(w, t, words, false), Values(w);
    forall j | 0 <= j < nv
      ensures k[j] == v[j]
    {
      KernelValue(w, t, words, j);
    }
    PrefixIs(k, v);
  }

  lemma PrefixIs(k: seq<bv32>, v: seq<bv32>)
    requires |v| <= |k| && forall j :: 0 <= j < |v| ==> k[j] == v[j]
    ensures k[..|v|] == v
  {
  }

  /**
   * The masked vsll.vx and vor.vv of the kernels are the mask-agnostic `_m`
   * intrinsics: a lane whose byte does not count as present may hold any
   * value afterwards. A MaskedOff gives that value from the stage k, the
   * lane and the lane's previous content.
   */
  type MaskedOff = (nat, nat, bv32) -> bv32

  /** The mask-undisturbed choice (the `_mu` intrinsics): an inactive lane keeps its content. */
  const Undisturbed: MaskedOff := (k: nat, i: nat, r: bv32) => r

  /** A mask-agnostic choice RVV allows: every inactive lane is overwritten with ones. */
  const AllOnes: MaskedOff := (k: nat, i: nat, r: bv32) => 0xFFFF_FFFF

  /** One lane of one masked stage with mask-agnostic inactive lanes. */
  function AgnosticStep(r: bv32, c: bv8, clearFirst: bool, off: MaskedOff, k: nat, i: nat): bv32 {
    if (if clearFirst then c & 0x7F else c) != 0 then ShiftIn(r, c, clearFirst) else off(k, i, r)
  }

  /** The lane-wise masked shift-in of stage k with mask-agnostic inactive lanes. */
  function AgnosticLanes(r: seq<bv32>, c: seq<bv8>, clearFirst: bool, off: MaskedOff, k: nat): (res: seq<bv32>)
    requires |r| == |c|
    ensures |res| == |r|
    ensures forall i :: 0 <= i < |r| && (if clearFirst then c[i] & 0x7F else c[i]) != 0 ==>
              res[i] == ShiftIn(r[i], c[i], clearFirst)
    ensures forall i :: 0 <= i < |r| && (if clearFirst then c[i] & 0x7F else c[i]) == 0 ==>
              res[i] == off(k, i, r[i])
  {
    seq(|r|, i requires 0 <= i < |r| => AgnosticStep(r[i], c[i], clearFirst, off, k, i))
  }

  /** The slow path as the `_m` intrinsics leave it: Kernel with the inactive lanes of every stage given by `off`. */
  function AgnosticKernel(data: seq<bv8>, t: Tail, words: nat, clearFirst: bool, off: MaskedOff): (r: seq<bv32>)
    ensures |r| == |data|
  {
    var r2 := AgnosticLanes(Zext(Compress(data, SignedGeZero(data))), GroupBytes(data, t, words, 2), clearFirst, off, 2);
    if Count(ByteMask(data, t, words, 3)) == 0 then r2
    else
      var r3 := AgnosticLanes(r2, GroupBytes(data, t, words, 3), clearFirst, off, 3);
      if Count(ByteMask(data, t, words, 4)) == 0 then r3
      else
        var r4 := AgnosticLanes(r3, GroupBytes(data, t, words, 4), clearFirst, off, 4);
        if Count(ByteMask(data, t, words, 5)) == 0 then r4
        else AgnosticLanes(r4, GroupBytes(data, t, words, 5), clearFirst, off, 5)
  }

  /** With the mask-undisturbed choice the agnostic kernel is Kernel. */
  lemma UndisturbedKernel(data: seq<bv8>, t: Tail, words: nat, clearFirst: bool)
    ensures AgnosticKernel(data, t, words, clearFirst, Undisturbed) == Kernel(data, t, words, clearFirst)
  {
    forall r: seq<bv32>, c: seq<bv8>, k: nat | |r| == |c|
      ensures AgnosticLanes(r, c, clearFirst, Undisturbed, k) == ShiftInLanes(r, c, clearFirst)
    {
      UndisturbedLanes(r, c, clearFirst, k);
    }
  }

  lemma UndisturbedLanes(r: seq<bv32>, c: seq<bv8>, clearFirst: bool, k: nat)
    requires |r| == |c|
    ensures AgnosticLanes(r, c, clearFirst, Undisturbed, k) == ShiftInLanes(r, c, clearFirst)
  {
    var a, s := AgnosticLanes(r, c, clearFirst, Undisturbed, k), ShiftInLanes(r, c, clearFirst);
    forall i | 0 <= i < |r|
      ensures a[i] == s[i]
    {
    }
  }

  /**
   * Lane j of a one-byte varint is inactive in every stage, so with the
   * all-ones choice the agnostic kernel stores 0xFFFFFFFF there, while Kernel
   * stores the varint's value, which is below 0x80.
   */
  lemma {:induction false} MaskedOffLane(w: seq<bv8>, t: Tail, words: nat, clearFirst: bool, j: nat)
    requires 1 <= words && |w| <= 64 && j < |Varints(w)| && |Varints(w)[j]| == 1
    ensures j < |w|
    ensures AgnosticKernel(w, t, words, clearFirst, AllOnes)[j] == 0xFFFF_FFFF
    ensures Kernel(w, t, words, clearFirst)[j] == Value(Varints(w)[j]) < 0x80
  {
    OneByteGroups(w, t, words, j);
    AgnosticLaneStaged(w, t, words, clearFirst, AllOnes, j);
    AllOnesStaged(Compress(w, SignedGeZero(w))[j], Count(ByteMask(w, t, words, 3)) == 0,
                  Count(ByteMask(w, t, words, 4)) == 0, Count(ByteMask(w, t, words, 5)) == 0, clearFirst, j);
    OneByteKernel(w, t, words, clearFirst, j);
  }

  /** No group brings a byte to the lane of a one-byte varint. */
  lemma {:induction false} OneByteGroups(w: seq<bv8>, t: Tail, words: nat, j: nat)
    requires 1 <= words && |w| <= 64 && j < |Varints(w)| && |Varints(w)[j]| == 1
    ensures j < |w|
    ensures GroupBytes(w, t, words, 2)[j] == 0 && GroupBytes(w, t, words, 3)[j] == 0
    ensures GroupBytes(w, t, words, 4)[j] == 0 && GroupBytes(w, t, words, 5)[j] == 0
  {
    TailAt(w, j);
    assert FirstLen(Tails(w)[j]) == 1;
    GroupBytesLane(w, t, words, 2, j);
    GroupBytesLane(w, t, words, 3, j);
    GroupBytesLane(w, t, words, 4, j);
    GroupBytesLane(w, t, words, 5, j);
  }

  /** Kernel keeps a one-byte varint's value in its lane. */
  lemma OneByteKernel(w: seq<bv8>, t: Tail, words: nat, clearFirst: bool, j: nat)
    requires 1 <= words && |w| <= 64 && j < |Varints(w)| && |Varints(w)[j]| == 1
    ensures j < |w|
    ensures Kernel(w, t, words, clearFirst)[j] == Value(Varints(w)[j]) < 0x80
  {
    KernelLane(w, t, words, clearFirst, j);
    OneByteTail(w, j);
    OneByteChain(Tails(w)[j], clearFirst);
  }

  /** A one-byte varint is the first byte of its tail, a terminator. */
  lemma OneByteTail(w: seq<bv8>, j: nat)
    requires j < |Varints(w)| && |Varints(w)[j]| == 1
    ensures j < |Tails(w)| && FirstLen(Tails(w)[j]) == 1
    ensures Value(Varints(w)[j]) == Payload(Tails(w)[j][0])
  {
    TailAt(w, j);
    var tj := Tails(w)[j];
    ValueOf1(tj[0]);
    assert Varints(w)[j] == [tj[0]];
  }

  /** The lane chain of a one-byte tail is that byte's value. */
  lemma OneByteChain(tj: seq<bv8>, clearFirst: bool)
    requires 0 < |tj| && FirstLen(tj) == 1
    ensures Chain(Sel(tj, 1), Sel(tj, 2), Sel(tj, 3), Sel(tj, 4), Sel(tj, 5), clearFirst) == Payload(tj[0]) < 0x80
  {
    ChainOfOne(tj[0], clearFirst);
  }

  /** Lane i of the agnostic slow path, with the bytes and the three skip decisions as inputs. */
  function AgnosticStaged(s1: bv8, s2: bv8, s3: bv8, s4: bv8, s5: bv8, skip3: bool, skip4: bool, skip5: bool,
                          clearFirst: bool, off: MaskedOff, i: nat): bv32 {
    var x2 := AgnosticStep(Widen(s1), s2, clearFirst, off, 2, i);
    if skip3 then x2
    else
      var x3 := AgnosticStep(x2, s3, clearFirst, off, 3, i);
      if skip4 then x3
      else
        var x4 := AgnosticStep(x3, s4, clearFirst, off, 4, i);
        if skip5 then x4 else AgnosticStep(x4, s5, clearFirst, off, 5, i)
  }

  lemma {:induction false} AgnosticLaneStaged(w: seq<bv8>, t: Tail, words: nat, clearFirst: bool, off: MaskedOff, j: nat)
    requires j < |w|
    ensures AgnosticKernel(w, t, words, clearFirst, off)[j]
            == AgnosticStaged(Compress(w, SignedGeZero(w))[j], GroupBytes(w, t, words, 2)[j], GroupBytes(w, t, words, 3)[j],
                              GroupBytes(w, t, words, 4)[j], GroupBytes(w, t, words, 5)[j],
                              Count(ByteMask(w, t, words, 3)) == 0, Count(ByteMask(w, t, words, 4)) == 0,
                              Count(ByteMask(w, t, words, 5)) == 0, clearFirst, off, j)
  {
    var r2 := AgnosticLanes(Zext(Compress(w, SignedGeZero(w))), GroupBytes(w, t, words, 2), clearFirst, off, 2);
    var r3 := AgnosticLanes(r2, GroupBytes(w, t, words, 3), clearFirst, off, 3);
    var r4 := AgnosticLanes(r3, GroupBytes(w, t, words, 4), clearFirst, off, 4);
    var r5 := AgnosticLanes(r4, GroupBytes(w, t, words, 5), clearFirst, off, 5);
    StepLane(Zext(Compress(w, SignedGeZero(w))), GroupBytes(w, t, words, 2), clearFirst, off, 2, j);
    StepLane(r2, GroupBytes(w, t, words, 3), clearFirst, off, 3, j);
    StepLane(r3, GroupBytes(w, t, words, 4), clearFirst, off, 4, j);
    StepLane(r4, GroupBytes(w, t, words, 5), clearFirst, off, 5, j);
  }

  lemma StepLane(r: seq<bv32>, c: seq<bv8>, clearFirst: bool, off: MaskedOff, k: nat, i: nat)
    requires |r| == |c| && i < |r|
    ensures AgnosticLanes(r, c, clearFirst, off, k)[i] == AgnosticStep(r[i], c[i], clearFirst, off, k, i)
  {
  }

  /** A lane no group brings a byte to ends up all ones under the all-ones choice, whichever stages run. */
  lemma AllOnesStaged(s1: bv8, skip3: bool, skip4: bool, skip5: bool, clearFirst: bool, i: nat)
    ensures AgnosticStaged(s1, 0, 0, 0, 0, skip3, skip4, skip5, clearFirst, AllOnes, i) == 0xFFFF_FFFF
  {
  }

  /** The chain over a lone terminator is its payload. */
  lemma ChainOfOne(s1: bv8, clearFirst: bool)
    ensures Chain(s1, 0, 0, 0, 0, clearFirst) == Widen(s1)
  {
  }

  /**
   * The mixed batch [0x05, 0x96, 0x01, 0, 0, 0, 0, 0] (values 5, 150, 0, ...)
   * takes the slow path; its first varint is one byte, so the all-ones
   * choice stores 0xFFFFFFFF in place of 5.
   */
  lemma MixedBatchWitness(t: Tail)
    ensures AgnosticKernel([0x05, 0x96, 0x01, 0, 0, 0, 0, 0], t, 1, false, AllOnes)[0] == 0xFFFF_FFFF
    ensures Kernel([0x05, 0x96, 0x01, 0, 0, 0, 0, 0], t, 1, false)[0] == 5
  {
    LeadingTerminatorLane([0x05, 0x96, 0x01, 0, 0, 0, 0, 0], t, 1, false);
  }

  /** A batch that opens with a terminator keeps its payload in lane 0; the all-ones choice does not. */
  lemma LeadingTerminatorLane(w: seq<bv8>, t: Tail, words: nat, clearFirst: bool)
    requires 1 <= words && 0 < |w| <= 64 && IsTerminator(w[0])
    ensures AgnosticKernel(w, t, words, clearFirst, AllOnes)[0] == 0xFFFF_FFFF
    ensures Kernel(w, t, words, clearFirst)[0] == Payload(w[0])
  {
    assert FirstLen(w) == 1;
    assert Varints(w)[0] == w[..1] == [w[0]];
    ValueOf1(w[0]);
    MaskedOffLane(w, t, words, clearFirst, 0);
  }

  /**
   * One iteration of varint_decode_m1 / varint_decode_m2 on a batch of vl
   * bytes with `words` = 64-bit mask elements: the fast path when every byte
   * is a terminator, otherwise the mask/shift kernel, storing
   * number_of_varints lanes and consuming number_of_bytes bytes.
   */
  function MaskshiftBatch(data: seq<bv8>, t: Tail, words: nat, signedIndex: bool): (b: Batch)
    requires 0 < |data| <= 255
    ensures |b.values| == Count(SignedGeZero(data))
  {
    var inverted := SignedGeZero(data);
    var nv := NumberOfVarints(inverted);
    if nv == |data| then Batch(Zext(data), |data|)
    else Batch(Kernel(data, t, words, false)[..nv], CompleteVarintSize(MaskNot(inverted), signedIndex))
  }

  /**
   * Batch equals scalar: on a batch of at most 64 bytes that holds at least
   * one complete varint, all of at most five bytes, and with at least one
   * 64-bit mask element, one iteration stores the values of the complete
   * varints in order and consumes exactly their bytes, whatever the tail
   * lanes hold.
   */
  lemma {:induction false} MaskshiftBatchDecodes(data: seq<bv8>, t: Tail, words: nat, signedIndex: bool)
    requires 0 < |data| <= 64 && 1 <= words && Framed(data) && CompleteLen(data) > 0
    ensures MaskshiftBatch(data, t, words, signedIndex) == Batch(Values(data), CompleteLen(data))
  {
    var inverted := SignedGeZero(data);
    if Count(inverted) == |data| {
      CountFull(inverted);
      AllTerminators(data);
    } else {
      KernelValues(data, t, words);
      CompleteVarintSizeIsCompleteLen(data, signedIndex);
    }
  }

  /** The batch as varint_decode_m1 / varint_decode_m2 run it: vl / 8 mask elements. */
  function AsWrittenBatch(data: seq<bv8>, t: Tail, signedIndex: bool): (b: Batch)
    requires 0 < |data| <= 255
    ensures |b.values| == Count(SignedGeZero(data))
  {
    MaskshiftBatch(data, t, |data| / 8, signedIndex)
  }

  /** The batch with the mask elements rounded up, (vl + 7) / 8, so that a batch of fewer than 8 bytes has one. */
  function CorrectedBatch(data: seq<bv8>, t: Tail, signedIndex: bool): (b: Batch)
    requires 0 < |data| <= 255
    ensures |b.values| == Count(SignedGeZero(data))
  {
    MaskshiftBatch(data, t, (|data| + 7) / 8, signedIndex)
  }

  /** With rounded-up mask elements, every batch of 1 to 64 bytes decodes correctly. */
  lemma CorrectedBatchDecodes(data: seq<bv8>, t: Tail, signedIndex: bool)
    requires 0 < |data| <= 64 && Framed(data) && CompleteLen(data) > 0
    ensures CorrectedBatch(data, t, signedIndex) == Batch(Values(data), CompleteLen(data))
  {
    MaskshiftBatchDecodes(data, t, (|data| + 7) / 8, signedIndex);
  }

  /** The code as written is correct on batches of 8 to 64 bytes, where vl / 8 is at least one element. */
  lemma AsWrittenFromEight(data: seq<bv8>, t: Tail, signedIndex: bool)
    requires 8 <= |data| <= 64 && Framed(data) && CompleteLen(data) > 0
    ensures AsWrittenBatch(data, t, signedIndex) == Batch(Values(data), CompleteLen(data))
  {
    MaskshiftBatchDecodes(data, t, |data| / 8, signedIndex);
  }

  /**
   * Without a mask element (a batch of fewer than 8 bytes, vl / 8 = 0) the
   * masks of third, fourth and fifth bytes are the mask of second bytes
   * again, so the second byte of a two-byte varint is shifted in four times:
   * [0x96, 0x01] encodes 150, and the batch stores 314936086.
   */
  lemma ShortBatchWitness(t: Tail, signedIndex: bool)
    ensures Values([0x96, 0x01]) == [150]
    ensures AsWrittenBatch([0x96, 0x01], t, signedIndex).values == [314936086]
  {
    ShortBatchValue();
    ShortKernelLane(t);
    ShortTerminatorCount();
    ShortBatchStores([0x96, 0x01], t, signedIndex);
  }

  lemma ShortBatchStores(d: seq<bv8>, t: Tail, signedIndex: bool)
    requires d == [0x96, 0x01]
    requires Kernel(d, t, 0, false)[0] == 314936086 && NumberOfVarints(SignedGeZero(d)) == 1
    ensures AsWrittenBatch(d, t, signedIndex).values == [314936086]
  {
    var k := Kernel(d, t, 0, false);
    assert k[..1] == [k[0]];
  }

  lemma ShortTerminatorCount()
    ensures NumberOfVarints(SignedGeZero([0x96, 0x01])) == 1
  {
    var d: seq<bv8> := [0x96, 0x01];
    assert SignedGeZero(d) == [false, true];
    assert Count([false, true]) == 1;
  }

  /** With no mask element, lane 0 of the short batch shifts its second byte in four times. */
  lemma ShortKernelLane(t: Tail)
    ensures Kernel([0x96, 0x01], t, 0, false)[0] == 314936086
  {
    var d: seq<bv8> := [0x96, 0x01];
    ShortBatchMasks(t);
    ShortBatchGroups(t);
    assert Count([true, false]) == 1;
    KernelLaneStaged(d, t, 0, false, 0);
    ShortBatchLane();
  }

  lemma ShortBatchValue()
    ensures Values([0x96, 0x01]) == [150]
  {
    var d: seq<bv8> := [0x96, 0x01];
    assert FirstLen(d[1..]) == 1;
    assert FirstLen(d) == 2;
    assert d[..2] == d && d[2..] == [];
    assert Varints(d[2..]) == [];
    assert Varints(d) == [d];
    ValueOf2(0x96, 0x01);
  }

  /** The masks of the short batch: one second byte, and the same mask for the later groups. */
  lemma ShortBatchMasks(t: Tail)
    ensures SignedGeZero([0x96, 0x01]) == [false, true]
    ensures ByteMask([0x96, 0x01], t, 0, 2) == [true, false]
    ensures ByteMask([0x96, 0x01], t, 0, 3) == [true, false]
    ensures ByteMask([0x96, 0x01], t, 0, 4) == [true, false]
    ensures ByteMask([0x96, 0x01], t, 0, 5) == [true, false]
  {
    var d: seq<bv8> := [0x96, 0x01];
    assert SignedGeZero(d) == [false, true];
    assert SecondBytesMask(d, t.next) == [true, false];
  }

  lemma ShortBatchGroups(t: Tail)
    ensures Compress([0x96, 0x01], SignedGeZero([0x96, 0x01])) == [0x01, 0]
    ensures GroupBytes([0x96, 0x01], t, 0, 2) == [0x96, 0]
    ensures GroupBytes([0x96, 0x01], t, 0, 3) == [0x96, 0]
    ensures GroupBytes([0x96, 0x01], t, 0, 4) == [0x96, 0]
    ensures GroupBytes([0x96, 0x01], t, 0, 5) == [0x96, 0]
  {
    ShortTerminators();
    ShortGroup(t, 2);
    ShortGroup(t, 3);
    ShortGroup(t, 4);
    ShortGroup(t, 5);
  }

  lemma ShortTerminators()
    ensures Compress([0x96, 0x01], SignedGeZero([0x96, 0x01])) == [0x01, 0]
  {
    var d: seq<bv8> := [0x96, 0x01];
    assert SignedGeZero(d) == [false, true];
    assert Pack(d, [false, true]) == [0x01];
  }

  /** With no element, group k of the short batch keeps its first byte in lane 0. */
  lemma ShortGroup(t: Tail, k: nat)
    requires 2 <= k <= 5
    ensures GroupBytes([0x96, 0x01], t, 0, k) == [0x96, 0]
  {
    var d: seq<bv8> := [0x96, 0x01];
    ShortBatchMasks(t);
    var m := ByteMask(d, t, 0, k);
    assert m == [true, false];
    var v := KeepSelected(d, m);
    assert v == [0x96, 0];
    var cm := CompressMask(m, SignedGeZero(d), k - 1, 0);
    assert cm == [true, true];
    assert Pack(v, cm) == v;
  }

  lemma ShortBatchLane()
    ensures Staged(0x01, 0x96, 0x96, 0x96, 0x96, false, false, false, false) == 314936086
  {
  }

  /**
   * One turn of the corrected m1 / m2 loop on a batch cut from a stream: the
   * cursor moves forward, the stored values are the batch's, and what
   * remains is again a stream.
   */
  lemma MaskshiftStep(rest: seq<bv8>, vl: nat, t: Tail, signedIndex: bool)
    requires WellFormed(rest) && 0 < vl <= |rest| && vl <= 64 && (vl >= 5 || vl == |rest|)
    ensures var b := CorrectedBatch(rest[..vl], t, signedIndex);
            && 1 <= b.consumed <= vl
            && WellFormed(rest[b.consumed..])
            && Values(rest) == b.values + Values(rest[b.consumed..])
  {
    WindowOfStream(rest, vl);
    CorrectedBatchDecodes(rest[..vl], t, signedIndex);
  }

  /**
   * varint_decode_m1 (unsigned index reduction) and varint_decode_m2 (signed
   * index reduction), with the mask element count rounded up: batches of
   * vl = min(length, VLMAX) bytes until no byte is left. `tailAt` gives the
   * tail lanes the batch starting at each byte offset observes. On a stream
   * it writes the value of every varint in stream order and returns how
   * many it wrote.
   */
  method MaskshiftDecode(input: seq<bv8>, vlmax: nat, signedIndex: bool, tailAt: nat -> Tail)
    returns (out: seq<bv32>, processed: nat)
    requires WellFormed(input)
    requires 16 <= vlmax <= 64
    ensures out == Values(input)
    ensures processed == |out|
  {
    out := [];
    processed := 0;
    var rest := input;
    while |rest| > 0
      invariant WellFormed(rest)
      invariant Values(input) == out + Values(rest)
      invariant processed == |out|
      decreases |rest|
    {
      var vl := SetVl(|rest|, vlmax);
      var b := CorrectedBatch(rest[..vl], tailAt(|input| - |rest|), signedIndex);
      MaskshiftStep(rest, vl, tailAt(|input| - |rest|), signedIndex);
      SeqAssoc(out, b.values, Values(rest[b.consumed..]));
      out := out + b.values;
      processed := processed + |b.values|;
      rest := rest[b.consumed..];
    }
  }

  /**
   * varint_decode of varint_decode_maskshift.c: the corrected m2 loop (a
   * register group of two, VLMAX = 2 * VLMAX(e8m1), signed index reduction)
   * when VLMAX(e8m1) < 64, the corrected m1 loop otherwise. Both are
   * MaskshiftDecode, with (vl + 7) / 8 mask words. Modelled for VLEN = 128 ..
   * 512, where a batch has at most 64 bytes.
   */
  method MaskshiftDispatch(input: seq<bv8>, vlmaxE8m1: nat, tailAt: nat -> Tail)
    returns (out: seq<bv32>, processed: nat)
    requires WellFormed(input)
    requires 8 <= vlmaxE8m1 <= 32 || vlmaxE8m1 == 64
    ensures out == Values(input)
    ensures processed == |out|
  {
    if vlmaxE8m1 < 64 {
      out, processed := MaskshiftDecode(input, 2 * vlmaxE8m1, true, tailAt);
    } else {
      out, processed := MaskshiftDecode(input, vlmaxE8m1, false, tailAt);
    }
  }
}


=== FILE: rvv.dfy ===
/**
 * Lane-level model of the RISC-V "V" extension 1.0 operations the decoders use.
 *
 * A vector register holding `vl` active byte lanes is a `seq<bv8>` of length
 * `vl`; a mask register is a `seq<bool>` of length `vl` (bit i is lane i, as in
 * section 4.5 of the RVV 1.0 specification). Lanes at or beyond `vl` are tail
 * lanes: where an instruction can observe one, the model takes its content as
 * an explicit parameter instead of inventing a value.
 */
module Rvv {

  /** Reinterprets a byte as a signed 8-bit integer (two's complement). */
  function AsSigned(b: bv8): (r: int)
    ensures -128 <= r <= 127
    ensures r < 0 <==> b >= 0x80
  {
    if b < 0x80 then b as int else b as int - 256
  }

  /** vmsge.vx vd, vs2, x0 on signed bytes: lane i is set iff byte i, read as signed, is >= 0. */
  function SignedGeZero(v: seq<bv8>): (m: seq<bool>)
    ensures |m| == |v|
    ensures forall i :: 0 <= i < |v| ==> (m[i] <==> v[i] < 0x80)
  {
    seq(|v|, i requires 0 <= i < |v| => AsSigned(v[i]) >= 0)
  }

  /** vmslt.vx vd, vs2, x0 on signed bytes: lane i is set iff byte i, read as signed, is negative. */
  function SignedLtZero(v: seq<bv8>): (m: seq<bool>)
    ensures |m| == |v|
    ensures forall i :: 0 <= i < |v| ==> (m[i] <==> v[i] >= 0x80)
  {
    seq(|v|, i requires 0 <= i < |v| => AsSigned(v[i]) < 0)
  }

  function MaskNot(a: seq<bool>): (r: seq<bool>)
    ensures |r| == |a|
    ensures forall i :: 0 <= i < |a| ==> r[i] == !a[i]
  {
    seq(|a|, i requires 0 <= i < |a| => !a[i])
  }

  function MaskAnd(a: seq<bool>, b: seq<bool>): (r: seq<bool>)
    requires |a| == |b|
    ensures |r| == |a|
    ensures forall i :: 0 <= i < |a| ==> r[i] == (a[i] && b[i])
  {
    seq(|a|, i requires 0 <= i < |a| => a[i] && b[i])
  }

  function MaskOr(a: seq<bool>, b: seq<bool>): (r: seq<bool>)
    requires |a| == |b|
    ensures |r| == |a|
    ensures forall i :: 0 <= i < |a| ==> r[i] == (a[i] || b[i])
  {
    seq(|a|, i requires 0 <= i < |a| => a[i] || b[i])
  }

  function MaskXor(a: seq<bool>, b: seq<bool>): (r: seq<bool>)
    requires |a| == |b|
    ensures |r| == |a|
    ensures forall i :: 0 <= i < |a| ==> r[i] == (a[i] != b[i])
  {
    seq(|a|, i requires 0 <= i < |a| => a[i] != b[i])
  }

  /** vcpop.m (section 15.2): the number of set lanes. */
  function Count(m: seq<bool>): (r: nat)
    ensures r <= |m|
  {
    if |m| == 0 then 0 else (if m[0] then 1 else 0) + Count(m[1..])
  }

  lemma {:induction false} CountConcat(a: seq<bool>, b: seq<bool>)
    ensures Count(a + b) == Count(a) + Count(b)
    decreases |a|
  {
    if |a| == 0 {
      assert a + b == b;
    } else {
      assert (a + b)[1..] == a[1..] + b;
      CountConcat(a[1..], b);
    }
  }

  /** A mask has no set lane exactly when its population count is zero. */
  lemma {:induction false} CountZero(m: seq<bool>)
    ensures Count(m) == 0 <==> forall i :: 0 <= i < |m| ==> !m[i]
    decreases |m|
  {
    if |m| > 0 {
      CountZero(m[1..]);
      assert forall i :: 1 <= i < |m| ==> m[i] == m[1..][i - 1];
    }
  }

  /** A mask with a set lane has a positive population count. */
  lemma CountPositive(m: seq<bool>, i: nat)
    requires i < |m| && m[i]
    ensures Count(m) > 0
  {
    CountZero(m);
  }

  /** Every lane is set exactly when the population count equals the length. */
  lemma {:induction false} CountFull(m: seq<bool>)
    ensures Count(m) == |m| <==> forall i :: 0 <= i < |m| ==> m[i]
    decreases |m|
  {
    if |m| > 0 {
      CountFull(m[1..]);
      assert forall i :: 1 <= i < |m| ==> m[i] == m[1..][i - 1];
    }
  }

  /** A mask whose set lanes are all set in another counts no lane when the other counts none. */
  lemma CountNested(a: seq<bool>, b: seq<bool>)
    requires |a| == |b| && forall i :: 0 <= i < |b| ==> b[i] ==> a[i]
    ensures Count(a) == 0 ==> Count(b) == 0
  {
    CountZero(a);
    CountZero(b);
  }

  /** The selected elements of `v`, in order (the packing half of vcompress). */
  function Pack(v: seq<bv8>, m: seq<bool>): (r: seq<bv8>)
    requires |v| == |m|
    ensures |r| == Count(m)
  {
    if |v| == 0 then [] else (if m[0] then [v[0]] else []) + Pack(v[1..], m[1..])
  }

  /**
   * vcompress.vm (section 16.5): the elements of `v` whose mask lane is set,
   * packed into the lowest lanes in their original order. The remaining lanes
   * are tail lanes; the model fills them with zero.
   */
  function Compress(v: seq<bv8>, m: seq<bool>): (r: seq<bv8>)
    requires |v| == |m|
    ensures |r| == |v|
    ensures r[..Count(m)] == Pack(v, m)
    ensures forall j :: Count(m) <= j < |v| ==> r[j] == 0
  {
    Pack(v, m) + seq(|v| - Count(m), _ => 0)
  }

  /**
   * The element a set mask lane contributes lands in the result lane given by
   * the number of set lanes before it.
   */
  lemma {:induction false} CompressRank(v: seq<bv8>, m: seq<bool>, p: nat)
    requires |v| == |m| && p < |m| && m[p]
    ensures Count(m[..p]) < Count(m)
    ensures Compress(v, m)[Count(m[..p])] == v[p]
    decreases p
  {
    PackRank(v, m, p);
  }

  lemma {:induction false} PackRank(v: seq<bv8>, m: seq<bool>, p: nat)
    requires |v| == |m| && p < |m| && m[p]
    ensures Count(m[..p]) < Count(m)
    ensures Pack(v, m)[Count(m[..p])] == v[p]
    decreases p
  {
    if p == 0 {
      assert m[..0] == [];
    } else {
      PackRank(v[1..], m[1..], p - 1);
      assert m[..p] == [m[0]] + m[1..][..p - 1];
      CountConcat([m[0]], m[1..][..p - 1]);
    }
  }

  lemma {:induction false} PackConcat(a: seq<bv8>, ma: seq<bool>, b: seq<bv8>, mb: seq<bool>)
    requires |a| == |ma| && |b| == |mb|
    ensures Pack(a + b, ma + mb) == Pack(a, ma) + Pack(b, mb)
    decreases |a|
  {
    if |a| == 0 {
      assert a + b == b && ma + mb == mb;
    } else {
      assert (a + b)[1..] == a[1..] + b;
      assert (ma + mb)[1..] == ma[1..] + mb;
      PackConcat(a[1..], ma[1..], b, mb);
    }
  }

  /**
   * Peeling one segment off the front: when the first `k` mask lanes select
   * exactly lane `p`, the compressed register starts with `v[p]` and continues
   * with the compression of the rest.
   */
  lemma CompressPeel(v: seq<bv8>, m: seq<bool>, k: nat, p: nat)
    requires |v| == |m| && p < k <= |v|
    requires m[p] && forall i :: 0 <= i < k && i != p ==> !m[i]
    ensures Compress(v, m)[0] == v[p]
    ensures forall j :: 0 <= j < |v| - k ==> Compress(v, m)[j + 1] == Compress(v[k..], m[k..])[j]
  {
    assert v == v[..k] + v[k..] && m == m[..k] + m[k..];
    PackConcat(v[..k], m[..k], v[k..], m[k..]);
    CountConcat(m[..k], m[k..]);
    PackSingle(v[..k], m[..k], p);
  }

  lemma {:induction false} PackSingle(v: seq<bv8>, m: seq<bool>, p: nat)
    requires |v| == |m| && p < |m|
    requires m[p] && forall i :: 0 <= i < |m| && i != p ==> !m[i]
    ensures Pack(v, m) == [v[p]]
    decreases |v|
  {
    if p == 0 {
      PackNone(v[1..], m[1..]);
    } else {
      assert !m[0];
      PackSingle(v[1..], m[1..], p - 1);
    }
  }

  lemma {:induction false} PackNone(v: seq<bv8>, m: seq<bool>)
    requires |v| == |m|
    requires forall i :: 0 <= i < |m| ==> !m[i]
    ensures Pack(v, m) == []
    decreases |v|
  {
    if |v| > 0 {
      PackNone(v[1..], m[1..]);
    }
  }

  /**
   * vslide1down.vx (section 16.3.4): lane i takes lane i+1, the last active
   * lane takes `x`. vslidedown.vx with offset 1 (section 16.3.2) has the same
   * lane rule when `x` is the content of the first lane past `vl`.
   */
  function Slide1Down(v: seq<bv8>, x: bv8): (r: seq<bv8>)
    ensures |r| == |v|
    ensures forall i :: 0 <= i < |v| - 1 ==> r[i] == v[i + 1]
    ensures |v| > 0 ==> r[|v| - 1] == x
  {
    seq(|v|, i requires 0 <= i < |v| => if i + 1 < |v| then v[i + 1] else x)
  }

  /** vslide1up.vx (section 16.3.3): lane 0 takes `x`, lane i takes lane i-1. */
  function Slide1Up(v: seq<bv8>, x: bv8): (r: seq<bv8>)
    ensures |r| == |v|
    ensures |v| > 0 ==> r[0] == x
    ensures forall i :: 1 <= i < |v| ==> r[i] == v[i - 1]
  {
    seq(|v|, i requires 0 <= i < |v| => if i == 0 then x else v[i - 1])
  }

  /**
   * vrgather.vv (section 16.4) with VLMAX = |v|: lane i takes v[idx[i]], or 0
   * when the index is out of range.
   */
  function Gather(v: seq<bv8>, idx: seq<bv8>): (r: seq<bv8>)
    ensures |r| == |idx|
    ensures forall i :: 0 <= i < |idx| ==> r[i] == if (idx[i] as int) < |v| then v[idx[i] as int] else 0
  {
    seq(|idx|, i requires 0 <= i < |idx| => if (idx[i] as int) < |v| then v[idx[i] as int] else 0)
  }

  /** vmerge.vxm vd, vs2, 0, !m: keeps the lanes selected by `m` and zeroes the others. */
  function KeepSelected(v: seq<bv8>, m: seq<bool>): (r: seq<bv8>)
    requires |v| == |m|
    ensures |r| == |v|
    ensures forall i :: 0 <= i < |v| ==> r[i] == if m[i] then v[i] else 0
  {
    seq(|v|, i requires 0 <= i < |v| => if m[i] then v[i] else 0)
  }

  lemma KeepSelectedDrop(v: seq<bv8>, m: seq<bool>, n: nat)
    requires |v| == |m| && n <= |v|
    ensures KeepSelected(v, m)[n..] == KeepSelected(v[n..], m[n..])
  {
  }

  /** vmsleu.vx (section 11.8): lane i is set when v[i] <= x, unsigned. */
  function LeX(v: seq<bv8>, x: bv8): (m: seq<bool>)
    ensures |m| == |v|
    ensures forall i :: 0 <= i < |v| ==> (m[i] <==> v[i] <= x)
  {
    seq(|v|, i requires 0 <= i < |v| => v[i] <= x)
  }

  /** vmsgtu.vx (section 11.8): lane i is set when v[i] > x, unsigned. */
  function GtX(v: seq<bv8>, x: bv8): (m: seq<bool>)
    ensures |m| == |v|
    ensures forall i :: 0 <= i < |v| ==> (m[i] <==> v[i] > x)
  {
    seq(|v|, i requires 0 <= i < |v| => v[i] > x)
  }

  /** vand.vx (section 11.5) on byte lanes. */
  function AndX(v: seq<bv8>, x: bv8): (r: seq<bv8>)
    ensures |r| == |v|
    ensures forall i :: 0 <= i < |v| ==> r[i] == v[i] & x
  {
    seq(|v|, i requires 0 <= i < |v| => v[i] & x)
  }

  function AddIf(c: bool, a: bv32, b: bv32): bv32 {
    if c then a + b else a
  }

  /** vadd.vv with the mask-undisturbed policy (section 3.4.3): set lanes take a[i] + b[i] mod 2^32, the others keep a[i]. */
  function AddMasked(m: seq<bool>, a: seq<bv32>, b: seq<bv32>): (r: seq<bv32>)
    requires |m| == |a| == |b|
    ensures |r| == |a|
    ensures forall i :: 0 <= i < |a| ==> r[i] == AddIf(m[i], a[i], b[i])
  {
    seq(|a|, i requires 0 <= i < |a| => AddIf(m[i], a[i], b[i]))
  }

  function Shl7(x: bv32): bv32 {
    x << 7
  }

  /** vsll.vx by 7 (section 11.6) on 32-bit lanes; bits past bit 31 are lost. */
  function Sll7(v: seq<bv32>): (r: seq<bv32>)
    ensures |r| == |v|
    ensures forall i :: 0 <= i < |v| ==> r[i] == v[i] << 7
  {
    seq(|v|, i requires 0 <= i < |v| => Shl7(v[i]))
  }

  function Shl14(x: bv32): bv32 {
    x << 14
  }

  /** vsll.vx by 14. */
  function Sll14(v: seq<bv32>): (r: seq<bv32>)
    ensures |r| == |v|
    ensures forall i :: 0 <= i < |v| ==> r[i] == v[i] << 14
  {
    seq(|v|, i requires 0 <= i < |v| => Shl14(v[i]))
  }

  function Shl21(x: bv32): bv32 {
    x << 21
  }

  /** vsll.vx by 21. */
  function Sll21(v: seq<bv32>): (r: seq<bv32>)
    ensures |r| == |v|
    ensures forall i :: 0 <= i < |v| ==> r[i] == v[i] << 21
  {
    seq(|v|, i requires 0 <= i < |v| => Shl21(v[i]))
  }

  function Shl28(x: bv32): bv32 {
    x << 28
  }

  /** vsll.vx by 28. */
  function Sll28(v: seq<bv32>): (r: seq<bv32>)
    ensures |r| == |v|
    ensures forall i :: 0 <= i < |v| ==> r[i] == v[i] << 28
  {
    seq(|v|, i requires 0 <= i < |v| => Shl28(v[i]))
  }

  /**
   * One lane of vwmaccu.vx into 16-bit lanes with the mask-undisturbed
   * policy: a set lane takes acc + x * b mod 2^16, the others keep acc.
   * 16-bit lanes are held in bv32 values below 2^16, so the zero-extension
   * from 16 to 32 bits (vzext.vf2) is the identity on them.
   */
  function MaccIf16(c: bool, acc: bv32, x: bv32, b: bv32): bv32 {
    if c then (acc + x * b) & 0xFFFF else acc
  }

  /** vwmaccu.vx (section 11.14) from byte lanes into 16-bit lanes, mask-undisturbed. */
  function WMacc16(m: seq<bool>, acc: seq<bv32>, x: bv32, v: seq<bv32>): (r: seq<bv32>)
    requires |m| == |acc| == |v|
    ensures |r| == |acc|
    ensures forall i :: 0 <= i < |acc| ==> r[i] == MaccIf16(m[i], acc[i], x, v[i])
  {
    seq(|acc|, i requires 0 <= i < |acc| => MaccIf16(m[i], acc[i], x, v[i]))
  }

  /**
   * One lane of vwmaccu.vx with the scalar 16384 into 32-bit lanes,
   * mask-undisturbed: acc + 16384 * b mod 2^32 on a set lane. 16384 is the
   * only multiplier the decoders widen into 32 bits with; the product is
   * written as the shift by 14 it equals (MaccIsProduct), which keeps the
   * solver away from a general multiplier.
   */
  function Macc16384If(c: bool, acc: bv32, b: bv32): bv32 {
    if c then acc + (b << 14) else acc
  }

  lemma MaccIsProduct(acc: bv32, b: bv32)
    ensures Macc16384If(true, acc, b) == acc + 16384 * b
  {
  }

  /** vwmaccu.vx by 16384 from 16-bit lanes into 32-bit lanes, mask-undisturbed. */
  function WMacc16384(m: seq<bool>, acc: seq<bv32>, v: seq<bv32>): (r: seq<bv32>)
    requires |m| == |acc| == |v|
    ensures |r| == |acc|
    ensures forall i :: 0 <= i < |acc| ==> r[i] == Macc16384If(m[i], acc[i], v[i])
  {
    seq(|acc|, i requires 0 <= i < |acc| => Macc16384If(m[i], acc[i], v[i]))
  }

  /**
   * Zero-extension of one byte to a 32-bit lane, assembled bit by bit so that
   * the solver never converts through unbounded integers; WidenIsCast shows it
   * is the plain cast.
   */
  function Widen(b: bv8): (r: bv32)
    ensures r < 0x100
  {
    (if b & 0x01 == 0 then 0 else 0x01) | (if b & 0x02 == 0 then 0 else 0x02)
    | (if b & 0x04 == 0 then 0 else 0x04) | (if b & 0x08 == 0 then 0 else 0x08)
    | (if b & 0x10 == 0 then 0 else 0x10) | (if b & 0x20 == 0 then 0 else 0x20)
    | (if b & 0x40 == 0 then 0 else 0x40) | (if b & 0x80 == 0 then 0 else 0x80)
  }

  lemma WidenIsCast(b: bv8)
    ensures Widen(b) == b as bv32
    ensures Widen(b) as int == b as int
  {
  }

  /** vzext.vf4: zero-extends every byte lane to 32 bits. */
  function Zext(v: seq<bv8>): (r: seq<bv32>)
    ensures |r| == |v|
    ensures forall i :: 0 <= i < |v| ==> r[i] == Widen(v[i])
  {
    seq(|v|, i requires 0 <= i < |v| => Widen(v[i]))
  }

  /*
   * Mask registers reinterpreted as vectors of 64-bit elements: lane i is bit
   * i % 64 of element i / 64. A shift acts on the first `words` elements only
   * and never carries between elements; lanes of elements at or beyond `words`
   * are left undisturbed (with `words` = 0 no element is updated at all).
   */

  /** vsrl.vx by 1 on the mask words: lane i takes lane i+1 inside its element; `fill` is the tail lane past the last active one. */
  function ShiftDownWords(m: seq<bool>, words: nat, fill: bool): (r: seq<bool>)
    ensures |r| == |m|
  {
    seq(|m|, i requires 0 <= i < |m| =>
      if i / 64 < words then (if i % 64 == 63 then false else if i + 1 < |m| then m[i + 1] else fill)
      else m[i])
  }

  /** vsll.vx by `s` on the mask words: lane i takes lane i-s of its element, or 0. */
  function ShiftUpWords(m: seq<bool>, s: nat, words: nat): (r: seq<bool>)
    ensures |r| == |m|
  {
    seq(|m|, i requires 0 <= i < |m| =>
      if i / 64 < words then (if i % 64 >= s then m[i - s] else false)
      else m[i])
  }

  /** vand.vv on the mask words: covered lanes are a AND b, the others keep `a`. */
  function AndWords(a: seq<bool>, b: seq<bool>, words: nat): (r: seq<bool>)
    requires |a| == |b|
    ensures |r| == |a|
  {
    seq(|a|, i requires 0 <= i < |a| => if i / 64 < words then a[i] && b[i] else a[i])
  }

  /** Plain lane shift towards lane 0 across the whole register (no element boundaries). */
  function ShiftDown(m: seq<bool>, fill: bool): (r: seq<bool>)
    ensures |r| == |m|
    ensures forall i :: 0 <= i < |m| - 1 ==> r[i] == m[i + 1]
    ensures |m| > 0 ==> r[|m| - 1] == fill
  {
    seq(|m|, i requires 0 <= i < |m| => if i + 1 < |m| then m[i + 1] else fill)
  }

  /** Plain lane shift away from lane 0 by `s` lanes, filling with 0. */
  function ShiftUp(m: seq<bool>, s: nat): (r: seq<bool>)
    ensures |r| == |m|
    ensures forall i :: 0 <= i < |m| ==> r[i] == (i >= s && m[i - s])
  {
    seq(|m|, i requires 0 <= i < |m| => if i >= s then m[i - s] else false)
  }

  /**
   * While the register has at most 64 lanes and at least one element is
   * shifted, the element-wise shifts are plain lane shifts; at exactly 64
   * lanes the lane shifted in at the top is 0.
   */
  lemma ShiftDownWordsPlain(m: seq<bool>, words: nat, fill: bool)
    requires |m| <= 64 && words >= 1
    ensures ShiftDownWords(m, words, fill) == ShiftDown(m, if |m| == 64 then false else fill)
  {
  }

  lemma ShiftUpWordsPlain(m: seq<bool>, s: nat, words: nat)
    requires |m| <= 64 && words >= 1
    ensures ShiftUpWords(m, s, words) == ShiftUp(m, s)
  {
  }

  lemma AndWordsPlain(a: seq<bool>, b: seq<bool>, words: nat)
    requires |a| == |b| <= 64 && words >= 1
    ensures AndWords(a, b, words) == MaskAnd(a, b)
  {
  }

  /** With no element covered, the word operations leave their input unchanged. */
  lemma WordOpsWithoutWords(m: seq<bool>, b: seq<bool>, s: nat, fill: bool)
    requires |m| == |b| <= 64
    ensures ShiftDownWords(m, 0, fill) == m
    ensures ShiftUpWords(m, s, 0) == m
    ensures AndWords(m, b, 0) == m
  {
  }
}

=== FILE: scalar.dfy ===
/**
 * The scalar decoder every vector kernel falls back on and is measured
 * against: protobuf's ReadVarint32FromArray, which folds the continuation bits
 * away by subtracting 0x80 << 7i after each continuation byte instead of
 * masking every byte, and the loop that applies it to a whole stream.
 */
module Scalar {
  import opened Rvv
  import opened Varint

  /** The value read and the number of bytes consumed (0 when five continuation bytes were met). */
  datatype Read = Read(value: bv32, consumed: nat)

  /**
   * The bytes ReadVarint32 reads exist: the buffer has at least the five
   * bytes read before giving up, or a terminator among the bytes it has.
   */
  predicate Readable(buf: seq<bv8>) {
    || |buf| >= 5
    || (|buf| >= 1 && IsTerminator(buf[0]))
    || (|buf| >= 2 && IsTerminator(buf[1]))
    || (|buf| >= 3 && IsTerminator(buf[2]))
    || (|buf| >= 4 && IsTerminator(buf[3]))
  }

  /** Readable says: five bytes, or a complete leading varint. */
  lemma ReadableIff(buf: seq<bv8>)
    ensures Readable(buf) <==> |buf| >= 5 || FirstLen(buf) > 0
  {
    FirstLenSpec(buf);
    if FirstLen(buf) > 0 && |buf| < 5 {
      assert IsTerminator(buf[FirstLen(buf) - 1]);
    }
  }

  /**
   * ReadVarint32FromArray as written: the running result starts at
   * first - 0x80 and, after each further continuation byte, drops that byte's
   * bit 7 by subtracting 0x80 << 7i before adding the next byte shifted into
   * place; bits shifted past bit 31 are lost. Bit 7 of a widened byte is bit 7
   * of the byte, so the tests are made on the bytes. Five continuation bytes
   * give consumed == 0.
   */
  function ReadVarint32(buf: seq<bv8>): (r: Read)
    requires Readable(buf)
    ensures r.consumed <= 5
  {
    var first := Widen(buf[0]);
    if IsTerminator(buf[0]) then Read(first, 1)
    else
      var r2 := first - 0x80 + (Widen(buf[1]) << 7);
      if IsTerminator(buf[1]) then Read(r2, 2)
      else
        var r3 := r2 - (0x80 << 7) + (Widen(buf[2]) << 14);
        if IsTerminator(buf[2]) then Read(r3, 3)
        else
          var r4 := r3 - (0x80 << 14) + (Widen(buf[3]) << 21);
          if IsTerminator(buf[3]) then Read(r4, 4)
          else
            var r5 := r4 - (0x80 << 21) + (Widen(buf[4]) << 28);
            if IsTerminator(buf[4]) then Read(r5, 5) else Read(r5, 0)
  }

  lemma ReadOne(buf: seq<bv8>)
    requires |buf| >= 1 && IsTerminator(buf[0])
    ensures Readable(buf) && ReadVarint32(buf) == Read(Value(buf[..1]), 1)
  {
    assert buf[..1] == [buf[0]];
    ValueOf1(buf[0]);
    PayloadOfTerminator(buf[0]);
  }

  lemma ReadTwo(buf: seq<bv8>)
    requires |buf| >= 2 && !IsTerminator(buf[0]) && IsTerminator(buf[1])
    ensures Readable(buf) && ReadVarint32(buf) == Read(Value(buf[..2]), 2)
  {
    ReadTwoSteps(buf);
    ValueTwoPrefix(buf);
  }

  lemma ValueTwoPrefix(buf: seq<bv8>)
    requires |buf| >= 2 && !IsTerminator(buf[0]) && IsTerminator(buf[1])
    ensures Value(buf[..2]) == Widen(buf[0]) - 0x80 + (Widen(buf[1]) << 7)
  {
    Prefix2(buf);
    ValueTwoSteps(buf[0], buf[1]);
  }

  lemma ReadTwoSteps(buf: seq<bv8>)
    requires |buf| >= 2 && !IsTerminator(buf[0]) && IsTerminator(buf[1])
    ensures Readable(buf) && ReadVarint32(buf) == Read(Widen(buf[0]) - 0x80 + (Widen(buf[1]) << 7), 2)
  {
  }

  lemma ValueTwoSteps(b0: bv8, b1: bv8)
    requires !IsTerminator(b0) && IsTerminator(b1)
    ensures Value([b0, b1]) == Widen(b0) - 0x80 + (Widen(b1) << 7)
  {
    ValueOf2(b0, b1);
    Trick2(b0, b1);
  }

  lemma ReadThree(buf: seq<bv8>)
    requires |buf| >= 3 && !IsTerminator(buf[0]) && !IsTerminator(buf[1]) && IsTerminator(buf[2])
    ensures Readable(buf) && ReadVarint32(buf) == Read(Value(buf[..3]), 3)
  {
    ReadThreeSteps(buf);
    ValueThreePrefix(buf);
  }

  lemma ValueThreePrefix(buf: seq<bv8>)
    requires |buf| >= 3 && !IsTerminator(buf[0]) && !IsTerminator(buf[1]) && IsTerminator(buf[2])
    ensures Value(buf[..3]) == Widen(buf[0]) - 0x80 + (Widen(buf[1]) << 7) - (0x80 << 7) + (Widen(buf[2]) << 14)
  {
    Prefix3(buf);
    ValueThreeSteps(buf[0], buf[1], buf[2]);
  }

  lemma ReadThreeSteps(buf: seq<bv8>)
    requires |buf| >= 3 && !IsTerminator(buf[0]) && !IsTerminator(buf[1]) && IsTerminator(buf[2])
    ensures Readable(buf) && ReadVarint32(buf) == Read(Widen(buf[0]) - 0x80 + (Widen(buf[1]) << 7) - (0x80 << 7) + (Widen(buf[2]) << 14), 3)
  {
  }

  lemma ValueThreeSteps(b0: bv8, b1: bv8, b2: bv8)
    requires !IsTerminator(b0) && !IsTerminator(b1) && IsTerminator(b2)
    ensures Value([b0, b1, b2]) == Widen(b0) - 0x80 + (Widen(b1) << 7) - (0x80 << 7) + (Widen(b2) << 14)
  {
    Trick3(b0, b1, b2);
    ValueOf3(b0, b1, b2);
  }

  lemma ReadFour(buf: seq<bv8>)
    requires |buf| >= 4 && !IsTerminator(buf[0]) && !IsTerminator(buf[1]) && !IsTerminator(buf[2]) && IsTerminator(buf[3])
    ensures Readable(buf) && ReadVarint32(buf) == Read(Value(buf[..4]), 4)
  {
    ReadFourSteps(buf);
    ValueFourPrefix(buf);
  }

  lemma ValueFourPrefix(buf: seq<bv8>)
    requires |buf| >= 4 && !IsTerminator(buf[0]) && !IsTerminator(buf[1]) && !IsTerminator(buf[2]) && IsTerminator(buf[3])
    ensures Value(buf[..4]) == Widen(buf[0]) - 0x80 + (Widen(buf[1]) << 7) - (0x80 << 7) + (Widen(buf[2]) << 14) - (0x80 << 14) + (Widen(buf[3]) << 21)
  {
    Prefix4(buf);
    ValueFourSteps(buf[0], buf[1], buf[2], buf[3]);
  }

  lemma ReadFourSteps(buf: seq<bv8>)
    requires |buf| >= 4 && !IsTerminator(buf[0]) && !IsTerminator(buf[1]) && !IsTerminator(buf[2]) && IsTerminator(buf[3])
    ensures Readable(buf) && ReadVarint32(buf) == Read(Widen(buf[0]) - 0x80 + (Widen(buf[1]) << 7) - (0x80 << 7) + (Widen(buf[2]) << 14) - (0x80 << 14) + (Widen(buf[3]) << 21), 4)
  {
  }

  lemma ValueFourSteps(b0: bv8, b1: bv8, b2: bv8, b3: bv8)
    requires !IsTerminator(b0) && !IsTerminator(b1) && !IsTerminator(b2) && IsTerminator(b3)
    ensures Value([b0, b1, b2, b3]) == Widen(b0) - 0x80 + (Widen(b1) << 7) - (0x80 << 7) + (Widen(b2) << 14) - (0x80 << 14) + (Widen(b3) << 21)
  {
    ValueOf4(b0, b1, b2, b3);
    Trick4(b0, b1, b2, b3);
  }

  lemma ReadFive(buf: seq<bv8>)
    requires |buf| >= 5 && !IsTerminator(buf[0]) && !IsTerminator(buf[1]) && !IsTerminator(buf[2]) && !IsTerminator(buf[3]) && IsTerminator(buf[4])
    ensures Readable(buf) && ReadVarint32(buf) == Read(Value(buf[..5]), 5)
  {
    ReadFiveSteps(buf);
    ValueFivePrefix(buf);
  }

  lemma ValueFivePrefix(buf: seq<bv8>)
    requires |buf| >= 5 && !IsTerminator(buf[0]) && !IsTerminator(buf[1]) && !IsTerminator(buf[2]) && !IsTerminator(buf[3]) && IsTerminator(buf[4])
    ensures Value(buf[..5]) == Widen(buf[0]) - 0x80 + (Widen(buf[1]) << 7) - (0x80 << 7) + (Widen(buf[2]) << 14) - (0x80 << 14) + (Widen(buf[3]) << 21) - (0x80 << 21) + (Widen(buf[4]) << 28)
  {
    Prefix5(buf);
    ValueFiveSteps(buf[0], buf[1], buf[2], buf[3], buf[4]);
  }

  lemma ReadFiveSteps(buf: seq<bv8>)
    requires |buf| >= 5 && !IsTerminator(buf[0]) && !IsTerminator(buf[1]) && !IsTerminator(buf[2]) && !IsTerminator(buf[3]) && IsTerminator(buf[4])
    ensures Readable(buf) && ReadVarint32(buf) == Read(Widen(buf[0]) - 0x80 + (Widen(buf[1]) << 7) - (0x80 << 7) + (Widen(buf[2]) << 14) - (0x80 << 14) + (Widen(buf[3]) << 21) - (0x80 << 21) + (Widen(buf[4]) << 28), 5)
  {
  }

  lemma ValueFiveSteps(b0: bv8, b1: bv8, b2: bv8, b3: bv8, b4: bv8)
    requires !IsTerminator(b0) && !IsTerminator(b1) && !IsTerminator(b2) && !IsTerminator(b3) && IsTerminator(b4)
    ensures Value([b0, b1, b2, b3, b4]) == Widen(b0) - 0x80 + (Widen(b1) << 7) - (0x80 << 7) + (Widen(b2) << 14) - (0x80 << 14) + (Widen(b3) << 21) - (0x80 << 21) + (Widen(b4) << 28)
  {
    ValueOf5(b0, b1, b2, b3, b4);
    Trick5(b0, b1, b2, b3, b4);
  }

  lemma Prefix1<T>(buf: seq<T>)
    requires |buf| >= 1
    ensures buf[..1] == [buf[0]]
  {
  }

  lemma Prefix2<T>(buf: seq<T>)
    requires |buf| >= 2
    ensures buf[..2] == [buf[0], buf[1]]
  {
  }

  lemma Prefix3<T>(buf: seq<T>)
    requires |buf| >= 3
    ensures buf[..3] == [buf[0], buf[1], buf[2]]
  {
  }

  lemma Prefix4<T>(buf: seq<T>)
    requires |buf| >= 4
    ensures buf[..4] == [buf[0], buf[1], buf[2], buf[3]]
  {
  }

  lemma Prefix5<T>(buf: seq<T>)
    requires |buf| >= 5
    ensures buf[..5] == [buf[0], buf[1], buf[2], buf[3], buf[4]]
  {
  }

  /** Five continuation bytes: nothing consumed, whatever the five bytes summed to. */
  lemma ReadNone(buf: seq<bv8>)
    requires |buf| >= 5 && !IsTerminator(buf[0]) && !IsTerminator(buf[1]) && !IsTerminator(buf[2])
    requires !IsTerminator(buf[3]) && !IsTerminator(buf[4])
    ensures Readable(buf) && ReadVarint32(buf).consumed == 0
  {
  }

  /** What the subtract steps leave in the result after five continuation bytes. */
  function Unterminated(b0: bv8, b1: bv8, b2: bv8, b3: bv8, b4: bv8): bv32 {
    Widen(b0) - 0x80 + (Widen(b1) << 7) - (0x80 << 7) + (Widen(b2) << 14) - (0x80 << 14)
    + (Widen(b3) << 21) - (0x80 << 21) + (Widen(b4) << 28)
  }

  lemma ReadNoneSteps(buf: seq<bv8>)
    requires |buf| >= 5 && !IsTerminator(buf[0]) && !IsTerminator(buf[1]) && !IsTerminator(buf[2])
    requires !IsTerminator(buf[3]) && !IsTerminator(buf[4])
    ensures Readable(buf) && ReadVarint32(buf) == Read(Unterminated(buf[0], buf[1], buf[2], buf[3], buf[4]), 0)
  {
  }

  lemma PayloadOfTerminator(b: bv8)
    requires IsTerminator(b)
    ensures Payload(b) == Widen(b)
  {
  }

  /** The first subtraction leaves a continuation byte's payload. */
  lemma DropFirst(b: bv8)
    requires !IsTerminator(b)
    ensures Widen(b) - 0x80 == Payload(b)
  {
  }

  /** Adding a continuation byte at group 1 and subtracting its bit 7 adds its payload. */
  lemma Drop7(acc: bv32, b: bv8)
    requires !IsTerminator(b)
    ensures acc + (Widen(b) << 7) - (0x80 << 7) == acc + (Payload(b) << 7)
  {
  }

  lemma Drop14(acc: bv32, b: bv8)
    requires !IsTerminator(b)
    ensures acc + (Widen(b) << 14) - (0x80 << 14) == acc + (Payload(b) << 14)
  {
  }

  lemma Drop21(acc: bv32, b: bv8)
    requires !IsTerminator(b)
    ensures acc + (Widen(b) << 21) - (0x80 << 21) == acc + (Payload(b) << 21)
  {
  }

  lemma Trick2(b0: bv8, b1: bv8)
    requires !IsTerminator(b0) && IsTerminator(b1)
    ensures Widen(b0) - 0x80 + (Widen(b1) << 7)
            == Payload(b0) + (Payload(b1) << 7)
  {
    DropFirst(b0);
    PayloadOfTerminator(b1);
  }

  lemma Trick3(b0: bv8, b1: bv8, b2: bv8)
    requires !IsTerminator(b0) && !IsTerminator(b1) && IsTerminator(b2)
    ensures Widen(b0) - 0x80 + (Widen(b1) << 7) - (0x80 << 7) + (Widen(b2) << 14)
            == Payload(b0) + (Payload(b1) << 7) + (Payload(b2) << 14)
  {
    var a0 := Widen(b0) - 0x80;
    DropFirst(b0);
    Drop7(a0, b1);
    PayloadOfTerminator(b2);
  }

  lemma Trick4(b0: bv8, b1: bv8, b2: bv8, b3: bv8)
    requires !IsTerminator(b0) && !IsTerminator(b1) && !IsTerminator(b2) && IsTerminator(b3)
    ensures Widen(b0) - 0x80 + (Widen(b1) << 7) - (0x80 << 7) + (Widen(b2) << 14) - (0x80 << 14) + (Widen(b3) << 21)
            == Payload(b0) + (Payload(b1) << 7) + (Payload(b2) << 14) + (Payload(b3) << 21)
  {
    var a0 := Widen(b0) - 0x80;
    DropFirst(b0);
    var a1 := a0 + (Widen(b1) << 7) - (0x80 << 7);
    Drop7(a0, b1);
    Drop14(a1, b2);
    PayloadOfTerminator(b3);
  }

  lemma Trick5(b0: bv8, b1: bv8, b2: bv8, b3: bv8, b4: bv8)
    requires !IsTerminator(b0) && !IsTerminator(b1) && !IsTerminator(b2) && !IsTerminator(b3) && IsTerminator(b4)
    ensures Widen(b0) - 0x80 + (Widen(b1) << 7) - (0x80 << 7) + (Widen(b2) << 14) - (0x80 << 14) + (Widen(b3) << 21) - (0x80 << 21) + (Widen(b4) << 28)
            == Payload(b0) + (Payload(b1) << 7) + (Payload(b2) << 14) + (Payload(b3) << 21) + (Payload(b4) << 28)
  {
    var a0 := Widen(b0) - 0x80;
    DropFirst(b0);
    var a1 := a0 + (Widen(b1) << 7) - (0x80 << 7);
    Drop7(a0, b1);
    var a2 := a1 + (Widen(b2) << 14) - (0x80 << 14);
    Drop14(a1, b2);
    Drop21(a2, b3);
    PayloadOfTerminator(b4);
  }

  /**
   * A leading varint of k <= 5 bytes is read whole: k bytes consumed, and the
   * subtract-0x80 steps compute exactly its group sum
   * sum_i (b_i & 0x7F) << 7i mod 2^32.
   */
  lemma ReadLeading(buf: seq<bv8>)
    requires 0 < FirstLen(buf) <= 5
    ensures Readable(buf) && ReadVarint32(buf) == Read(Value(buf[..FirstLen(buf)]), FirstLen(buf))
  {
    FirstLenSpec(buf);
    var n := FirstLen(buf);
    if n == 1 {
      ReadOne(buf);
    } else if n == 2 {
      ReadTwo(buf);
    } else if n == 3 {
      ReadThree(buf);
    } else if n == 4 {
      ReadFour(buf);
    } else {
      ReadFive(buf);
    }
  }

  /**
   * Nothing is consumed exactly when no varint of at most five bytes leads the
   * buffer, that is when its five leading bytes all carry a continuation bit.
   */
  lemma ReadGivesUp(buf: seq<bv8>)
    requires Readable(buf)
    ensures ReadVarint32(buf).consumed == 0 <==> |buf| >= 5 && FirstLen(buf[..5]) == 0
  {
    FirstLenSpec(buf);
    var n := FirstLen(buf);
    if 0 < n <= 5 {
      ReadLeading(buf);
      if |buf| >= 5 {
        FirstLenPrefix(buf, 5);
      }
    } else {
      NoLeadingVarint(buf);
      ReadNone(buf);
      FirstLenSpec(buf[..5]);
    }
  }

  /**
   * Only the bytes up to the terminator, and never more than five, are read:
   * the result is the same on the buffer cut right after them.
   */
  lemma ReadsAtMostFive(buf: seq<bv8>)
    requires Readable(buf)
    ensures var k := if ReadVarint32(buf).consumed == 0 then 5 else ReadVarint32(buf).consumed;
            k <= |buf| && Readable(buf[..k]) && ReadVarint32(buf[..k]) == ReadVarint32(buf)
  {
    var n := FirstLen(buf);
    if 0 < n <= 5 {
      ReadLeading(buf);
      ReadsLeadingOnly(buf);
    } else {
      NoLeadingVarint(buf);
      ReadNone(buf);
      ReadsFiveOnly(buf);
    }
  }

  lemma ReadsLeadingOnly(buf: seq<bv8>)
    requires 0 < FirstLen(buf) <= 5
    ensures Readable(buf[..FirstLen(buf)]) && ReadVarint32(buf[..FirstLen(buf)]) == ReadVarint32(buf)
  {
    var n := FirstLen(buf);
    ReadLeading(buf);
    FirstLenPrefix(buf, n);
    ReadLeading(buf[..n]);
    assert buf[..n][..n] == buf[..n];
  }

  lemma ReadsFiveOnly(buf: seq<bv8>)
    requires Readable(buf) && !(0 < FirstLen(buf) <= 5)
    ensures |buf| >= 5 && Readable(buf[..5]) && ReadVarint32(buf[..5]) == ReadVarint32(buf)
  {
    NoLeadingVarint(buf);
    var cut := buf[..5];
    assert cut[0] == buf[0] && cut[1] == buf[1] && cut[2] == buf[2];
    assert cut[3] == buf[3] && cut[4] == buf[4];
    SameFiveBytes(buf, cut);
  }

  lemma SameFiveBytes(a: seq<bv8>, b: seq<bv8>)
    requires |a| >= 5 && !IsTerminator(a[0]) && !IsTerminator(a[1]) && !IsTerminator(a[2])
    requires !IsTerminator(a[3]) && !IsTerminator(a[4])
    requires |b| >= 5 && a[0] == b[0] && a[1] == b[1] && a[2] == b[2] && a[3] == b[3] && a[4] == b[4]
    ensures Readable(a) && Readable(b) && ReadVarint32(a) == ReadVarint32(b)
  {
    ReadNoneSteps(a);
    ReadNoneSteps(b);
  }

  /** Without a leading varint of at most five bytes, a readable buffer starts with five continuation bytes. */
  lemma NoLeadingVarint(buf: seq<bv8>)
    requires Readable(buf) && !(0 < FirstLen(buf) <= 5)
    ensures |buf| >= 5 && !IsTerminator(buf[0]) && !IsTerminator(buf[1]) && !IsTerminator(buf[2])
    ensures !IsTerminator(buf[3]) && !IsTerminator(buf[4])
  {
    FirstLenSpec(buf);
    ReadableIff(buf);
  }

  /** [0x96, 0x01] reads as 150 with two bytes consumed. */
  lemma Read150()
    ensures Readable([0x96, 0x01]) && ReadVarint32([0x96, 0x01]) == Read(150, 2)
  {
    assert Widen(0x96) == 0x96 && Widen(0x01) == 0x01;
  }

  /** [0xFF, 0xFF, 0xFF, 0xFF, 0x0F] reads as 0xFFFFFFFF with five bytes consumed. */
  lemma ReadMax()
    ensures ReadVarint32([0xFF, 0xFF, 0xFF, 0xFF, 0x0F]) == Read(0xFFFF_FFFF, 5)
  {
    assert Widen(0xFF) == 0xFF && Widen(0x0F) == 0x0F;
  }

  /** Reading the minimal encoding of any value gives it back, consuming the whole encoding. */
  lemma ReadEncode(x: bv32, rest: seq<bv8>)
    ensures Readable(Encode(x) + rest)
    ensures ReadVarint32(Encode(x) + rest) == Read(x, |Encode(x)|)
  {
    var e := Encode(x);
    var buf := e + rest;
    EncodeIsVarint(x);
    FirstLenPrefix(buf, |e|);
    assert buf[..|e|] == e;
    ReadLeading(buf);
  }

  /** A nonempty stream starts with a varint of one to five bytes. */
  lemma StreamHead(s: seq<bv8>)
    requires WellFormed(s) && |s| > 0
    ensures 0 < FirstLen(s) <= 5
  {
    var n := FirstLen(s);
    if n > 0 {
      assert s[..n] in Varints(s);
    }
  }

  /** What follows the first varint of a stream is again a stream. */
  lemma StreamTail(s: seq<bv8>)
    requires WellFormed(s) && 0 < FirstLen(s)
    ensures WellFormed(s[FirstLen(s)..])
  {
    var n := FirstLen(s);
    assert forall v <- Varints(s[n..]) :: v in Varints(s);
  }

  /** The values of a stream are the first varint's value followed by the values of the rest. */
  lemma StreamValues(s: seq<bv8>)
    requires WellFormed(s) && 0 < FirstLen(s) <= 5 && WellFormed(s[FirstLen(s)..])
    ensures Values(s) == [Value(s[..FirstLen(s)])] + Values(s[FirstLen(s)..])
  {
    var n := FirstLen(s);
    ValuesOfConcat([s[..n]], Varints(s[n..]));
  }

  /** One turn of the scalar loop on a stream reads its leading varint whole. */
  lemma DecodeRead(rest: seq<bv8>)
    requires |rest| > 0 && WellFormed(rest)
    ensures 0 < FirstLen(rest) <= 5 && Readable(rest)
    ensures ReadVarint32(rest) == Read(Value(rest[..FirstLen(rest)]), FirstLen(rest))
  {
    StreamHead(rest);
    ReadLeading(rest);
  }

  /**
   * varint_decode_scalar: reads varints one after another until the bytes are
   * used up; on a stream it writes one value per varint, in stream order, each
   * the varint's group sum, and returns how many it wrote.
   */
  method DecodeScalar(input: seq<bv8>) returns (out: seq<bv32>, count: nat)
    requires WellFormed(input)
    ensures out == Values(input)
    ensures count == |out| == Count(SignedGeZero(input))
  {
    out := [];
    var rest := input;
    while |rest| > 0
      invariant WellFormed(rest)
      invariant Values(input) == out + Values(rest)
      decreases |rest|
    {
      DecodeRead(rest);
      StreamTail(rest);
      StreamValues(rest);
      var r := ReadVarint32(rest);
      SeqAssoc(out, [r.value], Values(rest[r.consumed..]));
      out := out + [r.value];
      rest := rest[r.consumed..];
    }
    count := |out|;
    VarintsAreTerminators(input);
  }

  /** Decoding the concatenated encodings of a list of values gives the list back. */
  method DecodeEncoded(xs: seq<bv32>) returns (out: seq<bv32>)
    ensures out == xs
  {
    EncodeAllRoundTrip(xs);
    var n;
    out, n := DecodeScalar(EncodeAll(xs));
  }
}

=== FILE: varint.dfy ===
/**
 * The LEB128 ("base 128 varint") byte format for unsigned 32-bit values: each
 * byte carries 7 payload bits, least significant group first; bit 7 is set on
 * every byte of a varint except its last one (the terminator).
 *
 * This module holds the reference meaning of a byte sequence that every
 * decoder is measured against: where its complete varints end, and the value
 * sum_i (b_i & 0x7F) << 7i (mod 2^32) of each.
 */
module Varint {
  import opened Rvv

  datatype Option<T> = None | Some(value: T)

  /** A byte with bit 7 clear ends a varint. */
  predicate IsTerminator(b: bv8) {
    b < 0x80
  }

  /** The 7 payload bits of a byte, zero-extended. */
  function Payload(b: bv8): (r: bv32)
    ensures r < 0x80
  {
    Widen(b & 0x7F)
  }

  /**
   * sum over i < |v| of Payload(v[i]) << 7i, truncated to 32 bits, in Horner
   * form: the first byte's payload plus the rest's value shifted up 7 bits.
   */
  function Value(v: seq<bv8>): bv32
    requires |v| <= 5
  {
    if |v| == 0 then 0 else Payload(v[0]) + (Value(v[1..]) << 7)
  }

  /** The group sum of a varint of 1 byte, written out. */
  lemma ValueOf1(a: bv8)
    ensures Value([a]) == Payload(a)
  {
    assert [a][1..] == [];
  }

  /** The group sum of a varint of 2 bytes, written out. */
  lemma ValueOf2(a: bv8, b: bv8)
    ensures Value([a, b]) == Payload(a) + (Payload(b) << 7)
  {
    assert [a, b][1..] == [b];
    ValueOf1(b);
  }

  /** The group sum of a varint of 3 bytes, written out. */
  lemma ValueOf3(a: bv8, b: bv8, c: bv8)
    ensures Value([a, b, c]) == Payload(a) + (Payload(b) << 7) + (Payload(c) << 14)
  {
    assert [a, b, c][1..] == [b, c];
    ValueOf2(b, c);
    ShiftSum2(Payload(a), Payload(b), Payload(c));
  }

  /** The group sum of a varint of 4 bytes, written out. */
  lemma ValueOf4(a: bv8, b: bv8, c: bv8, d: bv8)
    ensures Value([a, b, c, d]) == Payload(a) + (Payload(b) << 7) + (Payload(c) << 14) + (Payload(d) << 21)
  {
    assert [a, b, c, d][1..] == [b, c, d];
    ValueOf3(b, c, d);
    ShiftSum3(Payload(a), Payload(b), Payload(c), Payload(d));
  }

  /** The group sum of a varint of 5 bytes, written out. */
  lemma ValueOf5(a: bv8, b: bv8, c: bv8, d: bv8, e: bv8)
    ensures Value([a, b, c, d, e]) == Payload(a) + (Payload(b) << 7) + (Payload(c) << 14) + (Payload(d) << 21) + (Payload(e) << 28)
  {
    assert [a, b, c, d, e][1..] == [b, c, d, e];
    ValueOf4(b, c, d, e);
    ShiftSum4(Payload(a), Payload(b), Payload(c), Payload(d), Payload(e));
  }

  lemma ShiftSum2(a: bv32, b: bv32, c: bv32)
    ensures a + ((b + (c << 7)) << 7) == a + (b << 7) + (c << 14)
  {
  }

  lemma ShiftSum3(a: bv32, b: bv32, c: bv32, d: bv32)
    ensures a + ((b + ((c + (d << 7)) << 7)) << 7) == a + (b << 7) + (c << 14) + (d << 21)
  {
  }

  lemma ShiftSum4(a: bv32, b: bv32, c: bv32, d: bv32, e: bv32)
    ensures a + ((b + ((c + ((d + (e << 7)) << 7)) << 7)) << 7)
            == a + (b << 7) + (c << 14) + (d << 21) + (e << 28)
  {
  }

  /**
   * One plus the index of the first terminator in `w`, or 0 when `w` holds
   * none: the length of the varint `w` starts with. FirstLenSpec states which
   * index that is.
   */
  function FirstLen(w: seq<bv8>): (r: nat)
    ensures r <= |w|
    ensures r > 0 ==> IsTerminator(w[r - 1])
  {
    if |w| == 0 then 0
    else if IsTerminator(w[0]) then 1
    else
      var t := FirstLen(w[1..]);
      if t == 0 then 0 else t + 1
  }

  /** FirstLen is 0 exactly when there is no terminator, and otherwise points just past the first one. */
  lemma {:induction false} FirstLenSpec(w: seq<bv8>)
    ensures FirstLen(w) == 0 <==> forall i :: 0 <= i < |w| ==> !IsTerminator(w[i])
    ensures FirstLen(w) > 0 ==> forall i :: 0 <= i < FirstLen(w) - 1 ==> !IsTerminator(w[i])
  {
    if |w| > 0 && !IsTerminator(w[0]) {
      FirstLenSpec(w[1..]);
      assert forall i :: 1 <= i < |w| ==> w[i] == w[1..][i - 1];
    }
  }

  /** The byte strings of the complete varints of `w`, in stream order. */
  function Varints(w: seq<bv8>): seq<seq<bv8>>
    decreases |w|
  {
    var n := FirstLen(w);
    if n == 0 then [] else [w[..n]] + Varints(w[n..])
  }

  /** Every complete varint of `w` has at most five bytes. */
  predicate Framed(w: seq<bv8>) {
    forall v <- Varints(w) :: |v| <= 5
  }

  /**
   * The number of bytes taken by the complete varints at the front of `w`,
   * i.e. one past its last terminator (0 when there is none), as
   * CompleteLenSpec states.
   */
  function CompleteLen(w: seq<bv8>): (r: nat)
    ensures r <= |w|
    ensures r > 0 ==> IsTerminator(w[r - 1])
    decreases |w|
  {
    var n := FirstLen(w);
    if n == 0 then 0 else n + CompleteLen(w[n..])
  }

  /** No terminator follows the complete varints. */
  lemma {:induction false} CompleteLenSpec(w: seq<bv8>)
    ensures forall i :: CompleteLen(w) <= i < |w| ==> !IsTerminator(w[i])
    decreases |w|
  {
    var n := FirstLen(w);
    FirstLenSpec(w);
    if n > 0 {
      CompleteLenSpec(w[n..]);
      assert forall i :: n <= i < |w| ==> w[i] == w[n..][i - n];
    }
  }

  /** The suffixes of `w` that start at its complete varints, in stream order. */
  function Tails(w: seq<bv8>): seq<seq<bv8>>
    decreases |w|
  {
    var n := FirstLen(w);
    if n == 0 then [] else [w] + Tails(w[n..])
  }

  /** Past the first varint, the suffixes are those of the rest. */
  lemma TailsNext(w: seq<bv8>, j: nat)
    requires FirstLen(w) > 0 && 0 < j < |Tails(w)|
    ensures j - 1 < |Tails(w[FirstLen(w)..])| && Tails(w)[j] == Tails(w[FirstLen(w)..])[j - 1]
  {
    var rest := w[FirstLen(w)..];
    assert Tails(w) == [w] + Tails(rest);
  }

  /** Complete varint j is the leading varint of suffix j. */
  lemma {:induction false} TailAt(w: seq<bv8>, j: nat)
    requires j < |Varints(w)|
    ensures j < |Tails(w)| && 0 < FirstLen(Tails(w)[j]) <= |Tails(w)[j]|
    ensures Varints(w)[j] == Tails(w)[j][..FirstLen(Tails(w)[j])]
    decreases j
  {
    if j > 0 {
      TailAt(w[FirstLen(w)..], j - 1);
    }
  }

  /** Lane j is set when varint j of `vs` has more than k bytes. */
  function LongerOf(vs: seq<seq<bv8>>, k: nat): (m: seq<bool>)
    ensures |m| == |vs|
  {
    seq(|vs|, j requires 0 <= j < |vs| => |vs[j]| > k)
  }

  /** Lane j is set when complete varint j has more than k bytes. */
  function LongerThan(w: seq<bv8>, k: nat): (m: seq<bool>)
    ensures |m| == |Varints(w)|
  {
    LongerOf(Varints(w), k)
  }

  lemma LongerOfConcat(a: seq<seq<bv8>>, b: seq<seq<bv8>>, k: nat)
    ensures LongerOf(a + b, k) == LongerOf(a, k) + LongerOf(b, k)
  {
    var l, r := LongerOf(a + b, k), LongerOf(a, k) + LongerOf(b, k);
    assert forall j :: 0 <= j < |l| ==> l[j] == r[j];
  }

  lemma LongerThanPeel(w: seq<bv8>, k: nat)
    requires FirstLen(w) > 0
    ensures LongerThan(w, k) == [FirstLen(w) > k] + LongerThan(w[FirstLen(w)..], k)
  {
    var n := FirstLen(w);
    assert Varints(w) == [w[..n]] + Varints(w[n..]);
    LongerOfConcat([w[..n]], Varints(w[n..]), k);
    assert LongerOf([w[..n]], k) == [n > k];
  }

  /**
   * Counting, for each k < 5, the varints longer than k bytes counts every
   * byte of every complete varint once: the total is CompleteLen.
   */
  lemma {:induction false} ByteTotal(w: seq<bv8>)
    requires Framed(w)
    ensures Count(LongerThan(w, 0)) + Count(LongerThan(w, 1)) + Count(LongerThan(w, 2))
            + Count(LongerThan(w, 3)) + Count(LongerThan(w, 4)) == CompleteLen(w)
    decreases |w|
  {
    var n := FirstLen(w);
    if n == 0 {
      assert LongerThan(w, 0) == [] && LongerThan(w, 1) == [] && LongerThan(w, 2) == [];
      assert LongerThan(w, 3) == [] && LongerThan(w, 4) == [];
    } else {
      assert w[..n] in Varints(w);
      assert Framed(w[n..]) by {
        assert forall v <- Varints(w[n..]) :: v in Varints(w);
      }
      ByteTotal(w[n..]);
      PeelCount(w, 0);
      PeelCount(w, 1);
      PeelCount(w, 2);
      PeelCount(w, 3);
      PeelCount(w, 4);
    }
  }

  lemma PeelCount(w: seq<bv8>, k: nat)
    requires FirstLen(w) > 0
    ensures Count(LongerThan(w, k)) == (if FirstLen(w) > k then 1 else 0) + Count(LongerThan(w[FirstLen(w)..], k))
  {
    LongerThanPeel(w, k);
    CountConcat([FirstLen(w) > k], LongerThan(w[FirstLen(w)..], k));
  }

  /** The values of a list of varints of at most five bytes each. */
  function ValuesOf(vs: seq<seq<bv8>>): (r: seq<bv32>)
    requires forall v <- vs :: |v| <= 5
  {
    seq(|vs|, i requires 0 <= i < |vs| => Value(vs[i]))
  }

  /** The values of the complete varints of `w`, in stream order. */
  function Values(w: seq<bv8>): seq<bv32>
    requires Framed(w)
  {
    ValuesOf(Varints(w))
  }

  /** A stream: a concatenation of complete varints of one to five bytes. */
  predicate WellFormed(s: seq<bv8>) {
    Framed(s) && CompleteLen(s) == |s|
  }

  /** A stream cut just after a terminator leaves a stream. */
  lemma RestAfterTerminator(s: seq<bv8>, c: nat)
    requires WellFormed(s) && 1 <= c <= |s| && IsTerminator(s[c - 1])
    ensures WellFormed(s[c..])
  {
    var w := s[..c];
    assert w[c - 1] == s[c - 1];
    CompleteAtTerminator(w);
    WindowOfStream(s, c);
  }

  /** Bytes that end on a terminator are all complete varints. */
  lemma CompleteAtTerminator(w: seq<bv8>)
    requires |w| > 0 && IsTerminator(w[|w| - 1])
    ensures CompleteLen(w) == |w|
  {
    CompleteLenSpec(w);
  }

  /** `p` is a varint boundary of `s`: its start, or just past a terminator. */
  predicate AtBoundary(s: seq<bv8>, p: nat) {
    p == 0 || (p <= |s| && IsTerminator(s[p - 1]))
  }

  /** A position just past a terminator of a stream starts a stream of its own. */
  lemma StreamAt(input: seq<bv8>, pos: nat)
    requires WellFormed(input) && pos <= |input| && (pos == 0 || IsTerminator(input[pos - 1]))
    ensures WellFormed(input[pos..])
  {
    if pos == 0 {
      assert input[pos..] == input;
    } else {
      RestAfterTerminator(input, pos);
    }
  }

  /** StreamAt, for streams read varint by varint. */
  lemma StreamRest(input: seq<bv8>, pos: nat)
    requires Stream(input) && pos <= |input| && (pos == 0 || IsTerminator(input[pos - 1]))
    ensures Stream(input[pos..])
  {
    StreamIsWellFormed(input);
    StreamAt(input, pos);
    StreamIsWellFormed(input[pos..]);
  }

  /** A varint boundary inside a stream is followed by a terminator within five bytes. */
  lemma LeadAt(input: seq<bv8>, pos: nat) returns (lead: nat)
    requires Stream(input) && pos < |input| && (pos == 0 || IsTerminator(input[pos - 1]))
    ensures 1 <= lead <= 5 && pos + lead <= |input| && IsTerminator(input[pos + lead - 1])
  {
    StreamRest(input, pos);
    lead := FirstLen(input[pos..]);
    assert input[pos..][lead - 1] == input[pos + lead - 1];
  }

  /** The same streams, read one varint at a time from the front. */
  predicate Stream(s: seq<bv8>)
    decreases |s|
  {
    |s| == 0 || (1 <= FirstLen(s) <= 5 && Stream(s[FirstLen(s)..]))
  }

  /** Reading varint by varint from the front accepts exactly the streams. */
  lemma {:induction false} StreamIsWellFormed(s: seq<bv8>)
    ensures Stream(s) <==> WellFormed(s)
    decreases |s|
  {
    var n := FirstLen(s);
    if n > 0 {
      var rest := s[n..];
      StreamIsWellFormed(rest);
      assert Varints(s) == [s[..n]] + Varints(rest);
      assert Framed(s) <==> n <= 5 && Framed(rest) by {
        if Framed(s) {
          assert s[..n] in Varints(s);
          assert forall v <- Varints(rest) :: v in Varints(s);
        }
      }
      assert CompleteLen(s) == n + CompleteLen(rest);
    }
  }

  lemma ValuesOfConcat(a: seq<seq<bv8>>, b: seq<seq<bv8>>)
    requires forall v <- a :: |v| <= 5
    requires forall v <- b :: |v| <= 5
    ensures forall v <- a + b :: |v| <= 5
    ensures ValuesOf(a + b) == ValuesOf(a) + ValuesOf(b)
  {
  }

  /** There are as many complete varints as terminator bytes. */
  lemma {:induction false} VarintsAreTerminators(w: seq<bv8>)
    ensures |Varints(w)| == Count(SignedGeZero(w))
    decreases |w|
  {
    var n := FirstLen(w);
    if n == 0 {
      FirstLenSpec(w);
      CountZero(SignedGeZero(w));
    } else {
      VarintsAreTerminators(w[n..]);
      TerminatorsPastFirst(w, n);
    }
  }

  /** The first varint holds exactly one terminator. */
  lemma {:induction false} TerminatorsPastFirst(w: seq<bv8>, n: nat)
    requires n == FirstLen(w) > 0
    ensures Count(SignedGeZero(w)) == 1 + Count(SignedGeZero(w[n..]))
  {
    var a, b := w[..n], w[n..];
    var ma := SignedGeZero(a);
    FirstLenSpec(w);
    assert forall i :: 0 <= i < n ==> a[i] == w[i];
    assert forall i :: 0 <= i < |ma| && i != n - 1 ==> !ma[i];
    CountOne(ma, n - 1);
    assert w == a + b;
    TerminatorsConcat(a, b);
  }

  lemma {:induction false} TerminatorsConcat(a: seq<bv8>, b: seq<bv8>)
    ensures Count(SignedGeZero(a + b)) == Count(SignedGeZero(a)) + Count(SignedGeZero(b))
  {
    assert SignedGeZero(a + b) == SignedGeZero(a) + SignedGeZero(b);
    CountConcat(SignedGeZero(a), SignedGeZero(b));
  }

  lemma {:induction false} CountOne(m: seq<bool>, p: nat)
    requires p < |m| && m[p] && forall i :: 0 <= i < |m| && i != p ==> !m[i]
    ensures Count(m) == 1
  {
    var v := seq(|m|, _ => 0 as bv8);
    PackSingle(v, m, p);
  }

  /** A window made only of terminators is that many one-byte varints. */
  lemma {:induction false} AllTerminators(w: seq<bv8>)
    requires forall i :: 0 <= i < |w| ==> IsTerminator(w[i])
    ensures Framed(w) && CompleteLen(w) == |w|
    ensures Values(w) == Zext(w)
  {
    AllTerminatorsSplit(w);
    forall i | 0 <= i < |w|
      ensures Values(w)[i] == Zext(w)[i]
    {
      ValueOf1(w[i]);
    }
  }

  lemma {:induction false} AllTerminatorsSplit(w: seq<bv8>)
    requires forall i :: 0 <= i < |w| ==> IsTerminator(w[i])
    ensures CompleteLen(w) == |w|
    ensures |Varints(w)| == |w| && forall i :: 0 <= i < |w| ==> Varints(w)[i] == [w[i]]
    decreases |w|
  {
    if |w| > 0 {
      assert FirstLen(w) == 1;
      AllTerminatorsSplit(w[1..]);
      assert w[..1] == [w[0]];
    }
  }

  /** The first varint of a prefix is the first varint of the whole, once the prefix reaches its terminator. */
  lemma {:induction false} FirstLenPrefix(s: seq<bv8>, k: nat)
    requires k <= |s|
    ensures FirstLen(s) > 0 && FirstLen(s) <= k ==> FirstLen(s[..k]) == FirstLen(s)
    ensures FirstLen(s) == 0 || FirstLen(s) > k ==> FirstLen(s[..k]) == 0
  {
    if |s| > 0 && k > 0 && !IsTerminator(s[0]) {
      FirstLenPrefix(s[1..], k - 1);
      assert s[..k][1..] == s[1..][..k - 1];
    }
  }

  /**
   * Cutting a window of `k` bytes out of the front of a byte string made of
   * complete varints: what follows the window's complete varints is again
   * made of complete varints.
   */
  lemma {:induction false} WindowRest(s: seq<bv8>, k: nat)
    requires CompleteLen(s) == |s| && k <= |s|
    ensures CompleteLen(s[..k]) <= k
    ensures CompleteLen(s[CompleteLen(s[..k])..]) == |s| - CompleteLen(s[..k])
    decreases |s|
  {
    var n := FirstLen(s);
    if n == 0 || k < n {
      WindowInsideFirst(s, k);
    } else {
      assert CompleteLen(s[n..]) == |s[n..]|;
      WindowRest(s[n..], k - n);
      WindowRestStep(s, k, n);
    }
  }

  /** A window that ends inside the first varint holds no complete varint. */
  lemma WindowInsideFirst(s: seq<bv8>, k: nat)
    requires CompleteLen(s) == |s| && k <= |s| && (FirstLen(s) == 0 || k < FirstLen(s))
    ensures CompleteLen(s[..k]) == 0
    ensures CompleteLen(s[CompleteLen(s[..k])..]) == |s| - CompleteLen(s[..k])
  {
    FirstLenPrefix(s, k);
    assert s[0..] == s;
  }

  /** WindowRest past the first varint, from WindowRest on the rest of the stream. */
  lemma WindowRestStep(s: seq<bv8>, k: nat, n: nat)
    requires n == FirstLen(s) && 0 < n <= k <= |s|
    requires CompleteLen(s[n..][..k - n]) <= k - n
    requires CompleteLen(s[n..][CompleteLen(s[n..][..k - n])..]) == |s| - n - CompleteLen(s[n..][..k - n])
    ensures CompleteLen(s[..k]) <= k
    ensures CompleteLen(s[CompleteLen(s[..k])..]) == |s| - CompleteLen(s[..k])
  {
    var rest := s[n..];
    var c' := CompleteLen(rest[..k - n]);
    var tail := rest[c'..];
    assert CompleteLen(tail) == |s| - n - c';
    WindowStepLen(s, k, n);
    var c := CompleteLen(s[..k]);
    assert c == n + c';
    DropDrop(s, n, c');
    assert s[c..] == tail;
  }

  lemma WindowStepLen(s: seq<bv8>, k: nat, n: nat)
    requires n == FirstLen(s) && 0 < n <= k <= |s|
    ensures CompleteLen(s[..k]) == n + CompleteLen(s[n..][..k - n])
  {
    FirstLenPrefix(s, k);
    var w := s[..k];
    assert FirstLen(w) == n;
    assert w[n..] == s[n..][..k - n];
  }

  /** The complete varints of a window that reaches past the first varint. */
  lemma WindowStep(s: seq<bv8>, k: nat, n: nat)
    requires n == FirstLen(s) && 0 < n <= k <= |s|
    ensures CompleteLen(s[..k]) == n + CompleteLen(s[n..][..k - n])
    ensures Varints(s[..k]) == [s[..n]] + Varints(s[n..][..k - n])
  {
    FirstLenPrefix(s, k);
    var w := s[..k];
    assert FirstLen(w) == n;
    assert w[..n] == s[..n];
    assert w[n..] == s[n..][..k - n];
  }

  /**
   * Cutting a window of `k` bytes out of the front of a byte string made of
   * complete varints: the complete varints of the window, then those of what
   * follows them, are the varints of the whole.
   */
  lemma {:induction false} WindowSplit(s: seq<bv8>, k: nat)
    requires CompleteLen(s) == |s| && k <= |s|
    ensures CompleteLen(s[..k]) <= k
    ensures Varints(s) == Varints(s[..k]) + Varints(s[CompleteLen(s[..k])..])
    decreases |s|
  {
    var n := FirstLen(s);
    FirstLenPrefix(s, k);
    if n == 0 {
      assert s[..k] == [] && s[0..] == s;
    } else if k < n {
      assert CompleteLen(s[..k]) == 0 && Varints(s[..k]) == [];
      assert s[0..] == s;
    } else {
      var rest := s[n..];
      WindowSplit(rest, k - n);
      WindowStep(s, k, n);
      var c' := CompleteLen(rest[..k - n]);
      DropDrop(s, n, c');
      var h := [s[..n]];
      calc {
        Varints(s);
        h + Varints(rest);
        h + (Varints(rest[..k - n]) + Varints(rest[c'..]));
        { SeqAssoc(h, Varints(rest[..k - n]), Varints(rest[c'..])); }
        Varints(s[..k]) + Varints(s[n + c'..]);
      }
    }
  }

  /**
   * Cutting a window of `k` bytes out of the front of a stream: the window is
   * framed, the values of the stream are those of the window's complete
   * varints followed by those of the rest, and the rest is again a stream.
   * The window holds at least one complete varint once it has five bytes or
   * is the whole stream.
   */
  lemma WindowOfStream(s: seq<bv8>, k: nat)
    requires WellFormed(s) && k <= |s|
    ensures Framed(s[..k])
    ensures CompleteLen(s[..k]) <= k
    ensures WellFormed(s[CompleteLen(s[..k])..])
    ensures Values(s) == Values(s[..k]) + Values(s[CompleteLen(s[..k])..])
    ensures k > 0 && (k >= 5 || k == |s|) ==> CompleteLen(s[..k]) >= 1
  {
    var c := CompleteLen(s[..k]);
    WindowSplit(s, k);
    WindowRest(s, k);
    var a, b := Varints(s[..k]), Varints(s[c..]);
    assert forall v <- a :: v in Varints(s);
    assert forall v <- b :: v in Varints(s);
    ValuesOfConcat(a, b);
    if k > 0 && (k >= 5 || k == |s|) {
      var n := FirstLen(s);
      FirstLenPrefix(s, k);
      assert Varints(s)[0] == s[..n];
    }
  }

  lemma DropDrop<T>(s: seq<T>, a: nat, b: nat)
    requires a + b <= |s|
    ensures s[a + b..] == s[a..][b..]
  {
  }

  lemma SeqAssoc<T>(a: seq<T>, b: seq<T>, c: seq<T>)
    ensures a + (b + c) == (a + b) + c
  {
  }

  /** The low 7 bits of y, as a byte. */
  function Group(y: bv32): (r: bv8)
    ensures r < 0x80
    ensures Widen(r) == y & 0x7F
  {
    (if y & 0x01 == 0 then 0 else 0x01) | (if y & 0x02 == 0 then 0 else 0x02)
    | (if y & 0x04 == 0 then 0 else 0x04) | (if y & 0x08 == 0 then 0 else 0x08)
    | (if y & 0x10 == 0 then 0 else 0x10) | (if y & 0x20 == 0 then 0 else 0x20)
    | (if y & 0x40 == 0 then 0 else 0x40)
  }

  /**
   * The minimal encoding of x: as many bytes as its length class needs (one
   * below 2^7, two below 2^14, three below 2^21, four below 2^28, else five),
   * bit 7 set on all but the last.
   */
  function Encode(x: bv32): (r: seq<bv8>)
    ensures 1 <= |r| <= 5
    ensures |r| == 1 <==> x < 1 << 7
    ensures |r| == 2 <==> 1 << 7 <= x < 1 << 14
    ensures |r| == 3 <==> 1 << 14 <= x < 1 << 21
    ensures |r| == 4 <==> 1 << 21 <= x < 1 << 28
    ensures |r| == 5 <==> 1 << 28 <= x
  {
    if x < 1 << 7 then [Group(x)]
    else if x < 1 << 14 then [Group(x) | 0x80, Group(x >> 7)]
    else if x < 1 << 21 then [Group(x) | 0x80, Group(x >> 7) | 0x80, Group(x >> 14)]
    else if x < 1 << 28 then [Group(x) | 0x80, Group(x >> 7) | 0x80, Group(x >> 14) | 0x80, Group(x >> 21)]
    else [Group(x) | 0x80, Group(x >> 7) | 0x80, Group(x >> 14) | 0x80, Group(x >> 21) | 0x80, Group(x >> 28)]
  }

  /**
   * The encoding is one complete varint, it carries no padding group (a
   * multi-byte encoding never ends in a zero byte), and its value is x.
   */
  lemma EncodeIsVarint(x: bv32)
    ensures FirstLen(Encode(x)) == |Encode(x)|
    ensures |Encode(x)| > 1 ==> Encode(x)[|Encode(x)| - 1] != 0
    ensures Value(Encode(x)) == x
  {
    var n := |Encode(x)|;
    assert FirstLen(Encode(x)) == n by { EncodeFirstLen(x); }
    assert n > 1 ==> Encode(x)[n - 1] != 0 by { EncodeLast(x); }
    assert Value(Encode(x)) == x by { EncodeValue(x); }
  }

  lemma EncodeFirstLen(x: bv32)
    ensures FirstLen(Encode(x)) == |Encode(x)|
  {
    if x < 1 << 7 {
      EncodeShape1(x);
      FirstLenOf1(Group(x));
    } else if x < 1 << 14 {
      EncodeShape2(x);
      FirstLenOf2(Group(x) | 0x80, Group(x >> 7));
    } else if x < 1 << 21 {
      EncodeShape3(x);
      FirstLenOf3(Group(x) | 0x80, Group(x >> 7) | 0x80, Group(x >> 14));
    } else if x < 1 << 28 {
      EncodeShape4(x);
      FirstLenOf4(Group(x) | 0x80, Group(x >> 7) | 0x80, Group(x >> 14) | 0x80, Group(x >> 21));
    } else {
      EncodeShape5(x);
      FirstLenOf5(Group(x) | 0x80, Group(x >> 7) | 0x80, Group(x >> 14) | 0x80, Group(x >> 21) | 0x80, Group(x >> 28));
    }
  }

  lemma EncodeLast(x: bv32)
    ensures |Encode(x)| > 1 ==> Encode(x)[|Encode(x)| - 1] != 0
  {
    if x < 1 << 7 {
    } else if x < 1 << 14 {
      EncodeShape2(x);
      GroupNonzero(x >> 7);
    } else if x < 1 << 21 {
      EncodeShape3(x);
      GroupNonzero(x >> 14);
    } else if x < 1 << 28 {
      EncodeShape4(x);
      GroupNonzero(x >> 21);
    } else {
      EncodeShape5(x);
      GroupNonzero(x >> 28);
    }
  }

  /** A nonzero value below 2^7 keeps all its bits in its low group. */
  lemma GroupNonzero(y: bv32)
    requires 0 < y < 0x80
    ensures Group(y) != 0
  {
  }

  lemma EncodeValue(x: bv32)
    ensures Value(Encode(x)) == x
  {
    if x < 1 << 7 {
      EncodeValue1(x);
    } else if x < 1 << 14 {
      EncodeValue2(x);
    } else if x < 1 << 21 {
      EncodeValue3(x);
    } else if x < 1 << 28 {
      EncodeValue4(x);
    } else {
      EncodeValue5(x);
    }
  }

  lemma EncodeShape1(x: bv32)
    requires x < 1 << 7
    ensures Encode(x) == [Group(x)]
  {
  }

  lemma EncodeValue1(x: bv32)
    requires x < 1 << 7
    ensures Value(Encode(x)) == x
  {
    EncodeShape1(x);
    ValueOf1(Group(x));
    GroupsSum1(x);
  }

  lemma EncodeShape2(x: bv32)
    requires 1 << 7 <= x < 1 << 14
    ensures Encode(x) == [Group(x) | 0x80, Group(x >> 7)]
  {
  }

  lemma EncodeValue2(x: bv32)
    requires 1 << 7 <= x < 1 << 14
    ensures Value(Encode(x)) == x
  {
    EncodeShape2(x);
    ValueOf2(Group(x) | 0x80, Group(x >> 7));
    GroupsSum2(x);
  }

  lemma EncodeShape3(x: bv32)
    requires 1 << 14 <= x < 1 << 21
    ensures Encode(x) == [Group(x) | 0x80, Group(x >> 7) | 0x80, Group(x >> 14)]
  {
  }

  lemma EncodeValue3(x: bv32)
    requires 1 << 14 <= x < 1 << 21
    ensures Value(Encode(x)) == x
  {
    EncodeShape3(x);
    ValueOf3(Group(x) | 0x80, Group(x >> 7) | 0x80, Group(x >> 14));
    GroupsSum3(x);
  }

  lemma EncodeShape4(x: bv32)
    requires 1 << 21 <= x < 1 << 28
    ensures Encode(x) == [Group(x) | 0x80, Group(x >> 7) | 0x80, Group(x >> 14) | 0x80, Group(x >> 21)]
  {
  }

  lemma EncodeValue4(x: bv32)
    requires 1 << 21 <= x < 1 << 28
    ensures Value(Encode(x)) == x
  {
    EncodeShape4(x);
    ValueOf4(Group(x) | 0x80, Group(x >> 7) | 0x80, Group(x >> 14) | 0x80, Group(x >> 21));
    GroupsSum4(x);
  }

  lemma EncodeShape5(x: bv32)
    requires 1 << 28 <= x
    ensures Encode(x) == [Group(x) | 0x80, Group(x >> 7) | 0x80, Group(x >> 14) | 0x80, Group(x >> 21) | 0x80, Group(x >> 28)]
  {
  }

  lemma EncodeValue5(x: bv32)
    requires 1 << 28 <= x
    ensures Value(Encode(x)) == x
  {
    EncodeShape5(x);
    ValueOf5(Group(x) | 0x80, Group(x >> 7) | 0x80, Group(x >> 14) | 0x80, Group(x >> 21) | 0x80, Group(x >> 28));
    GroupsSum5(x);
  }
  lemma FirstLenOf1(a: bv8)
    requires IsTerminator(a)
    ensures FirstLen([a]) == 1
  {
  }

  lemma FirstLenOf2(a: bv8, b: bv8)
    requires !IsTerminator(a) && IsTerminator(b)
    ensures FirstLen([a, b]) == 2
  {
    assert [a, b][1..] == [b];
    FirstLenOf1(b);
  }

  lemma FirstLenOf3(a: bv8, b: bv8, c: bv8)
    requires !IsTerminator(a) && !IsTerminator(b) && IsTerminator(c)
    ensures FirstLen([a, b, c]) == 3
  {
    assert [a, b, c][1..] == [b, c];
    FirstLenOf2(b, c);
  }

  lemma FirstLenOf4(a: bv8, b: bv8, c: bv8, d: bv8)
    requires !IsTerminator(a) && !IsTerminator(b) && !IsTerminator(c) && IsTerminator(d)
    ensures FirstLen([a, b, c, d]) == 4
  {
    assert [a, b, c, d][1..] == [b, c, d];
    FirstLenOf3(b, c, d);
  }

  lemma FirstLenOf5(a: bv8, b: bv8, c: bv8, d: bv8, e: bv8)
    requires !IsTerminator(a) && !IsTerminator(b) && !IsTerminator(c) && !IsTerminator(d) && IsTerminator(e)
    ensures FirstLen([a, b, c, d, e]) == 5
  {
    assert [a, b, c, d, e][1..] == [b, c, d, e];
    FirstLenOf4(b, c, d, e);
  }

  lemma GroupsSum1(x: bv32)
    requires x < 1 << 7
    ensures Payload(Group(x)) == x
  {
  }

  lemma GroupsSum2(x: bv32)
    requires 1 << 7 <= x < 1 << 14
    ensures Payload(Group(x) | 0x80) + (Payload(Group(x >> 7)) << 7) == x
  {
  }

  lemma GroupsSum3(x: bv32)
    requires 1 << 14 <= x < 1 << 21
    ensures Payload(Group(x) | 0x80) + (Payload(Group(x >> 7) | 0x80) << 7) + (Payload(Group(x >> 14)) << 14) == x
  {
  }

  lemma GroupsSum4(x: bv32)
    requires 1 << 21 <= x < 1 << 28
    ensures Payload(Group(x) | 0x80) + (Payload(Group(x >> 7) | 0x80) << 7) + (Payload(Group(x >> 14) | 0x80) << 14) + (Payload(Group(x >> 21)) << 21) == x
  {
  }

  lemma GroupsSum5(x: bv32)
    requires 1 << 28 <= x
    ensures Payload(Group(x) | 0x80) + (Payload(Group(x >> 7) | 0x80) << 7) + (Payload(Group(x >> 14) | 0x80) << 14) + (Payload(Group(x >> 21) | 0x80) << 21) + (Payload(Group(x >> 28)) << 28) == x
  {
  }
  /** Concatenated encodings of a list of values. */
  function EncodeAll(xs: seq<bv32>): (r: seq<bv8>)
    ensures |xs| <= |r| <= 5 * |xs|
  {
    if |xs| == 0 then [] else Encode(xs[0]) + EncodeAll(xs[1..])
  }

  /** Encoding then reading back the complete varints gives the original list. */
  lemma {:induction false} EncodeAllRoundTrip(xs: seq<bv32>)
    ensures WellFormed(EncodeAll(xs))
    ensures Values(EncodeAll(xs)) == xs
  {
    EncodeAllComplete(xs);
    EncodeAllVarints(xs);
    EachRoundTrip(xs);
  }

  /** Each encoding reads back as its value. */
  lemma EachRoundTrip(xs: seq<bv32>)
    ensures forall v <- EncodeEach(xs) :: |v| <= 5
    ensures ValuesOf(EncodeEach(xs)) == xs
  {
    var vs := EncodeEach(xs);
    forall i | 0 <= i < |xs|
      ensures |vs[i]| <= 5 && Value(vs[i]) == xs[i]
    {
      EncodeIsVarint(xs[i]);
    }
  }

  /** The minimal encodings of `xs`, one byte string per value. */
  function EncodeEach(xs: seq<bv32>): seq<seq<bv8>> {
    seq(|xs|, i requires 0 <= i < |xs| => Encode(xs[i]))
  }

  /** The varints of EncodeAll(xs) are the encodings of the values, in order. */
  lemma {:induction false} EncodeAllVarints(xs: seq<bv32>)
    ensures Varints(EncodeAll(xs)) == EncodeEach(xs)
  {
    if |xs| > 0 {
      var s := EncodeAll(xs);
      var n := |Encode(xs[0])|;
      EncodeAllHead(xs);
      EncodeAllVarints(xs[1..]);
      assert s[..n] == Encode(xs[0]) && s[n..] == EncodeAll(xs[1..]);
      assert EncodeEach(xs) == [Encode(xs[0])] + EncodeEach(xs[1..]);
    }
  }

  /** EncodeAll(xs) ends on its last varint's terminator. */
  lemma {:induction false} EncodeAllComplete(xs: seq<bv32>)
    ensures CompleteLen(EncodeAll(xs)) == |EncodeAll(xs)|
  {
    if |xs| > 0 {
      var s := EncodeAll(xs);
      EncodeAllHead(xs);
      EncodeAllComplete(xs[1..]);
      assert s[|Encode(xs[0])|..] == EncodeAll(xs[1..]);
    }
  }

  lemma EncodeAllHead(xs: seq<bv32>)
    requires |xs| > 0
    ensures FirstLen(EncodeAll(xs)) == |Encode(xs[0])|
  {
    var e := Encode(xs[0]);
    var s := EncodeAll(xs);
    EncodeIsVarint(xs[0]);
    assert s[..|e|] == e;
    FirstLenPrefix(s, |e|);
  }
}

=== FILE: varintdecode.dfy ===
/**
 * The exported varint_decode of varintdecode.c: an earlier copy of the
 * mask/shift kernel over whole windows of VLMAX bytes. It differs from the
 * m1 loop in three places: it decodes only while more than VLMAX bytes
 * remain and leaves the last window alone; its fast path is taken when the
 * last byte of the window is a terminator (the complete-varint size equals
 * VLMAX) rather than when every byte is; and it tests a compressed byte for
 * zero after clearing bit 7. Its mask helpers behave exactly as those of
 * varint_decode_maskshift.c, so the same definitions serve both.
 */
module Exported {
  import opened Rvv
  import opened Varint
  import opened Vecshift
  import opened Maskshift

  /**
   * One iteration on a window of VLMAX bytes (`words` = VLMAX / 8 mask
   * elements): the fast path when the complete-varint size is the window
   * length, otherwise the kernel with the clear-then-test order.
   */
  function ExportedBatch(window: seq<bv8>, t: Tail): (b: Batch)
    requires 0 < |window| <= 255
    ensures CompleteVarintSize(SignedLtZero(window), false) == |window| ==> b == Batch(Zext(window), |window|)
    ensures CompleteVarintSize(SignedLtZero(window), false) != |window| ==>
              |b.values| == Count(SignedGeZero(window)) && b.consumed == CompleteVarintSize(SignedLtZero(window), false)
  {
    var mask := SignedLtZero(window);
    var size := CompleteVarintSize(mask, false);
    if size == |window| then Batch(Zext(window), |window|)
    else
      var inverted := MaskNot(mask);
      ContinuationsInverted(window);
      Batch(Kernel(window, t, |window| / 8, true)[..NumberOfVarints(inverted)], size)
  }

  /** vmnot of the vmslt mask is the vmsge mask: the terminators. */
  lemma ContinuationsInverted(w: seq<bv8>)
    ensures MaskNot(SignedLtZero(w)) == SignedGeZero(w)
  {
    var a, b := MaskNot(SignedLtZero(w)), SignedGeZero(w);
    assert forall i :: 0 <= i < |w| ==> a[i] == b[i];
  }

  /** The reduction stops short of the last lane when that lane is a continuation byte. */
  lemma {:induction false} SizeBelowLast(mask: seq<bool>)
    requires 2 <= |mask| <= 255 && mask[|mask| - 1]
    ensures CompleteVarintSize(mask, false) < |mask|
  {
    RedMaxBound(mask[..|mask| - 1], false);
  }

  /**
   * The fast path is taken exactly when the last byte of the window has bit
   * 7 clear: it then stores every byte zero-extended and advances by the
   * whole window.
   */
  lemma {:induction false} FastPathIff(window: seq<bv8>, t: Tail)
    requires 2 <= |window| <= 255
    ensures IsTerminator(window[|window| - 1]) <==> ExportedBatch(window, t) == Batch(Zext(window), |window|)
  {
    var mask := SignedLtZero(window);
    var last := |window| - 1;
    var b := ExportedBatch(window, t);
    if IsTerminator(window[last]) {
      RedMaxIsLast(mask, false, last);
      SizeFromMax(mask, false, |window|);
      assert b == Batch(Zext(window), |window|);
    } else {
      SizeBelowLast(mask);
      assert b.consumed != |window|;
    }
  }

  /**
   * On a window that holds a complete varint, the window always advances by
   * the byte length of its complete varints, on either path, and by at least
   * one byte.
   */
  lemma {:induction false} ExportedConsumes(window: seq<bv8>, t: Tail)
    requires 0 < |window| <= 255 && CompleteLen(window) > 0
    ensures ExportedBatch(window, t).consumed == CompleteLen(window)
  {
    ContinuationsInverted(window);
    assert MaskNot(SignedGeZero(window)) == SignedLtZero(window) by {
      var a, b := MaskNot(SignedGeZero(window)), SignedLtZero(window);
      assert forall i :: 0 <= i < |window| ==> a[i] == b[i];
    }
    CompleteVarintSizeIsCompleteLen(window, false);
  }

  /** On a window of terminators only the fast path stores the right values. */
  lemma {:induction false} ExportedAllTerminators(window: seq<bv8>, t: Tail)
    requires 0 < |window| <= 255 && forall i :: 0 <= i < |window| ==> IsTerminator(window[i])
    ensures Framed(window) && ExportedBatch(window, t) == Batch(Values(window), CompleteLen(window))
  {
    AllTerminators(window);
    ExportedConsumes(window, t);
    RedMaxIsLast(SignedLtZero(window), false, |window| - 1);
  }

  /** Clearing bit 7 before the zero test changes nothing for a byte other than 0x80. */
  lemma ShiftInClearFirst(r: bv32, c: bv8)
    requires c != 0x80
    ensures ShiftIn(r, c, true) == ShiftIn(r, c, false)
  {
  }

  lemma ChainClearFirst(s1: bv8, s2: bv8, s3: bv8, s4: bv8, s5: bv8)
    requires s2 != 0x80 && s3 != 0x80 && s4 != 0x80 && s5 != 0x80
    ensures Chain(s1, s2, s3, s4, s5, true) == Chain(s1, s2, s3, s4, s5, false)
  {
    var x1 := Widen(s1);
    ShiftInClearFirst(x1, s2);
    var x2 := ShiftIn(x1, s2, false);
    ShiftInClearFirst(x2, s3);
    var x3 := ShiftIn(x2, s3, false);
    ShiftInClearFirst(x3, s4);
    var x4 := ShiftIn(x3, s4, false);
    ShiftInClearFirst(x4, s5);
  }

  /** Every byte of a suffix at a varint start is a byte of the window. */
  lemma {:induction false} TailBytes(w: seq<bv8>, j: nat)
    requires j < |Tails(w)|
    ensures forall b <- Tails(w)[j] :: b in w
    decreases j
  {
    if j > 0 {
      var n := FirstLen(w);
      TailBytes(w[n..], j - 1);
    }
  }

  /** A byte the groups bring to a varint is one of the window's bytes, or 0. */
  lemma SelIsByte(w: seq<bv8>, j: nat, k: nat)
    requires j < |Tails(w)| && 0 < FirstLen(Tails(w)[j]) && 1 <= k
    ensures Sel(Tails(w)[j], k) == 0 || Sel(Tails(w)[j], k) in w
  {
    TailBytes(w, j);
    var t := Tails(w)[j];
    if FirstLen(t) >= k {
      assert t[FirstLen(t) - k] in t;
    }
  }

  /** Lane j of the slow path is the value of complete varint j when the window holds no 0x80 byte. */
  lemma {:induction false} ExportedLane(window: seq<bv8>, t: Tail, j: nat)
    requires 8 <= |window| <= 64 && Framed(window) && 0x80 !in window && j < |Varints(window)|
    ensures j < |window| && Kernel(window, t, |window| / 8, true)[j] == Values(window)[j]
  {
    var words := |window| / 8;
    KernelLane(window, t, words, true, j);
    KernelLane(window, t, words, false, j);
    var tj := Tails(window)[j];
    NoClearedZero(window, j);
    ChainClearFirst(Sel(tj, 1), Sel(tj, 2), Sel(tj, 3), Sel(tj, 4), Sel(tj, 5));
    assert Kernel(window, t, words, true)[j] == Kernel(window, t, words, false)[j];
    KernelValue(window, t, words, j);
  }

  /** No byte the groups bring is 0x80 when the window holds none. */
  lemma {:induction false} NoClearedZero(window: seq<bv8>, j: nat)
    requires 0x80 !in window && j < |Tails(window)| && 0 < FirstLen(Tails(window)[j])
    ensures var tj := Tails(window)[j];
            Sel(tj, 2) != 0x80 && Sel(tj, 3) != 0x80 && Sel(tj, 4) != 0x80 && Sel(tj, 5) != 0x80
  {
    SelIsByte(window, j, 2);
    SelIsByte(window, j, 3);
    SelIsByte(window, j, 4);
    SelIsByte(window, j, 5);
  }

  /**
   * Where the two differences do not bite, the exported kernel agrees with
   * the reference: on a window of 8 to 64 bytes whose last byte is a
   * continuation byte (the slow path) and which holds no 0x80 byte, it
   * stores the values of the complete varints and consumes their bytes.
   */
  lemma {:induction false} ExportedAgrees(window: seq<bv8>, t: Tail)
    requires 8 <= |window| <= 64 && Framed(window) && CompleteLen(window) > 0
    requires !IsTerminator(window[|window| - 1]) && 0x80 !in window
    ensures ExportedBatch(window, t) == Batch(Values(window), CompleteLen(window))
  {
    ExportedConsumes(window, t);
    SizeBelowLast(SignedLtZero(window));
    ContinuationsInverted(window);
    VarintsAreTerminators(window);
    var nv := Count(SignedGeZero(window));
    var k := Kernel(window, t, |window| / 8, true);
    forall j | 0 <= j < nv
      ensures k[j] == Values(window)[j]
    {
      ExportedLane(window, t, j);
    }
  }

  /**
   * A window that ends on a terminator but holds a multi-byte varint takes
   * the fast path and stores its bytes as values: its first varint
   * [0xAC, 0x02] encodes 300, and the window stores 172 and 2.
   */
  lemma FastPathWitness(t: Tail)
    ensures var w: seq<bv8> := [0xAC, 0x02] + seq(14, _ => 0);
            && 0 < |Varints(w)| && Varints(w)[0] == [0xAC, 0x02] && Value([0xAC, 0x02]) == 300
            && |ExportedBatch(w, t).values| == 16 && ExportedBatch(w, t).values[..2] == [172, 2]
  {
    var w: seq<bv8> := [0xAC, 0x02] + seq(14, _ => 0);
    FastPathIff(w, t);
    FirstVarintOfWindow(w);
    ValueOf2(0xAC, 0x02);
    assert Zext(w)[..2] == [172, 2];
  }

  /** A window that starts with a continuation byte and a terminator starts with a two-byte varint. */
  lemma {:induction false} FirstVarintOfWindow(w: seq<bv8>)
    requires 2 <= |w| && !IsTerminator(w[0]) && IsTerminator(w[1])
    ensures FirstLen(w) == 2 && 0 < |Varints(w)| && Varints(w)[0] == [w[0], w[1]]
  {
    assert FirstLen(w[1..]) == 1;
    assert w[..2] == [w[0], w[1]];
  }

  /**
   * A window whose first varint is [0x80, 0x01] (128) takes the slow path
   * and stores 1 for it: the second byte 0x80 is 0 once bit 7 is cleared, so
   * its lane is not shifted.
   */
  lemma SlowPathWitness(t: Tail)
    ensures var w: seq<bv8> := [0x80, 0x01] + seq(13, _ => 0) + [0x80];
            && 0 < |Varints(w)| && Varints(w)[0] == [0x80, 0x01] && Value([0x80, 0x01]) == 128
            && 0 < |ExportedBatch(w, t).values| && ExportedBatch(w, t).values[0] == 1
  {
    var w: seq<bv8> := [0x80, 0x01] + seq(13, _ => 0) + [0x80];
    FirstVarintOfWindow(w);
    ValueOf2(0x80, 0x01);
    SlowPathLane(w, t);
  }

  lemma {:induction false} SlowPathLane(w: seq<bv8>, t: Tail)
    requires |w| == 16 && w[0] == 0x80 && w[1] == 0x01 && !IsTerminator(w[15]) && FirstLen(w) == 2
    ensures 0 < |ExportedBatch(w, t).values| && ExportedBatch(w, t).values[0] == 1
  {
    var b := ExportedBatch(w, t);
    var k := Kernel(w, t, 2, true);
    assert |w| / 8 == 2;
    SizeBelowLast(SignedLtZero(w));
    SlowPathValues(w, t);
    assert b.values == k[..Count(SignedGeZero(w))];
    CountPositive(SignedGeZero(w), 1);
    SlowPathKernel(w, t);
    assert k[0] == 1;
  }

  /** Off the fast path, the stored values are the first number_of_varints kernel lanes. */
  lemma {:induction false} SlowPathValues(w: seq<bv8>, t: Tail)
    requires 0 < |w| <= 255 && CompleteVarintSize(SignedLtZero(w), false) != |w|
    ensures Count(SignedGeZero(w)) <= |w|
    ensures ExportedBatch(w, t).values == Kernel(w, t, |w| / 8, true)[..Count(SignedGeZero(w))]
  {
    ContinuationsInverted(w);
  }

  lemma {:induction false} SlowPathKernel(w: seq<bv8>, t: Tail)
    requires |w| == 16 && w[0] == 0x80 && w[1] == 0x01 && FirstLen(w) == 2
    ensures Kernel(w, t, 2, true)[0] == 1
  {
    assert 0 < |Varints(w)|;
    KernelLane(w, t, 2, true, 0);
    assert Tails(w)[0] == w;
    SelOfFirst(w);
    SlowLaneOne();
  }

  lemma SelOfFirst(w: seq<bv8>)
    requires 2 <= |w| && w[0] == 0x80 && w[1] == 0x01 && FirstLen(w) == 2
    ensures Sel(w, 1) == 0x01 && Sel(w, 2) == 0x80 && Sel(w, 3) == 0 && Sel(w, 4) == 0 && Sel(w, 5) == 0
  {
  }

  lemma SlowLaneOne()
    ensures Chain(0x01, 0x80, 0, 0, 0, true) == 1
  {
  }

  /**
   * A window decoder for windows of `vlmax` bytes, as the loop of
   * varint_decode needs one: it accepts every such window and consumes
   * between one and `vlmax` of its bytes.
   */
  ghost predicate WindowDecoder(vlmax: nat, decode: (seq<bv8>, Tail) --> Batch) {
    forall w: seq<bv8>, t: Tail :: |w| == vlmax ==> decode.requires(w, t) && 1 <= decode(w, t).consumed <= vlmax
  }

  /** A window decoder that, on a window holding a terminator, stops just after one. */
  ghost predicate EndsOnTerminator(vlmax: nat, decode: (seq<bv8>, Tail) --> Batch)
    requires WindowDecoder(vlmax, decode)
  {
    forall w: seq<bv8>, t: Tail {:trigger decode(w, t), FirstLen(w)} ::
      |w| == vlmax && FirstLen(w) > 0 ==> IsTerminator(w[decode(w, t).consumed - 1])
  }

  /** What the loop leaves behind: the values it writes and the number of bytes it leaves undecoded. */
  datatype Decoded = Decoded(values: seq<bv32>, undecoded: nat)

  /**
   * The loop of varint_decode from byte `pos` on, with its window decoder as
   * a parameter: while more than `vlmax` bytes remain, `decode` takes the
   * window of `vlmax` bytes at `pos` with the tail lanes `tailAt(pos)`, its
   * values are written, and the loop advances by the bytes it consumed. It
   * leaves at most `vlmax` bytes, all of them when there are no more than
   * `vlmax`, and at least one byte of a non-empty rest.
   */
  ghost function WindowRun(input: seq<bv8>, vlmax: nat, decode: (seq<bv8>, Tail) --> Batch, tailAt: nat -> Tail, pos: nat): (r: Decoded)
    requires WindowDecoder(vlmax, decode) && pos <= |input|
    ensures r.undecoded <= |input| - pos && (r.undecoded <= vlmax || r.undecoded == |input| - pos)
    ensures pos < |input| ==> r.undecoded > 0
    ensures |input| - pos <= vlmax ==> r.values == [] && r.undecoded == |input| - pos
    decreases |input| - pos
  {
    if |input| - pos <= vlmax then Decoded([], |input| - pos)
    else
      var b := decode(input[pos..][..vlmax], tailAt(pos));
      var rest := WindowRun(input, vlmax, decode, tailAt, pos + b.consumed);
      Decoded(b.values + rest.values, rest.undecoded)
  }

  /** The loop of varint_decode (varintdecode.c) with its window decoder as a parameter: it computes WindowRun. */
  method WindowLoop(input: seq<bv8>, vlmax: nat, decode: (seq<bv8>, Tail) --> Batch, tailAt: nat -> Tail)
    returns (out: seq<bv32>, processed: nat, undecoded: nat)
    requires WindowDecoder(vlmax, decode)
    ensures processed == |out|
    ensures Decoded(out, undecoded) == WindowRun(input, vlmax, decode, tailAt, 0)
  {
    out := [];
    processed := 0;
    var pos: nat := 0;
    while |input| - pos > vlmax
      invariant pos <= |input| && processed == |out|
      invariant WindowRun(input, vlmax, decode, tailAt, 0)
                == Decoded(out + WindowRun(input, vlmax, decode, tailAt, pos).values, WindowRun(input, vlmax, decode, tailAt, pos).undecoded)
      decreases |input| - pos
    {
      var b := decode(input[pos..][..vlmax], tailAt(pos));
      SeqAssoc(out, b.values, WindowRun(input, vlmax, decode, tailAt, pos + b.consumed).values);
      out := out + b.values;
      processed := processed + |b.values|;
      pos := pos + b.consumed;
    }
    undecoded := |input| - pos;
  }

  /** Every window of `vlmax` bytes read at a varint boundary, short of the end, holds a terminator. */
  ghost predicate BoundaryWindows(input: seq<bv8>, vlmax: nat) {
    forall p: nat {:trigger AtBoundary(input, p)} :: p + vlmax < |input| && AtBoundary(input, p) ==> FirstLen(input[p..][..vlmax]) > 0
  }

  /**
   * With a decoder that ends on a terminator, a run started at a varint
   * boundary, where every window holds a terminator, stops at a varint boundary.
   */
  lemma {:induction false} RunEndsAtBoundary(input: seq<bv8>, vlmax: nat, decode: (seq<bv8>, Tail) --> Batch, tailAt: nat -> Tail, pos: nat)
    requires WindowDecoder(vlmax, decode) && EndsOnTerminator(vlmax, decode) && BoundaryWindows(input, vlmax)
    requires pos <= |input| && AtBoundary(input, pos)
    ensures AtBoundary(input, |input| - WindowRun(input, vlmax, decode, tailAt, pos).undecoded)
    decreases |input| - pos
  {
    if |input| - pos > vlmax {
      var c := decode(input[pos..][..vlmax], tailAt(pos)).consumed;
      TerminatorStep(input, vlmax, decode, tailAt, pos);
      RunEndsAtBoundary(input, vlmax, decode, tailAt, pos + c);
    }
  }

  /** The bytes a run leaves of a stream are a stream. */
  lemma LeavesStream(input: seq<bv8>, vlmax: nat, decode: (seq<bv8>, Tail) --> Batch, tailAt: nat -> Tail, undecoded: nat)
    requires 5 <= vlmax && WindowDecoder(vlmax, decode) && EndsOnTerminator(vlmax, decode)
    requires undecoded == WindowRun(input, vlmax, decode, tailAt, 0).undecoded
    ensures WellFormed(input) ==> WellFormed(input[|input| - undecoded..])
  {
    if WellFormed(input) {
      StreamWindows(input, vlmax);
      RunEndsAtBoundary(input, vlmax, decode, tailAt, 0);
      StreamAt(input, |input| - undecoded);
    }
  }

  /** A window read at a varint boundary of a stream consumes up to a terminator. */
  lemma TerminatorStep(input: seq<bv8>, vlmax: nat, decode: (seq<bv8>, Tail) --> Batch, tailAt: nat -> Tail, pos: nat)
    requires WindowDecoder(vlmax, decode) && EndsOnTerminator(vlmax, decode) && BoundaryWindows(input, vlmax)
    requires pos + vlmax < |input| && AtBoundary(input, pos)
    ensures var c := decode(input[pos..][..vlmax], tailAt(pos)).consumed;
            1 <= c <= vlmax && IsTerminator(input[pos + c - 1])
  {
    var w := input[pos..][..vlmax];
    var c := decode(w, tailAt(pos)).consumed;
    assert FirstLen(w) > 0;
    assert w[c - 1] == input[pos + c - 1];
  }

  /** On a stream, every window of at least five bytes read at a varint boundary holds a terminator. */
  lemma StreamWindows(input: seq<bv8>, vlmax: nat)
    requires 5 <= vlmax && WellFormed(input)
    ensures BoundaryWindows(input, vlmax)
  {
    forall p: nat | p + vlmax < |input| && AtBoundary(input, p) {
      WindowAtBoundary(input, p, vlmax);
    }
  }

  /** On a stream, a window of at least five bytes read at a varint boundary holds a terminator. */
  lemma WindowAtBoundary(input: seq<bv8>, pos: nat, vlmax: nat)
    requires 5 <= vlmax && pos + vlmax < |input|
    requires WellFormed(input) && (pos == 0 || IsTerminator(input[pos - 1]))
    ensures FirstLen(input[pos..][..vlmax]) > 0
  {
    var w := input[pos..][..vlmax];
    var lead := LeadOfStream(input, pos);
    assert w[lead - 1] == input[pos + lead - 1];
    FirstLenSpec(w);
  }

  /** ExportedBatch is a window decoder for every VLMAX of 16 to 64, and it ends on a terminator. */
  lemma ExportedIsWindowDecoder(vlmax: nat)
    requires 16 <= vlmax <= 64
    ensures WindowDecoder(vlmax, ExportedBatch) && EndsOnTerminator(vlmax, ExportedBatch)
  {
    forall w: seq<bv8>, t: Tail | |w| == vlmax
      ensures 1 <= ExportedBatch(w, t).consumed <= vlmax
    {
      SizeInWindow(SignedLtZero(w));
    }
    forall w: seq<bv8>, t: Tail | |w| == vlmax && FirstLen(w) > 0
      ensures IsTerminator(w[ExportedBatch(w, t).consumed - 1])
    {
      WindowEnds(w, t, FirstLen(w));
    }
  }

  /**
   * varint_decode of varintdecode.c: the loop over windows of VLMAX bytes
   * with ExportedBatch as its window decoder. `tailAt` gives the tail lanes
   * the window starting at each byte offset observes.
   */
  method ExportedDecode(input: seq<bv8>, vlmax: nat, tailAt: nat -> Tail)
    returns (out: seq<bv32>, processed: nat, undecoded: nat)
    requires 16 <= vlmax <= 64
    ensures processed == |out|
    ensures (ExportedIsWindowDecoder(vlmax); Decoded(out, undecoded) == WindowRun(input, vlmax, ExportedBatch, tailAt, 0))
    ensures undecoded <= |input| && (undecoded <= vlmax || undecoded == |input|)
    ensures |input| > 0 ==> undecoded > 0
    ensures |input| <= vlmax ==> out == [] && undecoded == |input|
    ensures WellFormed(input) ==> WellFormed(input[|input| - undecoded..])
  {
    ExportedIsWindowDecoder(vlmax);
    out, processed, undecoded := WindowLoop(input, vlmax, ExportedBatch, tailAt);
    ExportedLeavesStream(input, vlmax, tailAt, undecoded);
  }

  /** The bytes varint_decode leaves of a stream are a stream. */
  lemma ExportedLeavesStream(input: seq<bv8>, vlmax: nat, tailAt: nat -> Tail, undecoded: nat)
    requires 16 <= vlmax <= 64
    requires (ExportedIsWindowDecoder(vlmax); undecoded == WindowRun(input, vlmax, ExportedBatch, tailAt, 0).undecoded)
    ensures WellFormed(input) ==> WellFormed(input[|input| - undecoded..])
  {
    ExportedIsWindowDecoder(vlmax);
    LeavesStream(input, vlmax, ExportedBatch, tailAt, undecoded);
  }

  /** LeadAt, for a stream given as WellFormed. */
  lemma LeadOfStream(input: seq<bv8>, pos: nat) returns (lead: nat)
    requires WellFormed(input) && pos < |input| && (pos == 0 || IsTerminator(input[pos - 1]))
    ensures 1 <= lead <= 5 && pos + lead <= |input| && IsTerminator(input[pos + lead - 1])
  {
    StreamIsWellFormed(input);
    lead := LeadAt(input, pos);
  }

  /** A window with a terminator among its first bytes consumes its complete varints, ending on a terminator. */
  lemma WindowEnds(w: seq<bv8>, t: Tail, lead: nat)
    requires 16 <= |w| <= 64 && 1 <= lead <= |w| && IsTerminator(w[lead - 1])
    ensures var c := ExportedBatch(w, t).consumed;
            1 <= c <= |w| && IsTerminator(w[c - 1])
  {
    FirstLenSpec(w);
    assert CompleteLen(w) > 0;
    ExportedConsumes(w, t);
  }

  /** The complete-varint size of a window is between 1 and its length. */
  lemma SizeInWindow(mask: seq<bool>)
    requires 1 <= |mask| <= 255
    ensures 1 <= CompleteVarintSize(mask, false) <= |mask|
  {
    RedMaxBound(mask, false);
  }
}

=== FILE: vecshift.dfy ===
/**
 * The slide/compress kernels of varint_decode_vecshift.c. A batch of vl bytes
 * is slid down one to four times with zero fill; the lanes that follow a
 * terminator (the first bytes) are compressed out of the batch and out of each
 * slid copy, so that lane j of the k-th compressed register holds byte k of the
 * j-th varint. Group masks select the lanes whose varint is long enough for
 * each group, and the groups are added in, shifted into place.
 */
module Vecshift {
  import opened Rvv
  import opened Varint
  import opened Scalar

  /** Byte k of `t`, or the zero that vslide1down shifts in past its end. */
  function Front(t: seq<bv8>, k: nat): bv8 {
    if k < |t| then t[k] else 0
  }

  /** A batch slid down k times with zero fill: lane i holds byte i + k, or 0. */
  function Ahead(w: seq<bv8>, k: nat): (r: seq<bv8>)
    ensures |r| == |w|
  {
    seq(|w|, i requires 0 <= i < |w| => Front(w, i + k))
  }

  lemma AheadZero(w: seq<bv8>)
    ensures Ahead(w, 0) == w
  {
    assert forall i :: 0 <= i < |w| ==> Ahead(w, 0)[i] == w[i];
  }

  lemma SlideAhead(w: seq<bv8>, k: nat)
    ensures Slide1Down(Ahead(w, k), 0) == Ahead(w, k + 1)
  {
    var l, r := Slide1Down(Ahead(w, k), 0), Ahead(w, k + 1);
    assert forall i :: 0 <= i < |w| ==> l[i] == r[i] by {
      forall i | 0 <= i < |w|
        ensures l[i] == r[i]
      {
        assert r[i] == Front(w, i + k + 1);
        if i + 1 < |w| {
          assert l[i] == Ahead(w, k)[i + 1] == Front(w, i + 1 + k);
        } else {
          assert l[i] == 0;
        }
      }
    }
  }

  lemma AheadDrop(w: seq<bv8>, k: nat, n: nat)
    requires n <= |w|
    ensures Ahead(w, k)[n..] == Ahead(w[n..], k)
  {
    forall i | 0 <= i < |w| - n
      ensures Ahead(w, k)[n..][i] == Ahead(w[n..], k)[i]
    {
      assert Ahead(w, k)[n..][i] == Front(w, n + i + k);
      assert Ahead(w[n..], k)[i] == Front(w[n..], i + k);
      if i + k < |w| - n {
        assert w[n..][i + k] == w[n + i + k];
      }
    }
  }

  /**
   * m_first_bytes: the lanes whose predecessor, slid up with a 0 in lane 0, is
   * at most 0x7F. Lane i is a first byte exactly when i is 0 or byte i-1 is a
   * terminator.
   */
  function FirstBytes(w: seq<bv8>): (m: seq<bool>)
    ensures |m| == |w|
    ensures forall i :: 0 <= i < |w| ==> (m[i] <==> i == 0 || IsTerminator(w[i - 1]))
  {
    LeX(Slide1Up(w, 0), 0x7F)
  }

  /** Past a terminator, the first-byte mask of the rest is the rest of the first-byte mask. */
  lemma FirstBytesDrop(w: seq<bv8>, n: nat)
    requires 0 < n <= |w| && IsTerminator(w[n - 1])
    ensures FirstBytes(w)[n..] == FirstBytes(w[n..])
  {
  }

  /** Lane j of a compressed, k times slid batch is byte k of the suffix at varint j. */
  lemma {:induction false} CompressedLane(w: seq<bv8>, k: nat, j: nat)
    requires j < |Varints(w)|
    ensures j < |Tails(w)| && j < |w| && Compress(Ahead(w, k), FirstBytes(w))[j] == Front(Tails(w)[j], k)
    decreases j
  {
    if j == 0 {
      CompressedFirst(w, k);
    } else {
      var rest := w[FirstLen(w)..];
      assert |Varints(w)| == 1 + |Varints(rest)|;
      CompressedLane(rest, k, j - 1);
      CompressedNext(w, k, j);
    }
  }

  lemma CompressedFirst(w: seq<bv8>, k: nat)
    requires 0 < |Varints(w)|
    ensures 0 < |Tails(w)| && 0 < |w| && Compress(Ahead(w, k), FirstBytes(w))[0] == Front(Tails(w)[0], k)
  {
    var n := FirstLen(w);
    assert n > 0;
    FirstLenSpec(w);
    assert forall i :: 0 <= i < n && i != 0 ==> !FirstBytes(w)[i];
    CompressPeel(Ahead(w, k), FirstBytes(w), n, 0);
    assert Tails(w)[0] == w;
  }

  lemma CompressedNext(w: seq<bv8>, k: nat, j: nat)
    requires 0 < j < |Varints(w)|
    requires var rest := w[FirstLen(w)..];
             && j - 1 < |Tails(rest)| && j - 1 < |rest|
             && Compress(Ahead(rest, k), FirstBytes(rest))[j - 1] == Front(Tails(rest)[j - 1], k)
    ensures j < |Tails(w)| && j < |w| && Compress(Ahead(w, k), FirstBytes(w))[j] == Front(Tails(w)[j], k)
  {
    var n := FirstLen(w);
    var rest := w[n..];
    assert n > 0;
    var v, m := Ahead(w, k), FirstBytes(w);
    FirstLenSpec(w);
    assert forall i :: 0 <= i < n && i != 0 ==> !m[i];
    CompressPeel(v, m, n, 0);
    AheadDrop(w, k, n);
    FirstBytesDrop(w, n);
    assert Compress(v, m)[j] == Compress(Ahead(rest, k), FirstBytes(rest))[j - 1];
    assert |Tails(w)| == 1 + |Tails(rest)|;
    TailsNext(w, j);
  }

  /** first_bytes .. fifth_bytes: the batch and its four slid copies, compressed by the first-byte mask. */
  datatype Regs = Regs(first: seq<bv8>, second: seq<bv8>, third: seq<bv8>, fourth: seq<bv8>, fifth: seq<bv8>)

  predicate RegsOf(r: Regs, vl: nat) {
    |r.first| == |r.second| == |r.third| == |r.fourth| == |r.fifth| == vl
  }

  /** The four vslide1down copies and the five vcompress results. */
  function Gathered(data: seq<bv8>): (r: Regs)
    ensures RegsOf(r, |data|)
  {
    var v1 := Slide1Down(data, 0);
    var v2 := Slide1Down(v1, 0);
    var v3 := Slide1Down(v2, 0);
    var v4 := Slide1Down(v3, 0);
    var m := FirstBytes(data);
    Regs(Compress(data, m), Compress(v1, m), Compress(v2, m), Compress(v3, m), Compress(v4, m))
  }

  /** The slid copies are the batch looked at 1, 2, 3 and 4 bytes ahead. */
  lemma GatheredAhead(data: seq<bv8>)
    ensures Gathered(data) == Regs(Compress(Ahead(data, 0), FirstBytes(data)),
                                   Compress(Ahead(data, 1), FirstBytes(data)),
                                   Compress(Ahead(data, 2), FirstBytes(data)),
                                   Compress(Ahead(data, 3), FirstBytes(data)),
                                   Compress(Ahead(data, 4), FirstBytes(data)))
  {
    AheadZero(data);
    SlideAhead(data, 0);
    SlideAhead(data, 1);
    SlideAhead(data, 2);
    SlideAhead(data, 3);
  }

  /**
   * For each complete varint j, lane j of first_bytes .. fifth_bytes holds
   * bytes 0..4 from the start of varint j on, with 0 past the batch end.
   */
  lemma GatheredLane(data: seq<bv8>, j: nat)
    requires j < |Varints(data)|
    ensures j < |Tails(data)| && j < |data|
    ensures j < |Tails(data)| && j < |data| &&
            var r := Gathered(data); var t := Tails(data)[j];
            && r.first[j] == Front(t, 0) && r.second[j] == Front(t, 1) && r.third[j] == Front(t, 2)
            && r.fourth[j] == Front(t, 3) && r.fifth[j] == Front(t, 4)
  {
    GatheredAhead(data);
    CompressedLane(data, 0, j);
    CompressedLane(data, 1, j);
    CompressedLane(data, 2, j);
    CompressedLane(data, 3, j);
    CompressedLane(data, 4, j);
  }

  /** m_second_bytes .. m_fifth_bytes. */
  datatype Masks = Masks(second: seq<bool>, third: seq<bool>, fourth: seq<bool>, fifth: seq<bool>)

  /**
   * A lane reaches group k + 1 when its first k bytes all carry a continuation
   * bit, so the masks are nested: fifth within fourth within third within
   * second.
   */
  function GroupMasks(r: Regs): (m: Masks)
    requires RegsOf(r, |r.first|)
    ensures |m.second| == |m.third| == |m.fourth| == |m.fifth| == |r.first|
    ensures forall i :: 0 <= i < |r.first| ==> (m.second[i] <==> !IsTerminator(r.first[i]))
    ensures forall i :: 0 <= i < |r.first| ==> (m.third[i] <==> m.second[i] && !IsTerminator(r.second[i]))
    ensures forall i :: 0 <= i < |r.first| ==> (m.fourth[i] <==> m.third[i] && !IsTerminator(r.third[i]))
    ensures forall i :: 0 <= i < |r.first| ==> (m.fifth[i] <==> m.fourth[i] && !IsTerminator(r.fourth[i]))
  {
    var m2 := GtX(r.first, 0x7F);
    var m3 := MaskAnd(m2, GtX(r.second, 0x7F));
    var m4 := MaskAnd(m3, GtX(r.third, 0x7F));
    var m5 := MaskAnd(m4, GtX(r.fourth, 0x7F));
    Masks(m2, m3, m4, m5)
  }

  /** The payload lanes of a register: bit 7 cleared, zero-extended (vand.vx 0x7F, vzext.vf4). */
  function Payloads(v: seq<bv8>): (r: seq<bv32>)
    ensures |r| == |v|
    ensures forall i :: 0 <= i < |v| ==> r[i] == Payload(v[i])
  {
    Zext(AndX(v, 0x7F))
  }

  /**
   * result32 over the first nv lanes: the first group, then each further group
   * added under its mask after a shift by 7, 14, 21 or 28. The third, fourth
   * and fifth groups are skipped when their mask counts no lane.
   */
  function Assemble(r: Regs, m: Masks, nv: nat): (res: seq<bv32>)
    requires RegsOf(r, |r.first|) && nv <= |r.first|
    requires |m.second| == |m.third| == |m.fourth| == |m.fifth| == |r.first|
    ensures |res| == nv
  {
    var res2 := AddMasked(m.second[..nv], Payloads(r.first[..nv]), Sll7(Payloads(r.second[..nv])));
    if Count(m.third[..nv]) == 0 then res2
    else
      var res3 := AddMasked(m.third[..nv], res2, Sll14(Payloads(r.third[..nv])));
      if Count(m.fourth[..nv]) == 0 then res3
      else
        var res4 := AddMasked(m.fourth[..nv], res3, Sll21(Payloads(r.fourth[..nv])));
        if Count(m.fifth[..nv]) == 0 then res4
        else AddMasked(m.fifth[..nv], res4, Sll28(Payloads(r.fifth[..nv])))
  }

  /** number_of_bytes: number_of_varints plus the counts of the group masks over the first nv lanes. */
  function ByteCount(m: Masks, nv: nat): nat
    requires nv <= |m.second| && nv <= |m.third| && nv <= |m.fourth| && nv <= |m.fifth|
  {
    var c3 := Count(m.third[..nv]);
    var c4 := Count(m.fourth[..nv]);
    nv + Count(m.second[..nv])
    + (if c3 == 0 then 0 else c3 + (if c4 == 0 then 0 else c4 + Count(m.fifth[..nv])))
  }

  /** What one batch yields: the values stored and the bytes consumed. */
  datatype Batch = Batch(values: seq<bv32>, consumed: nat)

  /**
   * One iteration of varint_decode_vecshift on a batch of vl bytes: the fast
   * path when every byte is a terminator, otherwise the slide/compress kernel.
   * number_of_varints is a uint8_t, hence vl <= 255.
   */
  function VecshiftBatch(data: seq<bv8>): (b: Batch)
    requires 0 < |data| <= 255
    ensures |b.values| == Count(SignedGeZero(data))
  {
    var nv := Count(SignedGeZero(data));
    if nv == |data| then Batch(Zext(data), |data|)
    else
      var r := Gathered(data);
      var m := GroupMasks(r);
      Batch(Assemble(r, m, nv), ByteCount(m, nv))
  }

  /** One lane of the kernel, from its five bytes: the group masks and the masked adds. */
  function LaneSum(a: bv8, b: bv8, c: bv8, d: bv8, e: bv8): bv32 {
    var m2 := !IsTerminator(a);
    var m3 := m2 && !IsTerminator(b);
    var m4 := m3 && !IsTerminator(c);
    var m5 := m4 && !IsTerminator(d);
    AddIf(m5, AddIf(m4, AddIf(m3, AddIf(m2, Payload(a), Shl7(Payload(b))), Shl14(Payload(c))),
                    Shl21(Payload(d))), Shl28(Payload(e)))
  }

  /** Skipping a group whose mask counts no lane changes no lane: every lane is the full lane sum. */
  lemma AssembleLane(r: Regs, nv: nat, j: nat)
    requires RegsOf(r, |r.first|) && j < nv <= |r.first|
    ensures Assemble(r, GroupMasks(r), nv)[j]
            == LaneSum(r.first[j], r.second[j], r.third[j], r.fourth[j], r.fifth[j])
  {
    var m := GroupMasks(r);
    CountZero(m.third[..nv]);
    CountZero(m.fourth[..nv]);
    CountZero(m.fifth[..nv]);
    assert m.third[..nv][j] == m.third[j] && m.fourth[..nv][j] == m.fourth[j];
    assert m.fifth[..nv][j] == m.fifth[j];
  }

  lemma LaneSum1(a: bv8, b: bv8, c: bv8, d: bv8, e: bv8)
    requires IsTerminator(a)
    ensures LaneSum(a, b, c, d, e) == Value([a])
  {
    LaneSum1Groups(a, b, c, d, e);
    ValueOf1(a);
  }

  lemma LaneSum1Groups(a: bv8, b: bv8, c: bv8, d: bv8, e: bv8)
    requires IsTerminator(a)
    ensures LaneSum(a, b, c, d, e) == Payload(a)
  {
  }

  lemma LaneSum2(a: bv8, b: bv8, c: bv8, d: bv8, e: bv8)
    requires !IsTerminator(a) && IsTerminator(b)
    ensures LaneSum(a, b, c, d, e) == Value([a, b])
  {
    LaneSum2Groups(a, b, c, d, e);
    ValueOf2(a, b);
  }

  lemma LaneSum2Groups(a: bv8, b: bv8, c: bv8, d: bv8, e: bv8)
    requires !IsTerminator(a) && IsTerminator(b)
    ensures LaneSum(a, b, c, d, e) == Payload(a) + (Payload(b) << 7)
  {
  }

  lemma LaneSum3(a: bv8, b: bv8, c: bv8, d: bv8, e: bv8)
    requires !IsTerminator(a) && !IsTerminator(b) && IsTerminator(c)
    ensures LaneSum(a, b, c, d, e) == Value([a, b, c])
  {
    LaneSum3Groups(a, b, c, d, e);
    ValueOf3(a, b, c);
  }

  lemma LaneSum3Groups(a: bv8, b: bv8, c: bv8, d: bv8, e: bv8)
    requires !IsTerminator(a) && !IsTerminator(b) && IsTerminator(c)
    ensures LaneSum(a, b, c, d, e) == Payload(a) + (Payload(b) << 7) + (Payload(c) << 14)
  {
  }

  lemma LaneSum4(a: bv8, b: bv8, c: bv8, d: bv8, e: bv8)
    requires !IsTerminator(a) && !IsTerminator(b) && !IsTerminator(c) && IsTerminator(d)
    ensures LaneSum(a, b, c, d, e) == Value([a, b, c, d])
  {
    LaneSum4Groups(a, b, c, d, e);
    ValueOf4(a, b, c, d);
  }

  lemma LaneSum4Groups(a: bv8, b: bv8, c: bv8, d: bv8, e: bv8)
    requires !IsTerminator(a) && !IsTerminator(b) && !IsTerminator(c) && IsTerminator(d)
    ensures LaneSum(a, b, c, d, e) == Payload(a) + (Payload(b) << 7) + (Payload(c) << 14) + (Payload(d) << 21)
  {
  }

  lemma LaneSum5(a: bv8, b: bv8, c: bv8, d: bv8, e: bv8)
    requires !IsTerminator(a) && !IsTerminator(b) && !IsTerminator(c) && !IsTerminator(d) && IsTerminator(e)
    ensures LaneSum(a, b, c, d, e) == Value([a, b, c, d, e])
  {
    LaneSum5Groups(a, b, c, d, e);
    ValueOf5(a, b, c, d, e);
  }

  lemma LaneSum5Groups(a: bv8, b: bv8, c: bv8, d: bv8, e: bv8)
    requires !IsTerminator(a) && !IsTerminator(b) && !IsTerminator(c) && !IsTerminator(d) && IsTerminator(e)
    ensures LaneSum(a, b, c, d, e) == Payload(a) + (Payload(b) << 7) + (Payload(c) << 14) + (Payload(d) << 21) + (Payload(e) << 28)
  {
  }

  /** The lane sum of the five bytes from a varint of one to five bytes on is that varint's value. */
  lemma LaneSumValue(t: seq<bv8>)
    requires 0 < FirstLen(t) <= 5
    ensures LaneSum(Front(t, 0), Front(t, 1), Front(t, 2), Front(t, 3), Front(t, 4))
            == Value(t[..FirstLen(t)])
  {
    var n := FirstLen(t);
    FirstLenSpec(t);
    var a, b, c, d, e := Front(t, 0), Front(t, 1), Front(t, 2), Front(t, 3), Front(t, 4);
    if n == 1 {
      Prefix1(t);
      LaneSum1(a, b, c, d, e);
    } else if n == 2 {
      Prefix2(t);
      LaneSum2(a, b, c, d, e);
    } else if n == 3 {
      Prefix3(t);
      LaneSum3(a, b, c, d, e);
    } else if n == 4 {
      Prefix4(t);
      LaneSum4(a, b, c, d, e);
    } else {
      Prefix5(t);
      LaneSum5(a, b, c, d, e);
    }
  }

  /** The group masks of lane j say how many bytes complete varint j has. */
  lemma LaneMasks(t: seq<bv8>)
    requires 0 < FirstLen(t) <= 5
    ensures !IsTerminator(Front(t, 0)) <==> FirstLen(t) > 1
    ensures FirstLen(t) > 1 ==> (!IsTerminator(Front(t, 1)) <==> FirstLen(t) > 2)
    ensures FirstLen(t) > 2 ==> (!IsTerminator(Front(t, 2)) <==> FirstLen(t) > 3)
    ensures FirstLen(t) > 3 ==> (!IsTerminator(Front(t, 3)) <==> FirstLen(t) > 4)
  {
    FirstLenSpec(t);
  }

  /**
   * On a batch whose complete varints have at most five bytes each, lane j of
   * the assembled result is the value of complete varint j.
   */
  lemma LaneValue(data: seq<bv8>, j: nat)
    requires 0 < |data| <= 255 && Framed(data) && j < |Varints(data)|
    ensures j < Count(SignedGeZero(data)) <= |data|
    ensures var r := Gathered(data);
            Assemble(r, GroupMasks(r), Count(SignedGeZero(data)))[j] == Value(Varints(data)[j])
  {
    VarintsAreTerminators(data);
    var r := Gathered(data);
    GatheredLane(data, j);
    TailAt(data, j);
    assert Varints(data)[j] in Varints(data);
    AssembleLane(r, Count(SignedGeZero(data)), j);
    LaneSumValue(Tails(data)[j]);
  }

  /** Each stored lane is what ReadVarint32FromArray reads at the start of its varint, 5th-group wrap included. */
  lemma LaneIsScalarRead(data: seq<bv8>, j: nat)
    requires 0 < |data| <= 255 && Framed(data) && j < |Varints(data)|
    ensures j < |Tails(data)| && j < Count(SignedGeZero(data)) <= |data|
    ensures Readable(Tails(data)[j])
    ensures var r := Gathered(data);
            Assemble(r, GroupMasks(r), Count(SignedGeZero(data)))[j] == ReadVarint32(Tails(data)[j]).value
  {
    LaneValue(data, j);
    TailAt(data, j);
    assert Varints(data)[j] in Varints(data);
    ReadLeading(Tails(data)[j]);
  }

  /** The kernel's stored lanes are the values of the batch's complete varints. */
  lemma KernelValues(data: seq<bv8>)
    requires 0 < |data| <= 255 && Framed(data)
    ensures Count(SignedGeZero(data)) <= |data|
    ensures var r := Gathered(data);
            Assemble(r, GroupMasks(r), Count(SignedGeZero(data))) == Values(data)
  {
    var r := Gathered(data);
    var nv := Count(SignedGeZero(data));
    VarintsAreTerminators(data);
    forall j | 0 <= j < nv
      ensures Assemble(r, GroupMasks(r), nv)[j] == Values(data)[j]
    {
      LaneValue(data, j);
    }
  }

  /** The mask of group k + 1: set on lanes whose varint is longer than k bytes. */
  function Layer(m: Masks, k: nat): (l: seq<bool>)
    requires 1 <= k <= 4
    ensures |l| in {|m.second|, |m.third|, |m.fourth|, |m.fifth|}
  {
    if k == 1 then m.second else if k == 2 then m.third else if k == 3 then m.fourth else m.fifth
  }

  /** Lane j of each group mask says whether complete varint j is long enough for that group. */
  lemma MaskLane(data: seq<bv8>, k: nat, j: nat)
    requires Framed(data) && 1 <= k <= 4 && j < |Varints(data)|
    ensures j < |Layer(GroupMasks(Gathered(data)), k)|
    ensures Layer(GroupMasks(Gathered(data)), k)[j] <==> |Varints(data)[j]| > k
  {
    GatheredLane(data, j);
    TailAt(data, j);
    var t := Tails(data)[j];
    assert Varints(data)[j] in Varints(data);
    assert |Varints(data)[j]| == FirstLen(t);
    LayerLane(Gathered(data), t, j, k);
  }

  /** Lane j of a group mask, for registers whose lane j holds the bytes of the varint `t` starts with. */
  lemma LayerLane(r: Regs, t: seq<bv8>, j: nat, k: nat)
    requires RegsOf(r, |r.first|) && j < |r.first| && 1 <= k <= 4 && 0 < FirstLen(t) <= 5
    requires r.first[j] == Front(t, 0) && r.second[j] == Front(t, 1)
    requires r.third[j] == Front(t, 2) && r.fourth[j] == Front(t, 3)
    ensures j < |Layer(GroupMasks(r), k)| && (Layer(GroupMasks(r), k)[j] <==> FirstLen(t) > k)
  {
    LaneMasks(t);
  }

  /** Over the first number_of_varints lanes, a group mask is the length test of the complete varints. */
  lemma MaskPrefix(data: seq<bv8>, k: nat)
    requires Framed(data) && 1 <= k <= 4
    ensures Count(SignedGeZero(data)) <= |Layer(GroupMasks(Gathered(data)), k)|
    ensures Layer(GroupMasks(Gathered(data)), k)[..Count(SignedGeZero(data))] == LongerThan(data, k)
  {
    VarintsAreTerminators(data);
    var l := Layer(GroupMasks(Gathered(data)), k);
    var t := LongerThan(data, k);
    assert |t| <= |data| == |l|;
    forall j | 0 <= j < |t|
      ensures l[j] == t[j]
    {
      MaskLane(data, k, j);
    }
    PrefixByLanes(l, t);
  }

  lemma PrefixByLanes<T>(l: seq<T>, t: seq<T>)
    requires |t| <= |l| && forall j :: 0 <= j < |t| ==> l[j] == t[j]
    ensures l[..|t|] == t
  {
  }

  /** A varint longer than k + 1 bytes is longer than k bytes. */
  lemma LongerNested(w: seq<bv8>, k: nat)
    requires Count(LongerThan(w, k)) == 0
    ensures Count(LongerThan(w, k + 1)) == 0
  {
    var longer := LongerThan(w, k + 1);
    CountZero(LongerThan(w, k));
    forall i | 0 <= i < |longer|
      ensures !longer[i]
    {
      assert !LongerThan(w, k)[i];
    }
    CountZero(longer);
  }

  /** Once the masks are nested, skipping empty groups changes nothing: the byte count is the sum of the group counts. */
  lemma ByteCountSums(m: Masks, nv: nat)
    requires nv <= |m.second| && nv <= |m.third| && nv <= |m.fourth| && nv <= |m.fifth|
    requires Count(m.third[..nv]) == 0 ==> Count(m.fourth[..nv]) == 0
    requires Count(m.fourth[..nv]) == 0 ==> Count(m.fifth[..nv]) == 0
    ensures ByteCount(m, nv) == nv + Count(m.second[..nv]) + Count(m.third[..nv])
                                + Count(m.fourth[..nv]) + Count(m.fifth[..nv])
  {
  }

  /** Masks whose first nv lanes are the length tests of the nv complete varints count exactly their bytes. */
  lemma BytesOfLayers(m: Masks, nv: nat, data: seq<bv8>)
    requires Framed(data) && nv == |Varints(data)|
    requires nv <= |m.second| && nv <= |m.third| && nv <= |m.fourth| && nv <= |m.fifth|
    requires m.second[..nv] == LongerThan(data, 1) && m.third[..nv] == LongerThan(data, 2)
    requires m.fourth[..nv] == LongerThan(data, 3) && m.fifth[..nv] == LongerThan(data, 4)
    ensures ByteCount(m, nv) == CompleteLen(data)
  {
    if Count(LongerThan(data, 2)) == 0 {
      LongerNested(data, 2);
      LongerNested(data, 3);
    } else if Count(LongerThan(data, 3)) == 0 {
      LongerNested(data, 3);
    }
    ByteCountSums(m, nv);
    forall j | 0 <= j < nv
      ensures LongerThan(data, 0)[j]
    {
      TailAt(data, j);
    }
    CountFull(LongerThan(data, 0));
    ByteTotal(data);
  }

  /** number_of_bytes is the byte length of the batch's complete varints; a trailing partial varint is not consumed. */
  lemma KernelBytes(data: seq<bv8>)
    requires 0 < |data| <= 255 && Framed(data)
    ensures Count(SignedGeZero(data)) <= |data|
    ensures ByteCount(GroupMasks(Gathered(data)), Count(SignedGeZero(data))) == CompleteLen(data)
  {
    VarintsAreTerminators(data);
    MaskPrefix(data, 1);
    MaskPrefix(data, 2);
    MaskPrefix(data, 3);
    MaskPrefix(data, 4);
    BytesOfLayers(GroupMasks(Gathered(data)), Count(SignedGeZero(data)), data);
  }

  /**
   * Batch equals scalar: one iteration on a batch whose complete varints have
   * at most five bytes stores their values, in order, and consumes exactly
   * their bytes.
   */
  lemma VecshiftBatchDecodes(data: seq<bv8>)
    requires 0 < |data| <= 255 && Framed(data)
    ensures VecshiftBatch(data) == Batch(Values(data), CompleteLen(data))
  {
    var nv := Count(SignedGeZero(data));
    if nv == |data| {
      CountFull(SignedGeZero(data));
      AllTerminators(data);
    } else {
      KernelValues(data);
      KernelBytes(data);
    }
  }

  /** On a batch of terminators only, the kernel would store and consume exactly what the fast path does. */
  lemma FastPathIsKernel(data: seq<bv8>)
    requires 0 < |data| <= 255 && Count(SignedGeZero(data)) == |data|
    ensures var r := Gathered(data); var m := GroupMasks(r);
            Assemble(r, m, |data|) == Zext(data) && ByteCount(m, |data|) == |data|
  {
    CountFull(SignedGeZero(data));
    AllTerminators(data);
    KernelValues(data);
    KernelBytes(data);
  }

  /**
   * One turn of the vecshift loop on a batch cut from a stream: the batch
   * holds at least one complete varint, so the cursor moves forward; the
   * stored values are the batch's, and what remains is again a stream. On a
   * batch of terminators only, the fast path stores the vl bytes widened and
   * advances by vl.
   */
  lemma VecshiftStep(rest: seq<bv8>, vl: nat)
    requires WellFormed(rest) && 0 < vl <= |rest| && vl <= 255 && (vl >= 5 || vl == |rest|)
    ensures var b := VecshiftBatch(rest[..vl]);
            && 1 <= b.consumed <= vl
            && WellFormed(rest[b.consumed..])
            && Values(rest) == b.values + Values(rest[b.consumed..])
    ensures Count(SignedGeZero(rest[..vl])) == vl ==> VecshiftBatch(rest[..vl]) == Batch(Zext(rest[..vl]), vl)
  {
    WindowOfStream(rest, vl);
    VecshiftBatchDecodes(rest[..vl]);
  }

  /** vl = min(length, VLMAX): one of the choices section 6.3 of RVV 1.0 allows for vsetvl. */
  function SetVl(length: nat, vlmax: nat): (vl: nat)
    ensures vl <= length && vl <= vlmax
    ensures vl == length || vl == vlmax
  {
    if length < vlmax then length else vlmax
  }

  /**
   * varint_decode_vecshift (and varint_decode_vecshift_m2, the same loop over
   * a register group twice as wide): batches of vl = min(length, VLMAX)
   * bytes until no byte is left, with no scalar tail. On a stream it writes
   * the value of every varint in stream order and returns how many it wrote.
   */
  method VecshiftDecode(input: seq<bv8>, vlmax: nat) returns (out: seq<bv32>, processed: nat)
    requires WellFormed(input)
    requires 16 <= vlmax <= 255
    ensures out == Values(input)
    ensures processed == |out|
  {
    out := [];
    processed := 0;
    var rest := input;
    while |rest| > 0
      invariant WellFormed(rest)
      invariant Values(input) == out + Values(rest)
      invariant processed == |out|
      decreases |rest|
    {
      var b := VecshiftRound(rest, vlmax);
      SeqAssoc(out, b.values, Values(rest[b.consumed..]));
      out := out + b.values;
      processed := processed + |b.values|;
      rest := rest[b.consumed..];
    }
  }

  /** One iteration of the loop: a batch of vl = min(length, VLMAX) bytes advances by whole varints. */
  method VecshiftRound(rest: seq<bv8>, vlmax: nat) returns (b: Batch)
    requires WellFormed(rest) && 0 < |rest| && 16 <= vlmax <= 255
    ensures 1 <= b.consumed <= |rest| && WellFormed(rest[b.consumed..])
    ensures Values(rest) == b.values + Values(rest[b.consumed..])
  {
    var vl := SetVl(|rest|, vlmax);
    b := VecshiftBatch(rest[..vl]);
    VecshiftStep(rest, vl);
  }
}

=== FILE: vecshift16.dfy ===
/**
 * varint_decode_vecshift_u16: the vecshift kernel with the first two groups
 * (and the third and fourth) paired in 16-bit lanes by a widening
 * multiply-accumulate, widened to 32 bits only to join the two pairs.
 *
 * The pairing never wraps (each pair is below 2^14), so lane for lane it
 * stores what the plain vecshift kernel stores, and it consumes the same
 * number of bytes: the two variants agree on every batch.
 */
module Vecshift16 {
  import opened Rvv
  import opened Varint
  import opened Vecshift

  /** A result12 or result34 lane: the low group's payload plus, on a set lane, 128 times the high group's. */
  function Pair16(c: bool, lo: bv8, hi: bv8): bv32 {
    MaccIf16(c, Payload(lo), 128, Payload(hi))
  }

  /** A pair of 7-bit groups fits in 14 bits, so the 16-bit lane never wraps. */
  lemma PairBound(c: bool, lo: bv8, hi: bv8)
    ensures Pair16(c, lo, hi) < 0x4000
  {
  }

  /** The 16-bit pairing is the 32-bit shift-and-add of the plain kernel. */
  lemma PairExact(c: bool, lo: bv8, hi: bv8)
    ensures Pair16(c, lo, hi) == AddIf(c, Payload(lo), Shl7(Payload(hi)))
  {
  }

  /** One stored lane of the u16 kernel, from the five bytes of its varint (as LaneSum is for the plain kernel). */
  function Lane16(a: bv8, b: bv8, c: bv8, d: bv8, e: bv8): bv32 {
    var m2 := !IsTerminator(a);
    var m3 := m2 && !IsTerminator(b);
    var m4 := m3 && !IsTerminator(c);
    var m5 := m4 && !IsTerminator(d);
    AddIf(m5, Macc16384If(m3, Pair16(m2, a, b), Pair16(m4, c, d)), Shl28(Payload(e)))
  }

  /**
   * The u16 lane equals the plain kernel's lane for every five bytes: the
   * pairs never wrap, and 16384 times result34 puts its groups at bits 14
   * and 21.
   */
  lemma Lane16IsLaneSum(a: bv8, b: bv8, c: bv8, d: bv8, e: bv8)
    ensures Lane16(a, b, c, d, e) == LaneSum(a, b, c, d, e)
  {
    if IsTerminator(a) {
      Agree1(a, b, c, d, e);
    } else if IsTerminator(b) {
      Agree2(a, b, c, d, e);
    } else if IsTerminator(c) {
      Agree3(a, b, c, d, e);
    } else if IsTerminator(d) {
      Agree4(a, b, c, d, e);
    } else {
      Agree5(a, b, c, d, e);
    }
  }

  lemma Agree1(a: bv8, b: bv8, c: bv8, d: bv8, e: bv8)
    requires IsTerminator(a)
    ensures Lane16(a, b, c, d, e) == LaneSum(a, b, c, d, e)
  {
  }

  lemma Agree2(a: bv8, b: bv8, c: bv8, d: bv8, e: bv8)
    requires !IsTerminator(a) && IsTerminator(b)
    ensures Lane16(a, b, c, d, e) == LaneSum(a, b, c, d, e)
  {
  }

  lemma Agree3(a: bv8, b: bv8, c: bv8, d: bv8, e: bv8)
    requires !IsTerminator(a) && !IsTerminator(b) && IsTerminator(c)
    ensures Lane16(a, b, c, d, e) == LaneSum(a, b, c, d, e)
  {
  }

  lemma Agree4(a: bv8, b: bv8, c: bv8, d: bv8, e: bv8)
    requires !IsTerminator(a) && !IsTerminator(b) && !IsTerminator(c) && IsTerminator(d)
    ensures Lane16(a, b, c, d, e) == LaneSum(a, b, c, d, e)
  {
  }

  lemma Agree5(a: bv8, b: bv8, c: bv8, d: bv8, e: bv8)
    requires !IsTerminator(a) && !IsTerminator(b) && !IsTerminator(c) && !IsTerminator(d)
    ensures Lane16(a, b, c, d, e) == LaneSum(a, b, c, d, e)
  {
  }

  /** result12: bytes one and two of each of the first nv lanes, paired in 16 bits. */
  function Result12(r: Regs, m: Masks, nv: nat): (v: seq<bv32>)
    requires RegsOf(r, |r.first|) && nv <= |r.first| && nv <= |m.second|
    ensures |v| == nv
    ensures forall i :: 0 <= i < nv ==> v[i] < 0x4000
    ensures forall i :: 0 <= i < nv ==> v[i] == Pair16(m.second[i], r.first[i], r.second[i])
  {
    var v := WMacc16(m.second[..nv], Payloads(r.first[..nv]), 128, Payloads(r.second[..nv]));
    assert forall i :: 0 <= i < nv ==> v[i] == Pair16(m.second[i], r.first[i], r.second[i]);
    forall i | 0 <= i < nv {
      PairBound(m.second[i], r.first[i], r.second[i]);
    }
    v
  }

  /** result34: bytes three and four of each of the first nv lanes, paired in 16 bits. */
  function Result34(r: Regs, m: Masks, nv: nat): (v: seq<bv32>)
    requires RegsOf(r, |r.first|) && nv <= |r.first| && nv <= |m.fourth|
    ensures |v| == nv
    ensures forall i :: 0 <= i < nv ==> v[i] < 0x4000
    ensures forall i :: 0 <= i < nv ==> v[i] == Pair16(m.fourth[i], r.third[i], r.fourth[i])
  {
    var v := WMacc16(m.fourth[..nv], Payloads(r.third[..nv]), 128, Payloads(r.fourth[..nv]));
    assert forall i :: 0 <= i < nv ==> v[i] == Pair16(m.fourth[i], r.third[i], r.fourth[i]);
    forall i | 0 <= i < nv {
      PairBound(m.fourth[i], r.third[i], r.fourth[i]);
    }
    v
  }

  /**
   * result1234: result12 plus 16384 times result34 on the lanes of varints of
   * three bytes or more; the fifth group is added (shifted by 28) only when
   * some lane has one.
   */
  function AssembleU16(r: Regs, m: Masks, nv: nat): (res: seq<bv32>)
    requires RegsOf(r, |r.first|) && nv <= |r.first|
    requires |m.second| == |m.third| == |m.fourth| == |m.fifth| == |r.first|
    ensures |res| == nv
  {
    var result1234 := WMacc16384(m.third[..nv], Result12(r, m, nv), Result34(r, m, nv));
    if Count(m.fifth[..nv]) > 0 then AddMasked(m.fifth[..nv], result1234, Sll28(Payloads(r.fifth[..nv])))
    else result1234
  }

  /** number_of_bytes of the u16 kernel: every group count is added, none is skipped. */
  function ByteCountU16(m: Masks, nv: nat): nat
    requires nv <= |m.second| && nv <= |m.third| && nv <= |m.fourth| && nv <= |m.fifth|
  {
    nv + Count(m.second[..nv]) + Count(m.third[..nv]) + Count(m.fourth[..nv]) + Count(m.fifth[..nv])
  }

  /** One loop iteration of varint_decode_vecshift_u16 on the vl bytes loaded. */
  function VecshiftU16Batch(data: seq<bv8>): (b: Batch)
    requires 0 < |data| <= 255
    ensures |b.values| == Count(SignedGeZero(data))
  {
    var nv := Count(SignedGeZero(data));
    if nv == |data| then Batch(Zext(data), |data|)
    else
      var r := Gathered(data);
      var m := GroupMasks(r);
      Batch(AssembleU16(r, m, nv), ByteCountU16(m, nv))
  }

  /** Lane j of the u16 result is Lane16 of the lane's five bytes. */
  lemma AssembleU16Lane(r: Regs, nv: nat, j: nat)
    requires RegsOf(r, |r.first|) && j < nv <= |r.first|
    ensures AssembleU16(r, GroupMasks(r), nv)[j]
            == Lane16(r.first[j], r.second[j], r.third[j], r.fourth[j], r.fifth[j])
  {
    var m := GroupMasks(r);
    CountZero(m.fifth[..nv]);
    assert m.third[..nv][j] == m.third[j] && m.fifth[..nv][j] == m.fifth[j];
  }

  /** The u16 kernel stores what the plain kernel stores. */
  lemma AssembleAgrees(r: Regs, nv: nat)
    requires RegsOf(r, |r.first|) && nv <= |r.first|
    ensures AssembleU16(r, GroupMasks(r), nv) == Assemble(r, GroupMasks(r), nv)
  {
    forall j | 0 <= j < nv
      ensures AssembleU16(r, GroupMasks(r), nv)[j] == Assemble(r, GroupMasks(r), nv)[j]
    {
      AssembleU16Lane(r, nv, j);
      AssembleLane(r, nv, j);
      Lane16IsLaneSum(r.first[j], r.second[j], r.third[j], r.fourth[j], r.fifth[j]);
    }
  }

  /** Adding every group count equals the plain kernel's count that skips empty groups. */
  lemma ByteCountAgrees(r: Regs, nv: nat)
    requires RegsOf(r, |r.first|) && nv <= |r.first|
    ensures ByteCountU16(GroupMasks(r), nv) == ByteCount(GroupMasks(r), nv)
  {
    var m := GroupMasks(r);
    CountNested(m.third[..nv], m.fourth[..nv]);
    CountNested(m.fourth[..nv], m.fifth[..nv]);
    ByteCountSums(m, nv);
  }

  /** varint_decode_vecshift_u16 and varint_decode_vecshift agree on every batch, framed or not. */
  lemma U16AgreesWithVecshift(data: seq<bv8>)
    requires 0 < |data| <= 255
    ensures VecshiftU16Batch(data) == VecshiftBatch(data)
  {
    var nv := Count(SignedGeZero(data));
    if nv != |data| {
      AssembleAgrees(Gathered(data), nv);
      ByteCountAgrees(Gathered(data), nv);
    }
  }

  /** Hence one u16 batch also stores the values of the complete varints and consumes exactly their bytes. */
  lemma VecshiftU16BatchDecodes(data: seq<bv8>)
    requires 0 < |data| <= 255 && Framed(data)
    ensures VecshiftU16Batch(data) == Batch(Values(data), CompleteLen(data))
  {
    U16AgreesWithVecshift(data);
    VecshiftBatchDecodes(data);
  }

  /** The loop of varint_decode_vecshift_u16: the vecshift loop around the u16 kernel. */
  method VecshiftU16Decode(input: seq<bv8>, vlmax: nat) returns (out: seq<bv32>, processed: nat)
    requires WellFormed(input)
    requires 16 <= vlmax <= 255
    ensures out == Values(input)
    ensures processed == |out|
  {
    out := [];
    processed := 0;
    var rest := input;
    while |rest| > 0
      invariant WellFormed(rest)
      invariant Values(input) == out + Values(rest)
      invariant processed == |out|
      decreases |rest|
    {
      var b := U16Round(rest, vlmax);
      SeqAssoc(out, b.values, Values(rest[b.consumed..]));
      out := out + b.values;
      processed := processed + |b.values|;
      rest := rest[b.consumed..];
    }
  }

  /** One iteration of the loop: the u16 kernel advances by whole varints, as the vecshift kernel does. */
  method U16Round(rest: seq<bv8>, vlmax: nat) returns (b: Batch)
    requires WellFormed(rest) && 0 < |rest| && 16 <= vlmax <= 255
    ensures 1 <= b.consumed <= |rest| && WellFormed(rest[b.consumed..])
    ensures Values(rest) == b.values + Values(rest[b.consumed..])
  {
    var vl := SetVl(|rest|, vlmax);
    b := VecshiftU16Batch(rest[..vl]);
    U16AgreesWithVecshift(rest[..vl]);
    VecshiftStep(rest, vl);
  }
}
